=== FILE: README.md ===
# CRM signup gateway — a Dafny model

This project models the core of a small Symfony service that sits in front of a CRM API. The model covers:

- **The CRM client.** This is its retry decider and back-off delay, how it sorts transport failures and HTTP errors into a closed set of error kinds, and the requests it sends for subscribers, lists and enquiries.
- **The error records.** The model covers the formatted messages and the suggested actions of the client exceptions. It also covers the application's own `ValidationException`.
- **The response envelopes.** These are the `ApiResponse` envelope and the subscriber, signup and enquiry factories built on it.
- **The list service.** It keeps an allow-list of marketing lists and a process-wide list cache with a 300-second TTL. It resolves a selection by name or id, and validates selections.
- **The services.** This is the subscriber service with its validators, and the enquiry service with its message checks. It also includes the signup flow, which validates, resolves lists, upserts the subscriber and files an optional enquiry.
- **The controller gates.** This is the content-type check, the body check, the required-field checks, and the arguments handed to the services with their defaults.

Everything is pure functions over immutable datatypes.

- **Upstream answers are inputs.** One `CrmClient.Outcome` describes what an endpoint answered after the HTTP library's retries: delivered, client error, server error, connect failure or other transfer failure.
- **The cache is explicit state.** The list cache is a `ListService.Cache` record threaded through the calls, and the clock is a `now` argument in seconds.
- **The environment is explicit.** Email syntax, lenient date parsing and today's date come from an `Env` record.
- **Requests are recorded.** Every service returns the requests it made, so "nothing was sent" can be proved.

The modules follow the source layout:

- `Values`, `Seqs`, `Text` and `Dates` hold the PHP value model and string helpers.
- `Retry`, `CrmErrors` and `CrmClient` model the client.
- `AppErrors` models the application's `ValidationException`.
- `ApiResponses`, `SubscriberResponses`, `SignupResponses` and `EnquiryResponses` model the envelopes.
- `ListService`, `SubscriberService`, `EnquiryService`, `SignupService` and `Controllers` model the services and gates.

Three behaviours of the code are easy to miss, and the model keeps them:

- **Id matching is loose.** A list id is matched with PHP's loose `in_array`. So an integer id matches its decimal text, and a `null` id matches the empty selection.
- **Empty fetches are not cached.** A fetch that returned no lists is never served from the cache. Only a non-empty cache is fresh.
- **A 403 keeps the 401 code.** It becomes an authentication error whose code is the default 401. Its HTTP status 403 is kept separately.

The `ApiResponse` factories build the base class with `new self`, even when reached through a subclass. `ApiResponses.Returned` models PHP's return-type check on such an envelope. So the subclass factories that return `parent::...`, and `SignupResponse::error`, are `TypeError`s as written. They are listed under "## Findings", and the intended envelopes are kept beside them.

## Model

| member | source | states |
|---|---|---|
| Retry.ShouldRetry | src/Client/CrmApiClient.php:69-95 | Retries exactly when the configured count has not been reached and the attempt failed transiently: a connect failure, a status of 500 and up, or 429. So a plain success or redirect (below 400, no connect failure) is never retried, nor is any other 4xx or transfer failure. |
| Retry.GrantedRetries | src/Client/CrmApiClient.php:69-95 | Counting from the given retry number, every retry granted was one the decider approved for that attempt, and the run stops at the first attempt it refuses or when the attempts run out. |
| Retry.RetriesAreBounded | src/Client/CrmApiClient.php:69-95 | Counting from 0, the decider grants at most `retryAttempts` retries in any run of attempts. |
| Retry.TransientFailuresUseEveryRetry | src/Client/CrmApiClient.php:69-95 | While every attempt fails transiently, exactly `retryAttempts` retries are granted. |
| Retry.ClientErrorIsNeverRetried | src/Client/CrmApiClient.php:69-95 | A first attempt answered with a 4xx other than 429 is not retried. |
| Retry.RetryDelay | src/Client/CrmApiClient.php:97-102 | The delay is 0 before any retry and the base delay for the first retry. |
| Retry.DelayIsLinear | src/Client/CrmApiClient.php:97-102 | The delay is additive in the retry number, so it is the base delay times the retry number. |
| Retry.DelayIsMonotone | src/Client/CrmApiClient.php:97-102 | With a non-negative base delay, a later retry never waits less. |
| Retry.TotalBackoffClosedForm | src/Client/CrmApiClient.php:97-102 | The waits before retries 1..n add up to base·n(n+1)/2. |
| Retry.DefaultBackoff | src/Client/CrmApiClient.php:30-44 | With the constructor defaults (3 retries, 1000 ms), three transient failures wait 6000 ms in total. |
| CrmErrors.NewCrmApiException | src/Client/Exception/CrmApiException.php:14-29 | Builds a generic error that keeps every argument; by default the message is empty and the code is 0. |
| CrmErrors.NewAuthentication | src/Client/Exception/AuthenticationException.php:7-17 | Builds an authentication error that keeps its arguments; the defaults are "Authentication failed" and 401. |
| CrmErrors.NewNetwork | src/Client/Exception/NetworkException.php:7-17 | Builds a network error that keeps its arguments; the defaults are "Network error occurred" and code 0. |
| CrmErrors.NewNotFound | src/Client/Exception/NotFoundException.php:10-24 | Builds a not-found error carrying the resource type and id; the defaults are "Resource not found" and 404. |
| CrmErrors.NewValidation | src/Client/Exception/ValidationException.php:9-21 | Builds a validation error carrying its field errors; the defaults are no errors and code 400. |
| CrmErrors.ConstructorDefaults | src/Client/Exception/AuthenticationException.php:7-17 | Gives the default message and code of each error class; a network error has no HTTP status. |
| CrmErrors.RequestTag | src/Client/Exception/CrmApiException.php:56-69 | Gives " [METHOD endpoint]" when both are non-empty, else nothing. |
| CrmErrors.StatusTag | src/Client/Exception/CrmApiException.php:56-69 | Gives " (HTTP n)" when a non-zero status is known, else nothing. |
| CrmErrors.BaseFormattedMessage | src/Client/Exception/CrmApiException.php:56-69 | Starts with the message, then the request tag, then the status tag. Its length is their sum, and it is the bare message when neither tag applies. |
| CrmErrors.ResourceTag | src/Client/Exception/NotFoundException.php:36-47 | Gives " - type with ID \"id\" not found", or " - type not found" without an id, and nothing without a type. |
| CrmErrors.FormattedMessage | src/Client/Exception/NotFoundException.php:36-47 | Extends the base message. Only a not-found error with a type adds the resource tag after it. |
| CrmErrors.ForResource | src/Client/Exception/NotFoundException.php:49-65 | Builds a 404 not-found error with status 404, no context, and the message "Type with ID \"id\" not found" (type upper-cased first). |
| CrmErrors.ForResourceText | src/Client/Exception/NotFoundException.php:36-65 | For a non-empty, non-"0" type and id, `forResource` with no request data formats as "Type with ID \"id\" not found (HTTP 404)" followed by " - type with ID \"id\" not found", so the resource is named twice. |
| CrmErrors.ConnectionErrorIffConnect | src/Client/Exception/NetworkException.php:25-29 | The "connection" test adds nothing: a network error is a connection error exactly when its lower-cased message contains "connect". |
| CrmErrors.NetworkSuggestedAction | src/Client/Exception/NetworkException.php:37-52 | Advice in precedence order: timeout, connection, DNS, otherwise general. |
| CrmErrors.NetworkClassifiersIgnoreCase | src/Client/Exception/NetworkException.php:19-35 | `isTimeout`, `isConnectionError` and `isDnsError` each hold exactly when the message contains one of their words in any mixture of upper and lower case: "timeout" or "timed out"; "connect"; "dns" or "resolve". |
| CrmErrors.TimedOutConnectionGetsTimeoutAdvice | src/Client/Exception/NetworkException.php:19-52 | Any message mentioning both "connect" and "timed out", in any case, is a timeout and a connection error at once, and the timeout test wins: it gets the timeout advice. |
| CrmErrors.AuthSuggestedAction | src/Client/Exception/AuthenticationException.php:31-42 | Advice in precedence order: expired token, invalid token, otherwise credentials. |
| CrmErrors.AuthClassifiersIgnoreCase | src/Client/Exception/AuthenticationException.php:19-29 | `isTokenExpired` holds exactly when the message contains "expired" or "token" in any case, and `isInvalidToken` exactly when it contains "invalid" or "unauthorized". |
| CrmErrors.InvalidTokenGetsRefreshAdvice | src/Client/Exception/AuthenticationException.php:19-42 | Any message mentioning "token", in any case, counts as an expired token, so it gets the refresh advice, also when it also says "invalid" and so is an invalid token. |
| CrmErrors.FieldErrorsFrom | src/Client/Exception/ValidationException.php:33-38 | Keeps exactly the entries whose `field` is the name, with their original indices, in increasing order. |
| CrmErrors.FieldErrors | src/Client/Exception/ValidationException.php:33-38 | `getFieldErrors`: every entry for the field and nothing else, keyed by its original index as `array_filter` keeps it. |
| CrmErrors.FormattedValidationMessage | src/Client/Exception/ValidationException.php:40-55 | With no field errors it is the plain message; otherwise it is no longer than message, header and lines together. |
| CrmErrors.ErrorLinesJoin | src/Client/Exception/ValidationException.php:48-52 | The accumulated "- field: message\n" lines are the lines joined by newlines, plus a final newline. |
| CrmErrors.FormattedValidationMessageLines | src/Client/Exception/ValidationException.php:40-55 | When the ends carry no whitespace, the result is the message, the header, then the lines joined by newlines (the trim removes only the final newline). |
| AppErrors.FirstError | src/Exception/ValidationException.php:27-30 | Null exactly when there are no errors, otherwise the first collected message. |
| AppErrors.HasErrorsMeaning | src/Exception/ValidationException.php:22-40 | `hasErrors()` holds exactly when there is a first error. Without errors the joined string is empty, and after any `addError` there are errors. |
| AppErrors.AddError | src/Exception/ValidationException.php:32-35 | Appends one message, keeps every earlier one and the exception message, and afterwards there are errors. |
| AppErrors.AddToEmptyIsFirst | src/Exception/ValidationException.php:27-35 | A message added to an empty exception becomes the first error. |
| AppErrors.AddKeepsFirst | src/Exception/ValidationException.php:27-35 | Adding never changes an existing first error. |
| AppErrors.ErrorsAsString | src/Exception/ValidationException.php:37-40 | Empty for no errors; a single error as itself. |
| AppErrors.ErrorsAsStringAfterAdd | src/Exception/ValidationException.php:32-40 | After adding, the string is the old string, "; ", then the new message (or just the message if there were none). |
| AppErrors.ErrorsAsStringLength | src/Exception/ValidationException.php:37-40 | The joined length is the total message length plus two per separator. |
| CrmClient.Decoded | src/Client/CrmApiClient.php:104-111 | An undecodable or null body is read as `[]`, any other body as itself. |
| CrmClient.BodyMessage | src/Client/CrmApiClient.php:123-195 | A set `message` in the error body replaces the default; an absent one leaves the default. |
| CrmClient.BodyFields | src/Client/CrmApiClient.php:131-139 | A list `fields` entry becomes the validation errors; an absent one gives none. |
| CrmClient.ClientError | src/Client/CrmApiClient.php:123-178 | 400 becomes a validation error with the body's fields ("Validation failed", 400). 401 and 403 become authentication errors with code 401 ("Authentication failed" / "Access denied"). 404 becomes not-found (404). Any other status is generic, with the status as its code and "API request failed". Every case keeps the status, the request and the body. |
| CrmClient.ServerError | src/Client/CrmApiClient.php:180-195 | A generic error with the status as code and HTTP status, the body as context, and "Server error occurred" by default. |
| CrmClient.MakeRequest | src/Client/CrmApiClient.php:104-121 | Succeeds exactly on delivery, with the decoded body. A connect failure becomes a network error and any other transfer failure a generic one. Both have code 0, no status, and keep the transport message and the request. |
| CrmClient.ErrorRecordsItsOrigin | src/Client/CrmApiClient.php:123-215 | Every failure records the request's method and endpoint. A status is recorded exactly when the upstream answered. |
| CrmClient.FailureContext | src/Client/CrmApiClient.php:123-215 | `hasContext()` of a failure: always true after a connect or transfer failure (the original error is recorded). After an HTTP error it is true exactly when the decoded body is a non-empty array. |
| CrmClient.ValidationErrorsFromBody | src/Client/CrmApiClient.php:130-138 | A 400 is a validation error. `hasValidationErrors()` holds exactly when the body has a non-empty list under `fields`, and without such errors the formatted message is the bare message. |
| CrmClient.ForbiddenKeepsDefaultCode | src/Client/CrmApiClient.php:150-157 | A 403 is an authentication error with code 401, HTTP status 403 and the default "Access denied". |
| CrmClient.BodyMessageOverridesDefault | src/Client/CrmApiClient.php:123-195 | A string `message` in an error body becomes the error's message, for client and server errors alike. |
| CrmClient.ClassifiedClientErrorsAreFinal | src/Client/CrmApiClient.php:69-95 | The statuses with their own error class (400, 401, 403, 404) are never retried, whatever the retry count. |
| CrmClient.SubscriberPayload | src/Client/CrmApiClient.php:217-231 | Exactly six keys. Email defaults to '', consent to false, the list ids travel under `lists` defaulting to [], and the names and date are passed as given. |
| CrmClient.CreateSubscriberRequest | src/Client/CrmApiClient.php:217-231 | A POST of the payload to /api/subscriber. |
| CrmClient.UpsertSubscriberRequest | src/Client/CrmApiClient.php:233-247 | A PUT of the payload to /api/subscriber. |
| CrmClient.WritesDifferOnlyInMethod | src/Client/CrmApiClient.php:217-247 | Create and upsert send the same payload to the same endpoint, differing only in the verb. |
| CrmClient.PayloadIgnoresOtherKeys | src/Client/CrmApiClient.php:217-231 | Keys other than the six subscriber fields never reach the payload. |
| CrmClient.EnquiryRequest | src/Client/CrmApiClient.php:261-270 | A POST to /api/subscriber/{id}/enquiry whose only key is `message`, defaulting to ''. |
| CrmClient.SubKey | src/Client/CrmApiClient.php:217-270 | `$data[key] ?? []`: a set value is returned, otherwise [], and errors pass through unchanged. |
| CrmClient.ExtractionDefaults | src/Client/CrmApiClient.php:217-275 | On delivery each operation returns its key of the body, or [] when it is missing. The raw and status calls return the whole body. |
| CrmClient.FailuresPassThrough | src/Client/CrmApiClient.php:217-254 | A failed call surfaces the request's error unchanged, naming its own verb and endpoint. |
| CrmClient.CreateSubscriber | src/Client/CrmApiClient.php:217-231 | Succeeds exactly on delivery, with the body's `subscriber` or [] when it is missing. A failure is the POST's error for /api/subscriber, with the upstream status recorded. |
| CrmClient.CreateOrUpdateSubscriber | src/Client/CrmApiClient.php:233-247 | As for create, for the PUT to /api/subscriber. |
| CrmClient.GetSubscriberLists | src/Client/CrmApiClient.php:249-254 | Succeeds exactly on delivery, with the body's `lists` or []. A failure names GET /api/lists and its status. |
| CrmClient.GetRawSubscriberLists | src/Client/CrmApiClient.php:256-259 | Succeeds exactly on delivery with the whole decoded body; a failure names GET /api/lists. |
| CrmClient.CreateEnquiry | src/Client/CrmApiClient.php:261-270 | Succeeds exactly on delivery, with the body's `enquiry` or []. A failure names the POST to the subscriber's enquiry endpoint. |
| CrmClient.GetApiStatus | src/Client/CrmApiClient.php:272-275 | Succeeds exactly on delivery with the whole decoded body; a failure names GET /. |
| ApiResponses.Render | src/Response/ApiResponse.php:9-36 | `success`, `timestamp` and `status` are always present. `message` is present iff non-null, `data` iff non-null, `errors` iff non-empty, each with its value. |
| ApiResponses.StatusFieldIsHttpStatus | src/Response/ApiResponse.php:9-36 | The body's `status` always equals the HTTP status the response is sent with. |
| ApiResponses.Read | src/Response/ApiResponse.php:9-36 | Reading a body back: absent message and data are null, and absent errors are []. |
| ApiResponses.RenderReadRoundTrip | src/Response/ApiResponse.php:9-36 | Reading a rendered envelope gives back the envelope, up to the form of an empty error collection. |
| ApiResponses.RenderIsInjective | src/Response/ApiResponse.php:9-36 | Two envelopes render alike exactly when they agree up to the form of empty errors. |
| ApiResponses.New | src/Response/ApiResponse.php:9-18 | The constructor's defaults: success, no data, no message, no errors, 200. |
| ApiResponses.Success | src/Response/ApiResponse.php:38-49 | A successful envelope with no errors, 200 by default. |
| ApiResponses.Error | src/Response/ApiResponse.php:51-64 | A failed envelope, 400 by default. |
| ApiResponses.ValidationError | src/Response/ApiResponse.php:66-77 | A failed envelope without data, "Validation failed" and 422 by default. |
| ApiResponses.NotFound | src/Response/ApiResponse.php:79-89 | A failed envelope, always 404, "Resource not found" by default. |
| ApiResponses.ServerError | src/Response/ApiResponse.php:91-101 | A failed envelope, always 500, "Internal server error" by default. |
| ApiResponses.Returned | src/Response/ApiResponse.php:51-101 | A value of class `built` returned where `declared` is declared passes exactly when it is an instance of the declared class, and then unchanged. A base instance where a subclass is declared is a `TypeError`, so no value. |
| ApiResponses.FactoryEnvelopes | src/Response/ApiResponse.php:38-101 | The rendered factories: success never has errors. The failures say false with their fixed or default statuses. The not-found and server-error bodies have exactly four keys. |
| ApiResponses.ErrorList | src/Response/ApiResponse.php:29-31 | A list of messages renders as `errors` exactly when it is non-empty. |
| SubscriberResponses.SubscriberData | src/Response/SubscriberResponse.php:7-19 | `data` has exactly the key `subscriber`, holding the subscriber. |
| SubscriberResponses.Created | src/Response/SubscriberResponse.php:7-19 | Success, 201, with the subscriber. |
| SubscriberResponses.Updated | src/Response/SubscriberResponse.php:21-32 | Success, 200, with the subscriber. |
| SubscriberResponses.Retrieved | src/Response/SubscriberResponse.php:34-45 | Success, 200, with the subscriber. |
| SubscriberResponses.List | src/Response/SubscriberResponse.php:47-58 | Success, 200, with `data.subscribers`. |
| SubscriberResponses.SubscriberValidationError | src/Response/SubscriberResponse.php:60-70 | A failure, 422, carrying the errors. |
| SubscriberResponses.SubscriberNotFound | src/Response/SubscriberResponse.php:72-80 | As evidently intended: a 404 that carries `data.subscriberId` when the id is non-empty. |
| SubscriberResponses.SubscriberNotFoundAsWritten | src/Response/SubscriberResponse.php:72-80 | As written: every call is a `TypeError`, because `parent::notFound` builds a base `ApiResponse` where `self` is declared. |
| SubscriberResponses.Error | src/Response/SubscriberResponse.php:82-95 | A failure, 400 by default. |
| SubscriberResponses.WriteEnvelopes | src/Response/SubscriberResponse.php:7-32 | Created and updated render the same data and differ only in status, 201 against 200. |
| SignupResponses.SignupData | src/Response/SignupResponse.php:7-26 | `data.subscriber` is always present; `data.enquiry` is present exactly when the enquiry is non-null. |
| SignupResponses.SignupSuccess | src/Response/SignupResponse.php:7-26 | Success, 201, "Signup completed successfully" by default. |
| SignupResponses.Updated | src/Response/SignupResponse.php:28-46 | Success, 200, with the same data shape. |
| SignupResponses.SignupValidationError | src/Response/SignupResponse.php:48-58 | A failure, 422, "Signup validation failed". |
| SignupResponses.AgeValidationError | src/Response/SignupResponse.php:60-71 | A 422 with the message repeated under `errors.dateOfBirth`. |
| SignupResponses.MarketingConsentError | src/Response/SignupResponse.php:73-84 | A 422 with the message under `errors.marketingConsent`. |
| SignupResponses.ExternalApiError | src/Response/SignupResponse.php:86-98 | A failure, 500, whose data names an external API error and a suggestion. |
| SignupResponses.Summary | src/Response/SignupResponse.php:100-109 | Success, 200, with the given data. |
| SignupResponses.SuccessEnvelope | src/Response/SignupResponse.php:7-26 | The rendered success has status 201 and the subscriber. It has an `enquiry` entry exactly when one was given, carried unchanged. |
| SignupResponses.KeyedErrorEnvelopes | src/Response/SignupResponse.php:60-98 | The keyed 422 errors always render, under their own field only. The 500 names `external_api_error`. |
| EnquiryResponses.WithSubscriber | src/Response/EnquiryResponse.php:8-27 | The keyed value is always present; `subscriber` is present exactly when it is non-null. |
| EnquiryResponses.Created | src/Response/EnquiryResponse.php:8-27 | Success, 201, with `data.enquiry`. |
| EnquiryResponses.Retrieved | src/Response/EnquiryResponse.php:29-40 | Success, 200, with only `data.enquiry`. |
| EnquiryResponses.List | src/Response/EnquiryResponse.php:42-60 | Success, 200, with `data.enquiries`. |
| EnquiryResponses.EnquiryValidationError | src/Response/EnquiryResponse.php:62-67 | As evidently intended: a 422 validation envelope without data, carrying the errors and "Enquiry validation failed". |
| EnquiryResponses.EnquiryValidationErrorAsWritten | src/Response/EnquiryResponse.php:62-67 | As written: every call is a `TypeError`, because `parent::validationError` builds a base `ApiResponse` where `self` is declared. |
| EnquiryResponses.EnquiryNotFound | src/Response/EnquiryResponse.php:69-77 | As evidently intended: a 404 carrying `data.enquiryId` when the id is given. |
| EnquiryResponses.EnquiryNotFoundAsWritten | src/Response/EnquiryResponse.php:69-77 | As written: every call is a `TypeError`, because `parent::notFound` builds a base `ApiResponse` where `self` is declared. |
| EnquiryResponses.Error | src/Response/EnquiryResponse.php:79-92 | A failure, 400 by default. |
| EnquiryResponses.CreatedEnvelope | src/Response/EnquiryResponse.php:8-27 | The rendered creation has status 201 and the enquiry. It has a subscriber entry exactly when one was given. |
| EnquiryResponses.ListEnvelope | src/Response/EnquiryResponse.php:42-60 | The rendered list has status 200, the enquiries, and a subscriber entry exactly when one was given. |
| ListService.MarketingListIgnoresCase | src/Service/ListService.php:101-104 | A name is a marketing list exactly when it spells london, birmingham or edinburgh in some mixture of upper and lower case. Two names equal up to case are both marketing lists or neither. |
| ListService.FilterMarketingLists | src/Service/ListService.php:122-130 | The marketing entries with their original keys, as `array_filter` keeps them, in increasing key order. Every marketing entry is kept, and there are exactly as many as in the input, so none is dropped, duplicates included. |
| ListService.MarketingValues | src/Service/ListService.php:73-99 | The marketing entries after re-indexing: each is a marketing entry of the input, every one is kept, and their order is the input's. |
| ListService.FetchLists | src/Service/ListService.php:106-120 | The client is asked exactly when the cache is empty or 300 s old. A fresh cache is served unchanged. Otherwise the result is the client's answer: an error exactly when the call was not delivered, and the same error, or the entries of the delivered `lists`. A successful fetch replaces the cache stamped `now`, and a failure leaves it. |
| ListService.CacheReuse | src/Service/ListService.php:106-120 | A non-empty list the client has just returned is served from the cache, without asking the client, for the next 300 s. An empty fetch is never reused. |
| ListService.StaleCacheIsRefetched | src/Service/ListService.php:106-120 | Once the TTL has passed, the client is asked again. |
| ListService.GetListsForSubscriber | src/Service/ListService.php:40-65 | Always fetches first. Without consent or on failure the result is empty. With consent and a fetched list it is the chosen lists, with keys in increasing order. |
| ListService.SelectLists | src/Service/ListService.php:55-60 | With a selection, the re-indexed marketing lists that some selection names, ignoring case, or loosely equals by id. Their keys are their positions, and the values are exactly the input's chosen entries in order. |
| ListService.ChooseLists | src/Service/ListService.php:49-60 | An empty selection gives every marketing list with its original key, gaps included. A non-empty selection gives the selected ones re-indexed. In both cases the values are a subsequence of the input, and an entry is there exactly when it is chosen. |
| ListService.GetListIdsForSubscriber | src/Service/ListService.php:67-71 | The `id` of each resolved list, position by position and under the same key, which `array_map` keeps. It uses the same cache. |
| ListService.InvalidSelectionText | src/Service/ListService.php:89-91 | The error names the selection and lists "london, birmingham, edinburgh". |
| ListService.SelectionErrors | src/Service/ListService.php:86-93 | No errors exactly when every selection names an available list. Each error belongs to an unavailable selection, every such selection has one, in selection order, and there are exactly as many errors as unavailable selections, duplicates included. |
| ListService.ValidateSelectedLists | src/Service/ListService.php:73-99 | An empty selection answers [] without fetching. A failed fetch gives one "Unable to validate lists: " error. Otherwise the errors are those of `SelectionErrors` over the marketing lists: one per unmatched selection, in order. |
| ListService.ValidatedSelectionsResolve | src/Service/ListService.php:40-99 | After a selection passes validation, resolving it with consent asks the client nothing. Every selection then names a resolved list. |
| SubscriberService.ChecksAreDistinct | src/Service/SubscriberService.php:93-132 | The six validation messages differ from one another. |
| SubscriberService.ValidateSubscriberData | src/Service/SubscriberService.php:93-139 | Each message is present exactly when its check fails. These are: invalid email; email over 255; a given first or last name over 255; a given date that is not strict Y-m-d; and a strict date whose age as written is under 18, that is, one before its 18th anniversary and not past the 18th anniversary of today. A format error excludes the age error, and the messages keep check order. |
| SubscriberService.IsValidAge | src/Service/SubscriberService.php:134-153 | As written: false for no date or one the lenient parser rejects. Otherwise true exactly when the 18th anniversary has been reached or the date lies past the 18th anniversary of today, since `diff()->y` is absolute. |
| SubscriberService.AdultAsWrittenMeaning | src/Service/SubscriberService.php:134-139 | The age as written reaches 18 exactly when the 18th anniversary has passed or the birth date lies past the 18th anniversary of today. |
| SubscriberService.IsValidAgeIntended | src/Service/SubscriberService.php:141-153 | The corrected check: the same failures for a missing or unparseable date, and true exactly when the 18th anniversary has been reached, which implies a birth date in the past. |
| SubscriberService.AgeTestsDifferOnlyAhead | src/Service/SubscriberService.php:134-153 | The written and corrected checks disagree exactly on dates that parse and lie past the 18th anniversary of today. |
| SubscriberService.GetMinimumAge | src/Service/SubscriberService.php:155-158 | 18. |
| SubscriberService.AgeChecksAgree | src/Service/SubscriberService.php:115-153 | On a strictly formatted date, the validator's age error and `isValidAge` agree. |
| SubscriberService.PayloadCarriesArguments | src/Service/SubscriberService.php:23-45 | The payload sent carries the service's arguments unchanged, with the list ids under `lists`. |
| SubscriberService.Write | src/Service/SubscriberService.php:23-91 | Invalid arguments give the 422 and no request; valid ones give exactly one request carrying the payload. |
| SubscriberService.CreateSubscriber | src/Service/SubscriberService.php:23-56 | Invalid: 422 with the errors and no request. Valid: one POST. Success: 201 with the client's subscriber. Client error: 400 with "Failed to create subscriber: " + message and errors [message]. |
| SubscriberService.CreateOrUpdateSubscriber | src/Service/SubscriberService.php:58-91 | Likewise with a PUT, 200 on success and "Failed to create or update subscriber: ". |
| SubscriberService.UpsertStatusIffSuccess | src/Service/SubscriberService.php:58-91 | The upsert answers 200 or 201 exactly when the arguments are valid and the client call is delivered. |
| EnquiryService.ValidateEnquiryData | src/Service/EnquiryService.php:51-71 | Each message is present exactly when its check fails: empty, over 10000 characters, only whitespace. The empty message gets both the empty and the whitespace message, in that order. |
| EnquiryService.ValidateMessage | src/Service/EnquiryService.php:73-84 | No errors exactly when the message is 1..10000 characters and not only whitespace. |
| EnquiryService.ValidateMessageMatchesWrite | src/Service/EnquiryService.php:19-84 | For an invalid message, the errors `validateMessage` reports are the errors the intended write rejects it with. The write as written has no answer for it. |
| EnquiryService.BlankMessagesFail | src/Service/EnquiryService.php:64-66 | A whitespace-only message always fails, and the empty one with exactly two errors. |
| EnquiryService.CreateEnquiry | src/Service/EnquiryService.php:19-45 | As written: no answer (a `TypeError` from `enquiryValidationError`) exactly when the message is invalid. Otherwise exactly the intended write. |
| EnquiryService.Submit | src/Service/EnquiryService.php:23-35 | One POST carries the message. Success exactly when the client succeeds: 201 with the client's enquiry. A client error gives 400 with "Failed to create enquiry: " + message. |
| EnquiryService.CreateEnquiryIntended | src/Service/EnquiryService.php:19-45 | As evidently intended: an invalid message gives 422 with its errors and no request. A valid one gives one POST with the message, 201 with the client's enquiry on success, or 400 with "Failed to create enquiry: " + message. |
| EnquiryService.EnquiryRequestCarriesMessage | src/Service/EnquiryService.php:23-27 | A valid message is sent in exactly one request, as its only field. |
| EnquiryService.SubscriberIdOf | src/Service/EnquiryService.php:47-49 | A string id is passed as itself. A null id, or a subscriber that is not an array, cannot be passed. |
| EnquiryService.CreateEnquiryFromSubscriber | src/Service/EnquiryService.php:47-49 | An answer exactly when the id can be passed and the message is valid. When the id can be passed, it is exactly `createEnquiry` with that id. |
| EnquiryService.FromSubscriberUsesItsId | src/Service/EnquiryService.php:47-49 | The subscriber's id appears unchanged in the enquiry path. |
| SignupService.ValidateSignupData | src/Service/SignupService.php:87-118 | No errors exactly when all of these pass: the email; the age as written of a given date; a non-empty selection; and a message that asks for an enquiry. The email error comes first, then the age error. The message errors come last, and every list error is included. Only a non-empty selection fetches lists. |
| SignupService.SignupErrorOrder | src/Service/SignupService.php:87-118 | The errors are, in order: the email and age errors (each present exactly when its check fails, email first), then exactly the list check's errors, then exactly the message errors. Nothing else appears. |
| SignupService.SignupErrorParts | src/Service/SignupService.php:87-118 | The signup errors are the email error, the age error, the list errors and the message errors, concatenated in that order. |
| SignupService.EnquiryStep | src/Service/SignupService.php:56-75 | The enquiry requests are exactly one POST of the message to the subscriber's id when the id can be passed and the message is valid, and none otherwise. It is a `TypeError` exactly when the id cannot be passed, the message is invalid, or the delivered enquiry is not an array. Otherwise 201 with the subscriber, and the enquiry only when delivered. |
| SignupService.AfterWrite | src/Service/SignupService.php:39-75 | As written: a non-200/201 write, and an empty subscriber, both end in `SignupResponse::error`, which is a `TypeError`, so there is no answer and no enquiry. An enquiry needs a message and a successful write. Any answer is the 201 success with the written subscriber. |
| SignupService.AfterSubscriber | src/Service/SignupService.php:54-75 | A subscriber that is not an array is a `TypeError`. Any answer is the 201 success carrying that subscriber. Without a message that asks for one there is no enquiry, and the answer exists exactly for an array subscriber. |
| SignupService.SignupErrorAsWritten | src/Response/ApiResponse.php:51-64 | `SignupResponse::error` as written is always a `TypeError`. |
| SignupService.AfterWriteIntended | src/Service/SignupService.php:39-83 | As evidently intended: a non-200/201 write answers 400 "Failed to create subscriber", and an empty subscriber the unexpected error, both without an enquiry. With a subscriber it is exactly the written steps. |
| SignupService.AfterWriteDiffersOnlyOnFailure | src/Service/SignupService.php:39-83 | The written and intended steps differ exactly on a refused write or an empty subscriber. There the written one has no answer and the intended one has a failed envelope. |
| SignupService.ProcessSignup | src/Service/SignupService.php:16-85 | At most two list fetches, one subscriber write, and an enquiry only after a write. |
| SignupService.SubscriberArgsOf | src/Service/SignupService.php:30-37 | The upsert receives the form's names, email, date and consent. The list ids are a JSON list of the ids when their keys are 0..n-1, and an object keyed by the original positions otherwise. |
| SignupService.RejectedFormWritesNothing | src/Service/SignupService.php:26-78 | A failing form answers 422 with every error and writes nothing. Without a selection it does not even fetch the lists. |
| SignupService.SubscriberFailureSkipsEnquiry | src/Service/SignupService.php:30-44 | A refused subscriber write never leads to an enquiry. A form that failed validation answers 422. Otherwise there is no answer, because `SignupResponse::error` is a `TypeError`. |
| SignupService.LenientDateFailsTheWrite | src/Service/SignupService.php:101-103 | A date the lenient parser accepts but that is not strict Y-m-d passes signup validation. The subscriber write then rejects it without a request, and the signup has no answer (the `TypeError` of `SignupResponse::error`). |
| SignupService.CompletedSignup | src/Service/SignupService.php:16-85 | A successful answer means the form passed, the subscriber PUT was delivered, and the answer is 201 with the subscriber. |
| SignupService.SignupCompletes | src/Service/SignupService.php:30-75 | The converse of `CompletedSignup`. A form that passes the signup and subscriber checks, with a delivered PUT, completes exactly when the CRM's `subscriber` is a non-empty array and, for a message that asks for an enquiry, the id can be passed and a delivered enquiry is an array. |
| SignupService.AfterSubscriberCompletes | src/Service/SignupService.php:54-75 | The steps after a written subscriber give an answer exactly when the subscriber is an array and, for a message that asks for an enquiry, the id can be passed and a delivered enquiry is an array. |
| SignupService.AfterWriteEnquiry | src/Service/SignupService.php:54-75 | After any write, an enquiry request exists only for a message that asks for one, and it POSTs that message. A delivered enquiry then appears in the answer as the CRM's `enquiry` entry. |
| SignupService.EnquiryOnlyForMessage | src/Service/SignupService.php:56-61 | An enquiry request is made only for a message that is not just whitespace, and it carries that message. Without one the answer has no enquiry. |
| SignupService.AfterWriteSurvivesEnquiryFailure | src/Service/SignupService.php:54-75 | After the write, replacing the enquiry outcome with a failure keeps the status, success flag, subscriber and requests, and drops the enquiry. |
| SignupService.EnquiryFailureIsNotFatal | src/Service/SignupService.php:54-75 | For the whole signup, a failing enquiry never changes the status, success, subscriber or requests, and leaves no enquiry in the answer. |
| SignupService.DeliveredEnquiryIsIncluded | src/Service/SignupService.php:63-75 | A delivered enquiry appears in the answer as the CRM's `enquiry` entry, or [] when there was none. |
| SignupService.ValidatedSelectionFetchedOnce | src/Service/SignupService.php:26-28 | A validated selection is resolved from the cache that validation filled, so the lists are fetched at most once. |
| SignupService.NoConsentNoLists | src/Service/SignupService.php:28-37 | Without consent, the subscriber is written with an empty list set, whatever was selected. |
| SignupService.WriteCarriesListIds | src/Service/SignupService.php:28-37 | The subscriber write sends under `lists` exactly the encoded ids of the lists resolved for the form, keys included. |
| SignupService.SignupWrites | src/Service/SignupService.php:26-37 | A form that fails validation writes nothing. One that passes writes exactly the upsert's requests, made with the form's fields and the resolved list ids. |
| Controllers.RequestData | src/Controller/Api/SignupController.php:55-74 | A content type without "application/json" gives "Request must be JSON". A decode error gives "Invalid JSON: " plus the message. A non-array gives "Request data must be an object". An array body is the data. |
| Controllers.FormattedDatesMatch | src/Controller/Api/SignupController.php:86-88 | Every Y-m-d date matches the shape pattern, also with a trailing newline, which PCRE's `$` admits. |
| Controllers.RequireSubscriberFields | src/Controller/Api/SignupController.php:76-89 | An empty email is rejected first, then an empty date, then a date not matching the pattern. A non-empty array date is a `TypeError`. |
| Controllers.NullableArgument | src/Controller/Api/SignupController.php:27-32 | Null stays null and a string stays itself. Only an array is a `TypeError`. |
| Controllers.ConsentArgument | src/Controller/Api/SignupController.php:30 | Missing is false; a scalar converts by truthiness; an array is a `TypeError`. |
| Controllers.AllTexts | src/Controller/Api/SignupController.php:31 | A list holding only strings is read as those strings, position by position. |
| Controllers.SelectionArgument | src/Controller/Api/SignupController.php:31 | Missing is []. A scalar is a `TypeError`. A list of strings is the selection. |
| Controllers.SignupArguments | src/Controller/Api/SignupController.php:25-33 | The forwarded arguments are the coerced fields. The date always matches the pattern. The defaults are no names, consent false, empty selection, no message. |
| Controllers.SignupGate | src/Controller/Api/SignupController.php:19-53 | Request errors and field failures become rejections with their message. Only a request passing both is forwarded. |
| Controllers.ListIdsArgument | src/Controller/Api/SubscriberController.php:33 | Missing list ids are []. An array passes, and a scalar is a `TypeError`. |
| Controllers.SubscriberArguments | src/Controller/Api/SubscriberController.php:27-34 | The forwarded arguments are the coerced fields with list ids defaulting to []; nothing is rejected at this point. |
| Controllers.SubscriberGate | src/Controller/Api/SubscriberController.php:19-90 | As for signup, with the subscriber's own field check. |
| Controllers.RequireEnquiryFields | src/Controller/Api/EnquiryController.php:73-86 | The checks run in order: an empty subscriber id, an empty message, a message that is not a string. It passes exactly when none applies. |
| Controllers.EnquiryGate | src/Controller/Api/EnquiryController.php:19-86 | The request checks and then the field checks. What it forwards has a non-empty id and a non-empty string message, taken from the body. |
| Controllers.RejectionBody | src/Controller/Api/SignupController.php:37-43 | Exactly the keys success (false), message ("Invalid request data"), errors ([message]) and timestamp. |
| Controllers.RejectionIsNotAnEnvelope | src/Controller/Api/SignupController.php:37-43 | A rejection body has no `status` field, so it is never an `ApiResponse` body. Its errors equal those of the error factory. |
| Controllers.NonJsonIsRejectedEverywhere | src/Controller/Api/EnquiryController.php:52-58 | A non-JSON request is rejected by all three controllers with "Request must be JSON". |
| Controllers.SignupDefaults | src/Controller/Api/SignupController.php:25-33 | A form with only email and date reaches the service with no names, consent false, no selection and no message. |
| Controllers.ControllersRequireDate | src/Controller/Api/SubscriberController.php:83-85 | Unlike the services, the signup and subscriber controllers reject a form with no date of birth. |
| Controllers.ForwardedSignupHasDate | src/Controller/Api/SignupController.php:82-88 | A forwarded signup always carries a date that matches the pattern. |
| Controllers.EnquiryMessageOrder | src/Controller/Api/EnquiryController.php:79-85 | With a subscriber id, an empty message of any type (0 and false included) is "required", and a non-empty message that is not a string "must be a string". |
| Dates.Age | src/Service/SubscriberService.php:134-139 | The corrected age: the number of anniversaries reached by today, negative exactly for a birth date in the future. |
| Dates.AgeAsWritten | src/Service/SubscriberService.php:134-139 | `diff()->y` as written: never negative. It equals the age for a birth date not in the future. For a future one it is the number of whole years from today to the birth date, counted a moment short, so the anniversary itself does not count. |
| Dates.FutureBirthDatePassesAsWritten | src/Service/SubscriberService.php:134-139 | A birth date more than eighteen years in the future counts as at least 18 as written, though the corrected age is negative. |
| Dates.FutureBirthDateExample | src/Service/SubscriberService.php:134-139 | Today 2026-10-10 and birth 2044-10-11: 18 as written, negative when corrected. |
| Dates.ExactFutureAnniversaryFallsShort | src/Service/SubscriberService.php:134-139 | A birth date exactly eighteen years ahead counts as 17 as written, because the parsed date carries a time of day a moment earlier than today's. |
| Dates.AdultIsBornBeforeToday | src/Service/SubscriberService.php:141-153 | An age of one year or more means the birth date lies in the past. |
| Dates.FormattedDateHasShape | src/Service/SubscriberService.php:118 | Every date with a year from 0 to 9999 renders as four digits, '-', two digits, '-', two digits. |
| Text.Trim | src/Service/EnquiryService.php:64 | `trim` strips the six PHP whitespace characters from both ends and is empty exactly for a whitespace-only string. |
| Text.ScalarText | src/Service/EnquiryService.php:47-49 | A string passes as itself. Null and arrays cannot be passed as a `string`. |
| Text.LowerContains | src/Client/Exception/NetworkException.php:19-35 | Searching the lower-cased text for a lower-case word is finding the word in the text in any case. |
| Text.EncodeArray | src/Service/SignupService.php:30-37 | `json_encode` of a PHP array: a list when the keys are 0..n-1 in order, otherwise an object mapping each key's decimal text to its value. |
| Seqs.FilterKeyed | src/Service/ListService.php:122-130 | `array_filter`: the entries that pass, each under its original key, in order, none left out. |
| Seqs.FilterKeyedValues | src/Service/ListService.php:49-60 | Re-indexing the kept entries gives the plain filter, and there are as many as pass. |

## Left out

- **HTTP plumbing.** The handler stack, middleware, headers, timeout, base URI and the real network call are left out. The decider and delay are pure functions of their arguments. Which failures reach the decider as a response and which as an exception is HTTP-library behaviour, so end-to-end attempt counts are not modelled.
- **JSON encoding and decoding.** These are taken as given: bodies arrive decoded, or as "undecodable". Between a service's envelope and the next reader, `json_decode(json_encode(x))` is taken as `x`. That includes an empty object reading back as an empty array.
- **Outside facts are inputs.** `filter_var` email validation, `DateTime::createFromFormat`, the current date and `date('c')` timestamps come in as functions or values.
- **Ages are whole years.** `DateTime::diff` is modelled on dates. The only effect of the time of day is kept: the parsed birth date carries the current time a moment before today's, so an exact future anniversary falls a moment short.
- **Routing is left out.** So is the controllers' `\Exception` → 500 branch. No `\Exception` reaches it in the model, because the services catch their own.
- **EnquiryController's dispatch is left out.** It passes a `metadata:` named argument that `createEnquiry` does not declare. `Controllers.EnquiryGate` stops at what would be forwarded.
- **ListResponse::collection and `ListService::getAllLists` are left out.** The first calls `->toArray()` on plain arrays, and the second returns its result. `ListController` is a pass-through and is left out too.
- **Uncaught errors have no answer.** A `TypeError` escaping a service is modelled as no response. What the framework then sends is left out.
- **Concurrency is left out.** The static list cache is single-threaded state threaded through the calls. Each upstream endpoint gives one outcome per request, and one `now` holds for the whole request.
- **Strings are sequences of characters.** `strlen` counts bytes, so the 255 and 10000 limits are on characters here. Multi-byte text is not distinguished.
- **Floats are not represented.** This matters for JSON numbers, PHP's string-to-number comparison and numeric-string array keys. A loose comparison of a numeric string with an integer id is taken as textual equality of the id's decimal form.
- **Some wrong-typed values are not followed.**
  - A non-array under `subscriber`, `lists` or `enquiry` in a delivered body passes through. In PHP it is a `TypeError` at the client method's `array` return type.
  - An array-valued `message` in an error body keeps the default message.
  - An object-shaped or scalar `fields` gives no field errors.
- **Unmodelled selection shapes.** A selection containing non-strings, or a keyed non-empty selection object, is reported as `Unmodelled` by `Controllers.SelectionArgument`. Its order in PHP's array is not represented.
- **The enquiry service's `\Exception` fallback is left out.** No exception other than the client's and the validator's arises in the model.
- **Accessors and the retry closure factories are not separate members.** The plain getters (`getContext`, `getHttpMethod`, `getErrors`, …) are the datatype fields. `getRetryDecider` and `getRetryDelay` are the functions they return.
- CrmErrors.FormattedValidationMessage: the general result is bounded in length, not spelled out. The exact text is stated by `CrmErrors.FormattedValidationMessageLines` only when the message and the last line carry no leading or trailing whitespace, which `trim` would strip.
- ListService.FilterMarketingLists: an entry whose `name` is set to an array is skipped as not a marketing list. In PHP `isMarketingList(string $listName)` raises a `TypeError` for it, which nothing catches, so the request would get no answer. The same holds for `GetListsForSubscriber`, `ValidateSelectedLists` and the signup flow built on them. The filter keeps its plain result because threading a no-answer case through the list resolution would burden every caller for a CRM answer of the wrong type.
- ListService.FetchLists: a `lists` entry that is a string-keyed array is read as no entries. In PHP `filterMarketingLists` would iterate its values; the model keeps only arrays that decode as JSON lists.
- SignupService.ProcessSignup: its own contract gives only request counts. Its behaviour is stated by the lemmas that follow it.

## Findings

| source | as written | input that shows it | evidently intended | confidence | as-written member | corrected member |
|---|---|---|---|---|---|---|
| src/Service/SubscriberService.php:134-139 | The age is `$today->diff($birthDate)->y`, which is the absolute length of the interval, so a birth date in the future counts as a positive age | Today 2026-10-10 with date of birth 2044-10-11: as written the age is 18, so `isValidAge` accepts and the under-age check stays silent | The age is negative (not yet born) for a future date, so such a date fails the minimum-age check | not executed | Dates.AgeAsWritten, Dates.FutureBirthDatePassesAsWritten, Dates.FutureBirthDateExample, SubscriberService.IsValidAge, SubscriberService.AgeTestsDifferOnlyAhead | Dates.Age, SubscriberService.IsValidAgeIntended |
| src/Response/EnquiryResponse.php:62-67 | `enquiryValidationError` returns `parent::validationError(...)`, whose `new self` builds a base `ApiResponse`, from a method declared `: self`; `createEnquiry` reaches it for every invalid message, and the resulting `TypeError` is not an `\Exception`, so no `catch` intercepts it | `createEnquiry("1", "")`: the empty message fails validation, and the call raises a `TypeError` instead of answering 422 | A 422 `EnquiryResponse` carrying the message errors | not executed | EnquiryResponses.EnquiryValidationErrorAsWritten, EnquiryService.CreateEnquiry, EnquiryService.ValidateMessageMatchesWrite | EnquiryResponses.EnquiryValidationError, EnquiryService.CreateEnquiryIntended |
| src/Response/EnquiryResponse.php:69-77 | `enquiryNotFound` returns `parent::notFound(...)`, a base `ApiResponse`, from a method declared `: self` | `enquiryNotFound("7")` raises a `TypeError` | A 404 `EnquiryResponse` carrying `data.enquiryId` | not executed | EnquiryResponses.EnquiryNotFoundAsWritten | EnquiryResponses.EnquiryNotFound |
| src/Response/SubscriberResponse.php:72-80 | `subscriberNotFound` returns `parent::notFound(...)`, a base `ApiResponse`, from a method declared `: self` | `subscriberNotFound("7")` raises a `TypeError` | A 404 `SubscriberResponse` carrying `data.subscriberId` | not executed | SubscriberResponses.SubscriberNotFoundAsWritten | SubscriberResponses.SubscriberNotFound |
| src/Service/SignupService.php:39-83 | `SignupResponse` does not define `error`, so `SignupResponse::error(...)` is the inherited factory and builds a base `ApiResponse`, while `processSignup` is declared `: SignupResponse`; both the refused-write branch and the `catch (\Exception)` branch raise a `TypeError` | A valid signup whose subscriber PUT answers 422, or a date of birth such as `2000-02-30` that the lenient parser accepts and the strict check rejects: no envelope is returned | The 400 "Failed to create subscriber" envelope, or the unexpected-error envelope | not executed | SignupService.SignupErrorAsWritten, SignupService.AfterWrite, SignupService.SubscriberFailureSkipsEnquiry, SignupService.LenientDateFailsTheWrite | SignupService.AfterWriteIntended, SignupService.AfterWriteDiffersOnlyOnFailure |

=== FILE: api_response.dfy ===
/**
 The JSON envelope every endpoint answers with (`ApiResponse`). An
 envelope is the record of constructor arguments; `Render` is the body the
 constructor builds from them, and the HTTP status of the response is the
 record's `status`. The `date('c')` timestamp is an opaque argument.
 */
module ApiResponses {
  import opened Values

  datatype ApiResponse = ApiResponse(success: bool, data: Json, message: Option<string>, errors: Json, status: int)

  /** The keys a rendered envelope may have. */
  const EnvelopeKeys := {"success", "timestamp", "status", "message", "data", "errors"}

  /**
   The constructor's body: `success`, `timestamp` and `status` always;
   `message` only when it is not null, `data` only when it is not null and
   `errors` only when it is not empty.
   */
  function Render(r: ApiResponse, timestamp: string): (body: map<string, Json>)
    ensures {"success", "timestamp", "status"} <= body.Keys <= EnvelopeKeys
    ensures body["success"] == JBool(r.success) && body["timestamp"] == JStr(timestamp)
    ensures body["status"] == JInt(r.status)
    ensures "message" in body <==> r.message.Some?
    ensures r.message.Some? ==> body["message"] == JStr(r.message.value)
    ensures "data" in body <==> r.data != JNull
    ensures r.data != JNull ==> body["data"] == r.data
    ensures "errors" in body <==> Truthy(r.errors)
    ensures Truthy(r.errors) ==> body["errors"] == r.errors
  {
    var base := map["success" := JBool(r.success), "timestamp" := JStr(timestamp), "status" := JInt(r.status)];
    var withMessage := if r.message.Some? then base["message" := JStr(r.message.value)] else base;
    var withData := if r.data != JNull then withMessage["data" := r.data] else withMessage;
    if Truthy(r.errors) then withData["errors" := r.errors] else withData
  }

  /** The HTTP status the response is sent with: the envelope's own `status`. */
  function HttpStatus(r: ApiResponse): int {
    r.status
  }

  /** The envelope's `status` field always agrees with the HTTP status. */
  lemma StatusFieldIsHttpStatus(r: ApiResponse, timestamp: string)
    ensures Render(r, timestamp)["status"] == JInt(HttpStatus(r))
  {
  }

  /**
   Reading an envelope body back: absent `message` and `data` read as
   null, absent `errors` as the empty list.
   */
  function Read(body: map<string, Json>): (r: ApiResponse)
    ensures r.success <==> Get(body, "success") == JBool(true)
    ensures "message" !in body ==> r.message.None?
    ensures r.data == Get(body, "data")
    ensures "errors" !in body ==> r.errors == EmptyList
  {
    ApiResponse(
      Get(body, "success") == JBool(true),
      Get(body, "data"),
      if "message" in body && body["message"].JStr? then Some(body["message"].s) else None,
      if "errors" in body then body["errors"] else EmptyList,
      if Get(body, "status").JInt? then Get(body, "status").n else 0)
  }

  /** An envelope whose empty error collection is written as the empty list. */
  function Normalised(r: ApiResponse): (n: ApiResponse)
    ensures Truthy(n.errors) <==> Truthy(r.errors)
  {
    if Truthy(r.errors) then r else r.(errors := EmptyList)
  }

  /**
   Rendering loses nothing but the form of an empty error collection: the
   body reads back as the envelope it was built from, whatever the timestamp.
   */
  lemma RenderReadRoundTrip(r: ApiResponse, timestamp: string)
    ensures Read(Render(r, timestamp)) == Normalised(r)
  {
  }

  /** Two envelopes render alike exactly when they agree up to the form of empty errors. */
  lemma RenderIsInjective(a: ApiResponse, b: ApiResponse, timestamp: string)
    ensures Render(a, timestamp) == Render(b, timestamp) <==> Normalised(a) == Normalised(b)
  {
    if Render(a, timestamp) == Render(b, timestamp) {
      RenderReadRoundTrip(a, timestamp);
      RenderReadRoundTrip(b, timestamp);
    }
  }

  /** `new ApiResponse(...)` with the constructor's defaults. */
  function New(success: bool := true, data: Json := JNull, message: Option<string> := None,
    errors: Json := EmptyList, status: int := 200): (r: ApiResponse)
    ensures r.success == success && r.data == data && r.message == message
    ensures r.errors == errors && r.status == status
  {
    ApiResponse(success, data, message, errors, status)
  }

  /** `ApiResponse::success()`: a successful envelope, 200 unless told otherwise, with no errors. */
  function Success(data: Json := JNull, message: Option<string> := None, status: int := 200): (r: ApiResponse)
    ensures r.success && r.status == status
    ensures r.data == data && r.message == message
    ensures r.errors == EmptyList
  {
    New(success := true, data := data, message := message, status := status)
  }

  /** `ApiResponse::error()`: a failed envelope, 400 unless told otherwise. */
  function Error(message: Option<string> := None, errors: Json := EmptyList, data: Json := JNull, status: int := 400): (r: ApiResponse)
    ensures !r.success && r.status == status
    ensures r.data == data && r.message == message
    ensures r.errors == errors
  {
    New(success := false, data := data, message := message, errors := errors, status := status)
  }

  /** `ApiResponse::validationError()`: a failed envelope without data, 422 unless told otherwise. */
  function ValidationError(errors: Json, message: Option<string> := Some("Validation failed"), status: int := 422): (r: ApiResponse)
    ensures !r.success && r.status == status
    ensures r.data == JNull && r.message == message
    ensures r.errors == errors
  {
    New(success := false, message := message, errors := errors, status := status)
  }

  /** `ApiResponse::notFound()`: always 404. */
  function NotFound(message: Option<string> := Some("Resource not found"), data: Json := JNull): (r: ApiResponse)
    ensures !r.success && r.status == 404
    ensures r.data == data && r.message == message
    ensures r.errors == EmptyList
  {
    New(success := false, data := data, message := message, status := 404)
  }

  /** `ApiResponse::serverError()`: always 500. */
  function ServerError(message: Option<string> := Some("Internal server error"), data: Json := JNull): (r: ApiResponse)
    ensures !r.success && r.status == 500
    ensures r.data == data && r.message == message
    ensures r.errors == EmptyList
  {
    New(success := false, data := data, message := message, status := 500)
  }

  /**
   The PHP class an envelope is an instance of. `new self` inside the
   `ApiResponse` factories builds the base class even when the factory is
   reached through a subclass (`parent::notFound(...)`, or
   `SignupResponse::error(...)`, which the subclass does not override).
   */
  datatype ResponseClass = BaseClass | SubscriberClass | SignupClass | EnquiryClass

  /** Every response class extends `ApiResponse`, and no subclass extends another. */
  predicate InstanceOf(built: ResponseClass, declared: ResponseClass) {
    built == declared || declared == BaseClass
  }

  /**
   Returning an envelope of class `built` from a method declared to return
   `declared`: PHP checks the declared return type, so a base instance
   where a subclass is declared raises a `TypeError`, modelled as no value.
   A `TypeError` is an `\Error`, which no `catch (\Exception)` intercepts.
   */
  function Returned(built: ResponseClass, declared: ResponseClass, r: ApiResponse): (out: Option<ApiResponse>)
    ensures out.Some? <==> InstanceOf(built, declared)
    ensures out.Some? ==> out.value == r
    ensures built == BaseClass && declared != BaseClass ==> out.None?
  {
    if InstanceOf(built, declared) then Some(r) else None
  }

  /**
   The factories' rendered bodies: `success()` says true and never carries
   errors; the failing factories say false; each has its fixed or default
   status.
   */
  lemma FactoryEnvelopes(data: Json, message: Option<string>, errors: Json, timestamp: string)
    ensures var b := Render(Success(data, message), timestamp);
      b["success"] == JBool(true) && b["status"] == JInt(200) && "errors" !in b
    ensures var b := Render(Error(message, errors, data), timestamp);
      b["success"] == JBool(false) && b["status"] == JInt(400) && ("errors" in b <==> Truthy(errors))
    ensures var b := Render(ValidationError(errors), timestamp);
      && b["success"] == JBool(false) && b["status"] == JInt(422)
      && b["message"] == JStr("Validation failed") && "data" !in b
    ensures var b := Render(NotFound(), timestamp);
      b["success"] == JBool(false) && b["status"] == JInt(404) && b["message"] == JStr("Resource not found")
    ensures var b := Render(ServerError(), timestamp);
      b["success"] == JBool(false) && b["status"] == JInt(500) && b["message"] == JStr("Internal server error")
    ensures Render(NotFound(), timestamp).Keys == Render(ServerError(), timestamp).Keys == {"success", "timestamp", "status", "message"}
  {
  }

  /** A list of messages, as the services pass their collected errors. */
  function ErrorList(errors: seq<string>): (j: Json)
    ensures Truthy(j) <==> |errors| > 0
  {
    Texts(errors)
  }
}

=== FILE: app_errors.dfy ===
/**
 The application's own validation exception: a message plus the list of
 messages the validators collected, in order.
 */
module AppErrors {
  import opened Values
  import opened Text

  datatype ValidationError = ValidationError(message: string, errors: seq<string>)

  /** `hasErrors()`. */
  predicate HasErrors(e: ValidationError) {
    |e.errors| > 0
  }

  /** `getFirstError()`: the first collected message, or null when there is none. */
  function FirstError(e: ValidationError): (r: Option<string>)
    ensures r.None? <==> !HasErrors(e)
    ensures r.Some? ==> r.value == e.errors[0] && r.value in e.errors
  {
    if |e.errors| > 0 then Some(e.errors[0]) else None
  }

  /** `addError($error)`: appends, keeping every earlier message and the message text. */
  function AddError(e: ValidationError, error: string): (r: ValidationError)
    ensures r.message == e.message
    ensures |r.errors| == |e.errors| + 1
    ensures r.errors[..|e.errors|] == e.errors && r.errors[|e.errors|] == error
    ensures HasErrors(r)
  {
    ValidationError(e.message, e.errors + [error])
  }

  /**
   `hasErrors()` is what the other accessors branch on: with errors there is
   a first one, and without them the joined string is empty.
   */
  lemma HasErrorsMeaning(e: ValidationError)
    ensures HasErrors(e) <==> FirstError(e).Some?
    ensures !HasErrors(e) ==> ErrorsAsString(e) == ""
    ensures HasErrors(AddError(e, ""))
  {
  }

  /** Adding to an empty exception makes the added message the first error. */
  lemma AddToEmptyIsFirst(message: string, error: string)
    ensures FirstError(AddError(ValidationError(message, []), error)) == Some(error)
  {
  }

  /** Adding never changes which message comes first once there is one. */
  lemma AddKeepsFirst(e: ValidationError, error: string)
    requires HasErrors(e)
    ensures FirstError(AddError(e, error)) == FirstError(e)
  {
  }

  const ErrorSeparator := "; "

  /** `getErrorsAsString()`: the messages joined by "; ". */
  function ErrorsAsString(e: ValidationError): (r: string)
    ensures !HasErrors(e) ==> r == ""
    ensures |e.errors| == 1 ==> r == e.errors[0]
  {
    Join(e.errors, ErrorSeparator)
  }

  /** Adding a message appends "; " and the message to a non-empty list's text. */
  lemma ErrorsAsStringAfterAdd(e: ValidationError, error: string)
    ensures ErrorsAsString(AddError(e, error)) ==
      if HasErrors(e) then ErrorsAsString(e) + ErrorSeparator + error else error
  {
    var r := AddError(e, error);
    assert r.errors[..|r.errors| - 1] == e.errors;
  }

  /** The joined text holds every message and one separator between each pair. */
  lemma {:induction false} ErrorsAsStringLength(errors: seq<string>)
    ensures |Join(errors, ErrorSeparator)| ==
      (if |errors| == 0 then 0 else |errors| - 1) * |ErrorSeparator| + TotalLength(errors)
  {
    if |errors| > 1 {
      ErrorsAsStringLength(errors[..|errors| - 1]);
      assert errors[..|errors| - 1][..|errors| - 2] == errors[..|errors| - 2];
    } else if |errors| == 1 {
      assert errors[..0] == [];
    }
  }

  /** Total number of characters in the messages. */
  function TotalLength(errors: seq<string>): nat {
    if |errors| == 0 then 0 else TotalLength(errors[..|errors| - 1]) + |errors[|errors| - 1]|
  }
}

=== FILE: controllers.dfy ===
/**
 The request gates of the three API controllers: the JSON content-type
 and body checks every controller repeats, the required-field checks, and
 the arguments each controller hands to its service with their defaults.
 The decoded body is an input; PHP's argument coercion into the services'
 typed parameters is written out.
 */
module Controllers {
  import opened Values
  import opened Text
  import opened Dates
  import ApiResponses
  import SubscriberService
  import SignupService

  /** A request body as `json_decode` left it: an error message, or the decoded value. */
  datatype Body = Malformed(error: string) | Parsed(value: Json)

  /** What a controller reads from the request: the `Content-Type` header and the body. */
  datatype HttpRequest = HttpRequest(contentType: Option<string>, body: Body)

  /**
   How a request leaves the gate: rejected with a message (answered 400),
   forwarded to the service with its arguments, stopped by a PHP `TypeError`
   no handler catches, or in a shape this model does not follow.
   */
  datatype Gate<A> = Reject(message: string) | Forward(args: A) | Crash | Unmodelled

  const NotJson := "Request must be JSON"
  const InvalidJsonPrefix := "Invalid JSON: "
  const NotAnObject := "Request data must be an object"
  const EmailRequired := "Email address is required"
  const DateRequired := "Date of birth is required"
  const DateFormat := "Date of birth must be in Y-m-d format"
  const SubscriberIdRequired := "Subscriber ID is required"
  const MessageRequired := "Message is required"
  const MessageNotText := "Message must be a string"

  /** The header as `str_contains` sees it: a missing header is the empty string. */
  function ContentType(req: HttpRequest): string {
    if req.contentType.Some? then req.contentType.value else ""
  }

  /**
   `getRequestData`: the body as an array, or the message of the
   `InvalidArgumentException` it throws. A JSON list is an array too; it has
   none of the named keys the controllers read, so it is the empty record.
   */
  function RequestData(req: HttpRequest): (r: Result<map<string, Json>, string>)
    ensures r == Err(NotJson) <==> !Contains(ContentType(req), "application/json")
    ensures Contains(ContentType(req), "application/json") && req.body.Malformed? ==>
      r == Err(InvalidJsonPrefix + req.body.error)
    ensures r == Err(NotAnObject) <==> (Contains(ContentType(req), "application/json")
      && req.body.Parsed? && !IsArray(req.body.value))
    ensures r.Ok? <==> (Contains(ContentType(req), "application/json") && req.body.Parsed? && IsArray(req.body.value))
    ensures r.Ok? && req.body.value.JObj? ==> r.value == req.body.value.fields
  {
    assert |NotJson| == 20 && |NotAnObject| == 30;
    if !Contains(ContentType(req), "application/json") then Err(NotJson)
    else match req.body
      case Malformed(error) =>
        assert (InvalidJsonPrefix + error)[0] == 'I';
        Err(InvalidJsonPrefix + error)
      case Parsed(JObj(fields)) => Ok(fields)
      case Parsed(JList(_)) => Ok(map[])
      case Parsed(_) => Err(NotAnObject)
  }

  /**
   `/^\d{4}-\d{2}-\d{2}$/`: the digit shape, where PCRE's `$` also accepts
   one final newline.
   */
  predicate MatchesDatePattern(s: string) {
    IsDateShape(s) || (|s| == 11 && s[10] == '\n' && IsDateShape(s[..10]))
  }

  /** Every formatted date matches the pattern, and so does it with a newline after it. */
  lemma FormattedDatesMatch(d: Date)
    requires 0 <= d.year <= 9999 && 0 <= d.month <= 99 && 0 <= d.day <= 99
    ensures MatchesDatePattern(FormatYmd(d))
    ensures MatchesDatePattern(FormatYmd(d) + "\n")
  {
    FormattedDateHasShape(d);
    assert (FormatYmd(d) + "\n")[..10] == FormatYmd(d);
  }

  /** The outcome of a check that throws on failure. */
  datatype Check = Pass | Fail(message: string) | CheckCrash

  /**
   `validateRequiredFields` (signup) and `validateSubscriberData`
   (subscribers): an empty email first, then an empty date of birth, then
   the date pattern, matched against the date as PHP passes it to
   `preg_match` (a non-empty array there is a `TypeError`).
   */
  function RequireSubscriberFields(data: map<string, Json>): (c: Check)
    ensures c == Fail(EmailRequired) <==> !Truthy(Get(data, "emailAddress"))
    ensures c == Fail(DateRequired) <==> (Truthy(Get(data, "emailAddress")) && !Truthy(Get(data, "dateOfBirth")))
    ensures c == CheckCrash <==> (Truthy(Get(data, "emailAddress")) && Truthy(Get(data, "dateOfBirth")) && IsArray(Get(data, "dateOfBirth")))
    ensures c == Pass <==> (Truthy(Get(data, "emailAddress")) && ScalarText(Get(data, "dateOfBirth")).Some?
      && MatchesDatePattern(ScalarText(Get(data, "dateOfBirth")).value))
    ensures c.Fail? ==> c.message in {EmailRequired, DateRequired, DateFormat}
  {
    assert |EmailRequired| == 25 && |DateRequired| == 25 && |DateFormat| == 37;
    assert EmailRequired[0] == 'E' && DateRequired[0] == 'D';
    var dob := Get(data, "dateOfBirth");
    if !Truthy(Get(data, "emailAddress")) then Fail(EmailRequired)
    else if !Truthy(dob) then Fail(DateRequired)
    else match ScalarText(dob)
      case None => CheckCrash
      case Some(text) => if MatchesDatePattern(text) then Pass else Fail(DateFormat)
  }

  /** A value passed to a `?string` parameter: null stays null, scalars become text, arrays are a `TypeError`. */
  function NullableArgument(j: Json): (r: Option<Option<string>>)
    ensures r.None? <==> IsArray(j)
    ensures j == JNull ==> r == Some(None)
    ensures j.JStr? ==> r == Some(Some(j.s))
  {
    if j == JNull then Some(None)
    else match ScalarText(j)
      case None => None
      case Some(text) => Some(Some(text))
  }

  /** `$data[$key] ?? false` passed to a `bool` parameter: scalars convert by truthiness, arrays are a `TypeError`. */
  function ConsentArgument(j: Json): (r: Option<bool>)
    ensures r.None? <==> IsArray(j)
    ensures r.Some? ==> (r.value <==> Truthy(j))
    ensures j == JNull ==> r == Some(false)
  {
    if IsArray(j) then None else Some(Truthy(j))
  }

  /** The list of texts a JSON list holds, when it holds only texts. */
  function AllTexts(items: seq<Json>): (r: Option<seq<string>>)
    ensures r.Some? <==> forall i :: 0 <= i < |items| ==> items[i].JStr?
    ensures r.Some? ==> |r.value| == |items| && forall i :: 0 <= i < |items| ==> r.value[i] == items[i].s
  {
    if |items| == 0 then Some([])
    else match (items[0], AllTexts(items[1..]))
      case (JStr(s), Some(rest)) => Some([s] + rest)
      case _ => None
  }

  /**
   `$data['selectedLists'] ?? []` passed to an `array` parameter: a scalar is
   a `TypeError`; a list of texts is the selection; the model follows no
   other arrays (keyed selections, or selections of numbers).
   */
  function SelectionArgument(j: Json): (r: Gate<seq<string>>)
    ensures j == JNull ==> r == Forward([])
    ensures !IsArray(j) && j != JNull ==> r == Crash
    ensures j.JList? && (forall i :: 0 <= i < |j.items| ==> j.items[i].JStr?) ==>
      r.Forward? && |r.args| == |j.items| && forall i :: 0 <= i < |j.items| ==> r.args[i] == j.items[i].s
    ensures !r.Reject?
  {
    match j
    case JNull => Forward([])
    case JList(items) => if AllTexts(items).Some? then Forward(AllTexts(items).value) else Unmodelled
    case JObj(fields) => if |fields| == 0 then Forward([]) else Unmodelled
    case _ => Crash
  }

  /**
   The arguments `signup` passes to `processSignup`: the email and the date
   as text, the names and the message nullable, consent false and the
   selection empty when absent.
   */
  function SignupArguments(data: map<string, Json>): (g: Gate<SignupService.SignupArgs>)
    requires RequireSubscriberFields(data) == Pass
    ensures !g.Reject?
    ensures g.Forward? ==> (
      && Some(g.args.emailAddress) == ScalarText(Get(data, "emailAddress"))
      && g.args.dateOfBirth == ScalarText(Get(data, "dateOfBirth"))
      && MatchesDatePattern(g.args.dateOfBirth.value)
      && Some(g.args.firstName) == NullableArgument(Get(data, "firstName"))
      && Some(g.args.lastName) == NullableArgument(Get(data, "lastName"))
      && Some(g.args.marketingConsent) == ConsentArgument(Get(data, "marketingConsent"))
      && Forward(g.args.selectedLists) == SelectionArgument(Get(data, "selectedLists"))
      && Some(g.args.message) == NullableArgument(Get(data, "message")))
  {
    var email := ScalarText(Get(data, "emailAddress"));
    var first := NullableArgument(Get(data, "firstName"));
    var last := NullableArgument(Get(data, "lastName"));
    var consent := ConsentArgument(Get(data, "marketingConsent"));
    var selection := SelectionArgument(Get(data, "selectedLists"));
    var message := NullableArgument(Get(data, "message"));
    if email.None? || first.None? || last.None? || consent.None? || message.None? || selection.Crash? then Crash
    else if selection.Unmodelled? then Unmodelled
    else Forward(SignupService.SignupArgs(email.value, first.value, last.value,
      ScalarText(Get(data, "dateOfBirth")), consent.value, selection.args, message.value))
  }

  /** `SignupController::signup` up to the service call. */
  function SignupGate(req: HttpRequest): (g: Gate<SignupService.SignupArgs>)
    ensures RequestData(req).Err? ==> g == Reject(RequestData(req).error)
    ensures RequestData(req).Ok? && RequireSubscriberFields(RequestData(req).value).Fail? ==>
      g == Reject(RequireSubscriberFields(RequestData(req).value).message)
    ensures g.Forward? ==> (RequestData(req).Ok? && RequireSubscriberFields(RequestData(req).value) == Pass
      && g == SignupArguments(RequestData(req).value))
  {
    match RequestData(req)
    case Err(message) => Reject(message)
    case Ok(data) =>
      match RequireSubscriberFields(data)
      case Fail(message) => Reject(message)
      case CheckCrash => Crash
      case Pass => SignupArguments(data)
  }

  /** `$data['listIds'] ?? []` passed to an `array` parameter. */
  function ListIdsArgument(j: Json): (r: Option<Json>)
    ensures j == JNull ==> r == Some(EmptyList)
    ensures IsArray(j) ==> r == Some(j)
    ensures r.None? <==> !IsArray(j) && j != JNull
  {
    if j == JNull then Some(EmptyList) else if IsArray(j) then Some(j) else None
  }

  /** The arguments `createSubscriber` passes to the service: as for signup, with the list ids defaulting to []. */
  function SubscriberArguments(data: map<string, Json>): (g: Gate<SubscriberService.SubscriberArgs>)
    requires RequireSubscriberFields(data) == Pass
    ensures g.Forward? || g.Crash?
    ensures g.Forward? ==> (
      && Some(g.args.emailAddress) == ScalarText(Get(data, "emailAddress"))
      && g.args.dateOfBirth == ScalarText(Get(data, "dateOfBirth"))
      && Some(g.args.firstName) == NullableArgument(Get(data, "firstName"))
      && Some(g.args.lastName) == NullableArgument(Get(data, "lastName"))
      && Some(g.args.marketingConsent) == ConsentArgument(Get(data, "marketingConsent"))
      && Some(g.args.listIds) == ListIdsArgument(Get(data, "listIds")))
  {
    var email := ScalarText(Get(data, "emailAddress"));
    var first := NullableArgument(Get(data, "firstName"));
    var last := NullableArgument(Get(data, "lastName"));
    var consent := ConsentArgument(Get(data, "marketingConsent"));
    var listIds := ListIdsArgument(Get(data, "listIds"));
    if email.None? || first.None? || last.None? || consent.None? || listIds.None? then Crash
    else Forward(SubscriberService.SubscriberArgs(email.value, first.value, last.value,
      ScalarText(Get(data, "dateOfBirth")), consent.value, listIds.value))
  }

  /** `SubscriberController::createSubscriber` up to the service call. */
  function SubscriberGate(req: HttpRequest): (g: Gate<SubscriberService.SubscriberArgs>)
    ensures RequestData(req).Err? ==> g == Reject(RequestData(req).error)
    ensures RequestData(req).Ok? && RequireSubscriberFields(RequestData(req).value).Fail? ==>
      g == Reject(RequireSubscriberFields(RequestData(req).value).message)
    ensures g.Forward? ==> (RequestData(req).Ok? && RequireSubscriberFields(RequestData(req).value) == Pass
      && g == SubscriberArguments(RequestData(req).value))
  {
    match RequestData(req)
    case Err(message) => Reject(message)
    case Ok(data) =>
      match RequireSubscriberFields(data)
      case Fail(message) => Reject(message)
      case CheckCrash => Crash
      case Pass => SubscriberArguments(data)
  }

  /** What `createEnquiry` would forward: the subscriber id as sent, and the message. */
  datatype EnquiryArgs = EnquiryArgs(subscriberId: Json, message: string)

  /**
   `validateEnquiryData`: an empty subscriber id first, then an empty
   message, and only then a message that is not a string.
   */
  function RequireEnquiryFields(data: map<string, Json>): (c: Check)
    ensures c != CheckCrash
    ensures c == Fail(SubscriberIdRequired) <==> !Truthy(Get(data, "subscriberId"))
    ensures c == Fail(MessageRequired) <==> (Truthy(Get(data, "subscriberId")) && !Truthy(Get(data, "message")))
    ensures c == Fail(MessageNotText) <==> (Truthy(Get(data, "subscriberId")) && Truthy(Get(data, "message"))
      && !Get(data, "message").JStr?)
    ensures c == Pass <==> (Truthy(Get(data, "subscriberId")) && Truthy(Get(data, "message")) && Get(data, "message").JStr?)
  {
    assert |SubscriberIdRequired| == 25 && |MessageRequired| == 19 && |MessageNotText| == 24;
    if !Truthy(Get(data, "subscriberId")) then Fail(SubscriberIdRequired)
    else if !Truthy(Get(data, "message")) then Fail(MessageRequired)
    else if !Get(data, "message").JStr? then Fail(MessageNotText)
    else Pass
  }

  /** `EnquiryController::createEnquiry` up to the service call. */
  function EnquiryGate(req: HttpRequest): (g: Gate<EnquiryArgs>)
    ensures !g.Crash? && !g.Unmodelled?
    ensures RequestData(req).Err? ==> g == Reject(RequestData(req).error)
    ensures RequestData(req).Ok? && RequireEnquiryFields(RequestData(req).value).Fail? ==>
      g == Reject(RequireEnquiryFields(RequestData(req).value).message)
    ensures g.Forward? ==> (Truthy(g.args.subscriberId) && g.args.message != "" && g.args.message != "0"
      && RequestData(req).Ok? && Get(RequestData(req).value, "subscriberId") == g.args.subscriberId
      && Get(RequestData(req).value, "message") == JStr(g.args.message))
  {
    match RequestData(req)
    case Err(message) => Reject(message)
    case Ok(data) =>
      match RequireEnquiryFields(data)
      case Fail(message) => Reject(message)
      case CheckCrash => Crash
      case Pass => Forward(EnquiryArgs(Get(data, "subscriberId"), Get(data, "message").s))
  }

  /** The body every controller answers a rejected request with, sent as HTTP 400. */
  function RejectionBody(message: string, timestamp: string): (b: map<string, Json>)
    ensures b.Keys == {"success", "message", "errors", "timestamp"}
    ensures b["success"] == JBool(false) && b["message"] == JStr("Invalid request data")
    ensures b["errors"] == JList([JStr(message)]) && b["timestamp"] == JStr(timestamp)
  {
    map["success" := JBool(false), "message" := JStr("Invalid request data"),
      "errors" := JList([JStr(message)]), "timestamp" := JStr(timestamp)]
  }

  const RejectionStatus := 400

  /**
   A rejection is not an `ApiResponse` envelope: it has no `status` field,
   so no envelope renders to it, though it carries the same `errors` list
   the error factory would.
   */
  lemma RejectionIsNotAnEnvelope(message: string, timestamp: string, r: ApiResponses.ApiResponse)
    ensures RejectionBody(message, timestamp) != ApiResponses.Render(r, timestamp)
    ensures ApiResponses.Render(ApiResponses.Error(Some("Invalid request data"), Texts([message])), timestamp)["errors"]
      == RejectionBody(message, timestamp)["errors"]
  {
    assert "status" in ApiResponses.Render(r, timestamp);
    assert "status" !in RejectionBody(message, timestamp);
  }

  /** A request that is not JSON is turned away by every controller with the same message. */
  lemma NonJsonIsRejectedEverywhere(req: HttpRequest)
    requires !Contains(ContentType(req), "application/json")
    ensures SignupGate(req) == Reject(NotJson)
    ensures SubscriberGate(req) == Reject(NotJson)
    ensures EnquiryGate(req) == Reject(NotJson)
  {
  }

  /**
   A minimal signup form, an email and a date of birth, reaches the
   service with every optional field at its default: no names, no consent,
   no selection, no message.
   */
  lemma SignupDefaults(email: string, dateOfBirth: string)
    requires email != "" && email != "0" && MatchesDatePattern(dateOfBirth)
    ensures var req := HttpRequest(Some("application/json"), Parsed(JObj(map["emailAddress" := JStr(email), "dateOfBirth" := JStr(dateOfBirth)])));
      SignupGate(req) == Forward(SignupService.SignupArgs(email, None, None, Some(dateOfBirth), false, [], None))
  {
    assert Contains("application/json", "application/json") by {
      assert "application/json"[0..|"application/json"|] == "application/json";
    }
    assert dateOfBirth != "" && dateOfBirth != "0" by {
      assert |dateOfBirth| >= 10;
    }
  }

  /**
   Unlike the service, which leaves the date of birth optional, the signup
   and subscriber controllers require one: a form without it is rejected
   before any service runs.
   */
  lemma ControllersRequireDate(req: HttpRequest)
    requires RequestData(req).Ok?
    requires Truthy(Get(RequestData(req).value, "emailAddress"))
    requires Get(RequestData(req).value, "dateOfBirth") == JNull
    ensures SignupGate(req) == Reject(DateRequired)
    ensures SubscriberGate(req) == Reject(DateRequired)
  {
  }

  /** A forwarded signup always carries a date of birth that matches the pattern, never none. */
  lemma ForwardedSignupHasDate(req: HttpRequest)
    ensures SignupGate(req).Forward? ==>
      SignupGate(req).args.dateOfBirth.Some? && MatchesDatePattern(SignupGate(req).args.dateOfBirth.value)
  {
  }

  /**
   The emptiness check comes before the type check: an empty non-text
   message such as `0` or `false` is "required", a non-empty one "must be a string".
   */
  lemma EnquiryMessageOrder(subscriberId: Json, message: Json)
    requires Truthy(subscriberId)
    ensures !Truthy(JInt(0)) && !Truthy(JBool(false))
    ensures var data := map["subscriberId" := subscriberId, "message" := message];
      !Truthy(message) ==> RequireEnquiryFields(data) == Fail(MessageRequired)
    ensures var data := map["subscriberId" := subscriberId, "message" := message];
      Truthy(message) && !message.JStr? ==> RequireEnquiryFields(data) == Fail(MessageNotText)
  {
  }
}

=== FILE: crm_client.dfy ===
/**
 The CRM client's request building, error classification and result
 extraction. The HTTP exchange itself is an input: `Outcome` is what the
 transport finally produced for one request, after the retry middleware
 gave up or succeeded, shaped like the catch clauses of `makeRequest`.
 Bodies arrive already decoded; `None` stands for a body that does not
 decode to an array (json_decode returned null).
 */
module CrmClient {
  import opened Values
  import opened CrmErrors
  import Retry

  datatype Request = Request(httpMethod: string, endpoint: string, json: Option<map<string, Json>>)

  datatype Outcome =
    | Delivered(body: Option<map<string, Json>>)
    | ClientFailure(status: int, body: Option<map<string, Json>>)
    | ServerFailure(status: int, body: Option<map<string, Json>>)
    | ConnectFailure(message: string)
    | TransferFailure(message: string)

  /** `json_decode($body, true) ?? []`. */
  function Decoded(body: Option<map<string, Json>>): (data: map<string, Json>)
    ensures body.None? ==> data == map[]
    ensures body.Some? ==> data == body.value
  {
    if body.Some? then body.value else map[]
  }

  /**
   `$data['message'] ?? $fallback` passed to a `string` parameter: a
   scalar is converted to its string form, null or a missing key gives the
   fallback.
   */
  function BodyMessage(data: map<string, Json>, fallback: string): (m: string)
    ensures IsSet(data, "message") && data["message"].JStr? ==> m == data["message"].s
    ensures !IsSet(data, "message") ==> m == fallback
  {
    if IsSet(data, "message") && Text.ScalarText(data["message"]).Some? then Text.ScalarText(data["message"]).value
    else fallback
  }

  /** `$data['fields'] ?? []` as the list of validation entries. */
  function BodyFields(data: map<string, Json>): (fields: seq<Json>)
    ensures "fields" in data && data["fields"].JList? ==> fields == data["fields"].items
    ensures !IsSet(data, "fields") ==> fields == []
  {
    if IsSet(data, "fields") && data["fields"].JList? then data["fields"].items else []
  }

  /**
   `handleClientException`: 400 is a validation error carrying the body's
   `fields`, 401 and 403 are authentication errors (both keep the class's
   default code 401), 404 is a not-found error, and any other status is a
   generic error whose code is the status. Every one records the request,
   the status and the decoded body.
   */
  function ClientError(req: Request, status: int, data: map<string, Json>): (e: CrmError)
    ensures e.httpStatusCode == Some(status) && e.context == Some(data)
    ensures e.httpMethod == Some(req.httpMethod) && e.endpoint == Some(req.endpoint)
    ensures status == 400 ==> e.kind == Validation(BodyFields(data)) && e.code == 400 && e.message == BodyMessage(data, "Validation failed")
    ensures status == 401 ==> e.kind.Authentication? && e.code == 401 && e.message == BodyMessage(data, "Authentication failed")
    ensures status == 403 ==> e.kind.Authentication? && e.code == 401 && e.message == BodyMessage(data, "Access denied")
    ensures status == 404 ==> e.kind == NotFound(None, None) && e.code == 404 && e.message == BodyMessage(data, "Resource not found")
    ensures status !in {400, 401, 403, 404} ==> e.kind.Generic? && e.code == status && e.message == BodyMessage(data, "API request failed")
  {
    var verb, endpoint, context := Some(req.httpMethod), Some(req.endpoint), Some(data);
    if status == 400 then
      NewValidation(message := BodyMessage(data, "Validation failed"), validationErrors := BodyFields(data),
        httpMethod := verb, endpoint := endpoint, httpStatusCode := Some(status), context := context)
    else if status == 401 then
      NewAuthentication(message := BodyMessage(data, "Authentication failed"),
        httpMethod := verb, endpoint := endpoint, httpStatusCode := Some(status), context := context)
    else if status == 403 then
      NewAuthentication(message := BodyMessage(data, "Access denied"),
        httpMethod := verb, endpoint := endpoint, httpStatusCode := Some(status), context := context)
    else if status == 404 then
      NewNotFound(message := BodyMessage(data, "Resource not found"),
        httpMethod := verb, endpoint := endpoint, httpStatusCode := Some(status), context := context)
    else
      NewCrmApiException(message := BodyMessage(data, "API request failed"), code := status,
        httpMethod := verb, endpoint := endpoint, httpStatusCode := Some(status), context := context)
  }

  /** `handleServerException`: always a generic error whose code is the status. */
  function ServerError(req: Request, status: int, data: map<string, Json>): (e: CrmError)
    ensures e.kind.Generic? && e.code == status && e.httpStatusCode == Some(status)
    ensures e.context == Some(data) && e.message == BodyMessage(data, "Server error occurred")
    ensures e.httpMethod == Some(req.httpMethod) && e.endpoint == Some(req.endpoint)
  {
    NewCrmApiException(message := BodyMessage(data, "Server error occurred"), code := status,
      httpMethod := Some(req.httpMethod), endpoint := Some(req.endpoint), httpStatusCode := Some(status), context := Some(data))
  }

  /** The context a transport failure records. */
  function OriginalError(message: string): map<string, Json> {
    map["original_error" := JStr(message)]
  }

  /**
   `makeRequest`: the decoded body on success, otherwise the error the
   matching handler throws. A connect failure becomes a network error and
   any other transfer failure a generic one; neither has a status, and both
   keep the transport's message.
   */
  function MakeRequest(req: Request, outcome: Outcome): (r: Result<map<string, Json>, CrmError>)
    ensures r.Ok? <==> outcome.Delivered?
    ensures outcome.Delivered? ==> r.value == Decoded(outcome.body)
    ensures outcome.ClientFailure? ==> r == Err(ClientError(req, outcome.status, Decoded(outcome.body)))
    ensures outcome.ServerFailure? ==> r == Err(ServerError(req, outcome.status, Decoded(outcome.body)))
    ensures outcome.ConnectFailure? || outcome.TransferFailure? ==>
      && r.Err?
      && r.error.httpStatusCode.None? && r.error.code == 0
      && r.error.message == outcome.message
      && r.error.context == Some(OriginalError(outcome.message))
      && r.error.httpMethod == Some(req.httpMethod) && r.error.endpoint == Some(req.endpoint)
      && (r.error.kind.Network? <==> outcome.ConnectFailure?)
      && (outcome.TransferFailure? ==> r.error.kind.Generic?)
  {
    match outcome
    case Delivered(body) => Ok(Decoded(body))
    case ClientFailure(status, body) => Err(ClientError(req, status, Decoded(body)))
    case ServerFailure(status, body) => Err(ServerError(req, status, Decoded(body)))
    case ConnectFailure(message) =>
      Err(NewNetwork(message := message, httpMethod := Some(req.httpMethod), endpoint := Some(req.endpoint),
        context := Some(OriginalError(message))))
    case TransferFailure(message) =>
      Err(NewCrmApiException(message := message, httpMethod := Some(req.httpMethod), endpoint := Some(req.endpoint),
        context := Some(OriginalError(message))))
  }

  /** The HTTP status an outcome carries, if it carries one. */
  function StatusOf(outcome: Outcome): Option<int> {
    match outcome
    case ClientFailure(status, _) => Some(status)
    case ServerFailure(status, _) => Some(status)
    case _ => None
  }

  /**
   Every error remembers the request that caused it, carries the status
   exactly when a response was received, and has a context; only a
   transport failure can yield a network error.
   */
  lemma ErrorRecordsItsOrigin(req: Request, outcome: Outcome)
    requires !outcome.Delivered?
    ensures var e := MakeRequest(req, outcome).error;
      && e.httpStatusCode == StatusOf(outcome)
      && e.httpMethod == Some(req.httpMethod) && e.endpoint == Some(req.endpoint)
      && e.context.Some?
      && (e.kind.Network? ==> outcome.ConnectFailure?)
  {
  }

  /**
   Which failures carry a context: a transport failure always records its
   original error, and an answered request records the decoded body, so
   it has a context exactly when that body was a non-empty array.
   */
  lemma FailureContext(req: Request, outcome: Outcome)
    requires !outcome.Delivered?
    ensures outcome.ConnectFailure? || outcome.TransferFailure? ==> HasContext(MakeRequest(req, outcome).error)
    ensures outcome.ClientFailure? || outcome.ServerFailure? ==>
      (HasContext(MakeRequest(req, outcome).error) <==> |Decoded(outcome.body)| > 0)
  {
    if outcome.ConnectFailure? || outcome.TransferFailure? {
      assert "original_error" in OriginalError(outcome.message);
    }
  }

  /**
   A 400 has validation errors exactly when its body holds a non-empty list
   under `fields`; without them the formatted message is the bare message.
   */
  lemma ValidationErrorsFromBody(req: Request, body: Option<map<string, Json>>)
    ensures MakeRequest(req, ClientFailure(400, body)).error.kind.Validation?
    ensures var e, data := MakeRequest(req, ClientFailure(400, body)).error, Decoded(body);
      HasValidationErrors(e) <==> "fields" in data && data["fields"].JList? && |data["fields"].items| > 0
    ensures var e := MakeRequest(req, ClientFailure(400, body)).error;
      !HasValidationErrors(e) ==> FormattedValidationMessage(e) == e.message
  {
  }

  /**
   Whatever the body says, a 403 is reported as an authentication error
   with the class's code 401 while its status stays 403.
   */
  lemma ForbiddenKeepsDefaultCode(req: Request, body: Option<map<string, Json>>)
    ensures var e := MakeRequest(req, ClientFailure(403, body)).error;
      e.kind.Authentication? && e.code == 401 && e.httpStatusCode == Some(403)
  {
  }

  /** A message in the error body replaces every default message. */
  lemma BodyMessageOverridesDefault(req: Request, status: int, data: map<string, Json>, text: string)
    requires "message" in data && data["message"] == JStr(text)
    ensures MakeRequest(req, ClientFailure(status, Some(data))).error.message == text
    ensures MakeRequest(req, ServerFailure(status, Some(data))).error.message == text
  {
  }

  /**
   The client errors that end in a `ClientFailure` other than 429 are never
   retried, so the outcome the client sees is the first response.
   */
  lemma ClassifiedClientErrorsAreFinal(cfg: Retry.RetryConfig, retries: nat, status: int)
    requires status in {400, 401, 403, 404}
    ensures !Retry.ShouldRetry(cfg, retries, Some(status), None)
  {
  }

  const SubscriberEndpoint := "/api/subscriber"
  const ListsEndpoint := "/api/lists"

  /** The keys every subscriber write sends. */
  const PayloadKeys := {"emailAddress", "firstName", "lastName", "dateOfBirth", "marketingConsent", "lists"}

  /**
   The JSON body of both subscriber writes: exactly six keys, each copied
   from the input or defaulted ('' for the email, null for names and date,
   false for consent, [] for the lists, which are read from `listIds`).
   */
  function SubscriberPayload(data: map<string, Json>): (p: map<string, Json>)
    ensures p.Keys == PayloadKeys
    ensures p["emailAddress"] == (if IsSet(data, "emailAddress") then data["emailAddress"] else JStr(""))
    ensures forall k | k in {"firstName", "lastName", "dateOfBirth"} :: p[k] == Get(data, k)
    ensures p["marketingConsent"] == (if IsSet(data, "marketingConsent") then data["marketingConsent"] else JBool(false))
    ensures p["lists"] == (if IsSet(data, "listIds") then data["listIds"] else EmptyList)
  {
    map[
      "emailAddress" := Coalesce(data, "emailAddress", JStr("")),
      "firstName" := Coalesce(data, "firstName", JNull),
      "lastName" := Coalesce(data, "lastName", JNull),
      "dateOfBirth" := Coalesce(data, "dateOfBirth", JNull),
      "marketingConsent" := Coalesce(data, "marketingConsent", JBool(false)),
      "lists" := Coalesce(data, "listIds", EmptyList)
    ]
  }

  /** `createSubscriber`'s request. */
  function CreateSubscriberRequest(data: map<string, Json>): (req: Request)
    ensures req.httpMethod == "POST" && req.endpoint == SubscriberEndpoint
    ensures req.json == Some(SubscriberPayload(data))
  {
    Request("POST", SubscriberEndpoint, Some(SubscriberPayload(data)))
  }

  /** `createOrUpdateSubscriber`'s request. */
  function UpsertSubscriberRequest(data: map<string, Json>): (req: Request)
    ensures req.httpMethod == "PUT" && req.endpoint == SubscriberEndpoint
    ensures req.json == Some(SubscriberPayload(data))
  {
    Request("PUT", SubscriberEndpoint, Some(SubscriberPayload(data)))
  }

  /** The two subscriber writes send the same body to the same endpoint and differ only in the method. */
  lemma WritesDifferOnlyInMethod(data: map<string, Json>)
    ensures CreateSubscriberRequest(data) == UpsertSubscriberRequest(data).(httpMethod := "POST")
    ensures CreateSubscriberRequest(data) != UpsertSubscriberRequest(data)
  {
  }

  /** Keys the input does not name (such as `lists`) never leak into the payload. */
  lemma PayloadIgnoresOtherKeys(data: map<string, Json>, k: string, v: Json)
    requires k !in {"emailAddress", "firstName", "lastName", "dateOfBirth", "marketingConsent", "listIds"}
    ensures SubscriberPayload(data[k := v]) == SubscriberPayload(data)
  {
    var d := data[k := v];
    assert forall key | key != k :: Get(d, key) == Get(data, key) && IsSet(d, key) == IsSet(data, key);
  }

  /** `getSubscriberLists` and `getRawSubscriberLists` both send this request. */
  const ListsRequest := Request("GET", ListsEndpoint, None)

  /** `getApiStatus`'s request. */
  const StatusRequest := Request("GET", "/", None)

  /** `createEnquiry`'s request: the id is embedded in the path and the message defaults to ''. */
  function EnquiryRequest(subscriberId: string, data: map<string, Json>): (req: Request)
    ensures req.httpMethod == "POST"
    ensures req.endpoint == SubscriberEndpoint + "/" + subscriberId + "/enquiry"
    ensures req.json.Some? && req.json.value.Keys == {"message"}
    ensures req.json.value["message"] == (if IsSet(data, "message") then data["message"] else JStr(""))
  {
    Request("POST", SubscriberEndpoint + "/" + subscriberId + "/enquiry", Some(map["message" := Coalesce(data, "message", JStr(""))]))
  }

  /** `$data[$key] ?? []` on a successful call; errors pass through unchanged. */
  function SubKey(r: Result<map<string, Json>, CrmError>, key: string): (s: Result<Json, CrmError>)
    ensures s.Ok? <==> r.Ok?
    ensures r.Err? ==> s.error == r.error
    ensures r.Ok? && IsSet(r.value, key) ==> s.value == r.value[key]
    ensures r.Ok? && !IsSet(r.value, key) ==> s.value == EmptyList
  {
    if r.Ok? then Ok(Coalesce(r.value, key, EmptyList)) else Err(r.error)
  }

  /**
   `createSubscriber($data)`: the `subscriber` entry of a delivered body
   (or []), and otherwise an error naming the POST that failed.
   */
  function CreateSubscriber(data: map<string, Json>, outcome: Outcome): (r: Result<Json, CrmError>)
    ensures r.Ok? <==> outcome.Delivered?
    ensures outcome.Delivered? ==> r.value == Coalesce(Decoded(outcome.body), "subscriber", EmptyList)
    ensures !outcome.Delivered? ==> r.error.httpMethod == Some("POST") && r.error.endpoint == Some(SubscriberEndpoint)
    ensures !outcome.Delivered? ==> r.error.httpStatusCode == StatusOf(outcome)
  {
    SubKey(MakeRequest(CreateSubscriberRequest(data), outcome), "subscriber")
  }

  /**
   `createOrUpdateSubscriber($data)`: as `createSubscriber`, with the
   request sent as a PUT.
   */
  function CreateOrUpdateSubscriber(data: map<string, Json>, outcome: Outcome): (r: Result<Json, CrmError>)
    ensures r.Ok? <==> outcome.Delivered?
    ensures outcome.Delivered? ==> r.value == Coalesce(Decoded(outcome.body), "subscriber", EmptyList)
    ensures !outcome.Delivered? ==> r.error.httpMethod == Some("PUT") && r.error.endpoint == Some(SubscriberEndpoint)
    ensures !outcome.Delivered? ==> r.error.httpStatusCode == StatusOf(outcome)
  {
    SubKey(MakeRequest(UpsertSubscriberRequest(data), outcome), "subscriber")
  }

  /** `getSubscriberLists()`: the `lists` entry of a delivered body (or []). */
  function GetSubscriberLists(outcome: Outcome): (r: Result<Json, CrmError>)
    ensures r.Ok? <==> outcome.Delivered?
    ensures outcome.Delivered? ==> r.value == Coalesce(Decoded(outcome.body), "lists", EmptyList)
    ensures !outcome.Delivered? ==> r.error.httpMethod == Some("GET") && r.error.endpoint == Some(ListsEndpoint)
    ensures !outcome.Delivered? ==> r.error.httpStatusCode == StatusOf(outcome)
  {
    SubKey(MakeRequest(ListsRequest, outcome), "lists")
  }

  /** `getRawSubscriberLists()`: the whole decoded body. */
  function GetRawSubscriberLists(outcome: Outcome): (r: Result<map<string, Json>, CrmError>)
    ensures r.Ok? <==> outcome.Delivered?
    ensures outcome.Delivered? ==> r.value == Decoded(outcome.body)
    ensures !outcome.Delivered? ==> r.error.httpMethod == Some("GET") && r.error.endpoint == Some(ListsEndpoint)
    ensures !outcome.Delivered? ==> r.error.httpStatusCode == StatusOf(outcome)
  {
    MakeRequest(ListsRequest, outcome)
  }

  /**
   `createEnquiry($subscriberId, $data)`: the `enquiry` entry of a
   delivered body (or []), and otherwise an error naming the POST to the
   subscriber's enquiry path.
   */
  function CreateEnquiry(subscriberId: string, data: map<string, Json>, outcome: Outcome): (r: Result<Json, CrmError>)
    ensures r.Ok? <==> outcome.Delivered?
    ensures outcome.Delivered? ==> r.value == Coalesce(Decoded(outcome.body), "enquiry", EmptyList)
    ensures !outcome.Delivered? ==> r.error.httpMethod == Some("POST") && r.error.endpoint == Some(SubscriberEndpoint + "/" + subscriberId + "/enquiry")
    ensures !outcome.Delivered? ==> r.error.httpStatusCode == StatusOf(outcome)
  {
    SubKey(MakeRequest(EnquiryRequest(subscriberId, data), outcome), "enquiry")
  }

  /** `getApiStatus()`: the whole decoded body of `GET /`. */
  function GetApiStatus(outcome: Outcome): (r: Result<map<string, Json>, CrmError>)
    ensures r.Ok? <==> outcome.Delivered?
    ensures outcome.Delivered? ==> r.value == Decoded(outcome.body)
    ensures !outcome.Delivered? ==> r.error.httpMethod == Some("GET") && r.error.endpoint == Some("/")
    ensures !outcome.Delivered? ==> r.error.httpStatusCode == StatusOf(outcome)
  {
    MakeRequest(StatusRequest, outcome)
  }

  /**
   A delivered body that does not decode gives every operation its empty
   default, and a delivered body carrying the sub-key gives exactly that
   value.
   */
  lemma ExtractionDefaults(data: map<string, Json>, id: string, outcome: Outcome)
    requires outcome.Delivered?
    ensures outcome.body.None? ==>
      && CreateSubscriber(data, outcome) == Ok(EmptyList)
      && CreateOrUpdateSubscriber(data, outcome) == Ok(EmptyList)
      && GetSubscriberLists(outcome) == Ok(EmptyList)
      && CreateEnquiry(id, data, outcome) == Ok(EmptyList)
      && GetRawSubscriberLists(outcome) == Ok(map[])
      && GetApiStatus(outcome) == Ok(map[])
    ensures outcome.body.Some? && IsSet(outcome.body.value, "subscriber") ==>
      CreateSubscriber(data, outcome) == Ok(outcome.body.value["subscriber"])
    ensures outcome.body.Some? && IsSet(outcome.body.value, "lists") ==>
      GetSubscriberLists(outcome) == Ok(outcome.body.value["lists"])
    ensures outcome.body.Some? && IsSet(outcome.body.value, "enquiry") ==>
      CreateEnquiry(id, data, outcome) == Ok(outcome.body.value["enquiry"])
  {
  }

  /** A failed call reports the same error whichever sub-key the operation wanted. */
  lemma FailuresPassThrough(data: map<string, Json>, outcome: Outcome)
    requires !outcome.Delivered?
    ensures CreateSubscriber(data, outcome) == Err(MakeRequest(CreateSubscriberRequest(data), outcome).error)
    ensures CreateSubscriber(data, outcome).error.httpMethod == Some("POST")
    ensures CreateOrUpdateSubscriber(data, outcome).error.httpMethod == Some("PUT")
    ensures GetSubscriberLists(outcome).error.endpoint == Some(ListsEndpoint)
  {
  }
}

=== FILE: crm_errors.dfy ===
/**
 The client's error taxonomy. The PHP exception hierarchy
 (CrmApiException and its Authentication, NotFound, Network and Validation
 subclasses) becomes one immutable record whose `kind` names the class and
 carries the fields only that class has.
 */
module CrmErrors {
  import opened Values
  import opened Text
  import Seqs

  datatype Kind =
    | Generic
    | Validation(validationErrors: seq<Json>)
    | Authentication
    | NotFound(resourceType: Option<string>, resourceId: Option<string>)
    | Network

  datatype CrmError = CrmError(
    kind: Kind,
    message: string,
    code: int,
    context: Option<map<string, Json>>,
    httpMethod: Option<string>,
    endpoint: Option<string>,
    httpStatusCode: Option<int>)

  /** `new CrmApiException(...)`; its getters read back exactly these arguments. */
  function NewCrmApiException(
    message: string := "",
    code: int := 0,
    context: Option<map<string, Json>> := None,
    httpMethod: Option<string> := None,
    endpoint: Option<string> := None,
    httpStatusCode: Option<int> := None): (e: CrmError)
    ensures e.kind.Generic?
    ensures e.message == message && e.code == code
    ensures e.context == context && e.httpMethod == httpMethod
    ensures e.endpoint == endpoint && e.httpStatusCode == httpStatusCode
  {
    CrmError(Generic, message, code, context, httpMethod, endpoint, httpStatusCode)
  }

  /** `new AuthenticationException(...)`: code 401 unless a caller passes another. */
  function NewAuthentication(
    message: string := "Authentication failed",
    code: int := 401,
    context: Option<map<string, Json>> := None,
    httpMethod: Option<string> := None,
    endpoint: Option<string> := None,
    httpStatusCode: Option<int> := None): (e: CrmError)
    ensures e.kind.Authentication?
    ensures e.message == message && e.code == code
    ensures e.context == context && e.httpMethod == httpMethod
    ensures e.endpoint == endpoint && e.httpStatusCode == httpStatusCode
  {
    CrmError(Authentication, message, code, context, httpMethod, endpoint, httpStatusCode)
  }

  /** `new NetworkException(...)`: code 0 and no status unless given. */
  function NewNetwork(
    message: string := "Network error occurred",
    code: int := 0,
    context: Option<map<string, Json>> := None,
    httpMethod: Option<string> := None,
    endpoint: Option<string> := None,
    httpStatusCode: Option<int> := None): (e: CrmError)
    ensures e.kind.Network?
    ensures e.message == message && e.code == code
    ensures e.context == context && e.httpMethod == httpMethod
    ensures e.endpoint == endpoint && e.httpStatusCode == httpStatusCode
  {
    CrmError(Network, message, code, context, httpMethod, endpoint, httpStatusCode)
  }

  /** `new NotFoundException(...)`: code 404 and "Resource not found" unless given. */
  function NewNotFound(
    message: string := "Resource not found",
    code: int := 404,
    context: Option<map<string, Json>> := None,
    httpMethod: Option<string> := None,
    endpoint: Option<string> := None,
    httpStatusCode: Option<int> := None,
    resourceType: Option<string> := None,
    resourceId: Option<string> := None): (e: CrmError)
    ensures e.kind == NotFound(resourceType, resourceId)
    ensures e.message == message && e.code == code
    ensures e.context == context && e.httpMethod == httpMethod
    ensures e.endpoint == endpoint && e.httpStatusCode == httpStatusCode
  {
    CrmError(NotFound(resourceType, resourceId), message, code, context, httpMethod, endpoint, httpStatusCode)
  }

  /** `new ValidationException(...)` of the client: code 400 unless given. */
  function NewValidation(
    message: string := "",
    validationErrors: seq<Json> := [],
    code: int := 400,
    context: Option<map<string, Json>> := None,
    httpMethod: Option<string> := None,
    endpoint: Option<string> := None,
    httpStatusCode: Option<int> := None): (e: CrmError)
    ensures e.kind == Validation(validationErrors)
    ensures e.message == message && e.code == code
    ensures e.context == context && e.httpMethod == httpMethod
    ensures e.endpoint == endpoint && e.httpStatusCode == httpStatusCode
  {
    CrmError(Validation(validationErrors), message, code, context, httpMethod, endpoint, httpStatusCode)
  }

  /** The defaults each subclass constructor supplies. */
  lemma ConstructorDefaults()
    ensures NewCrmApiException().code == 0 && NewCrmApiException().message == ""
    ensures NewAuthentication().code == 401 && NewAuthentication().message == "Authentication failed"
    ensures NewNetwork().code == 0 && NewNetwork().httpStatusCode.None?
    ensures NewNetwork().message == "Network error occurred"
    ensures NewNotFound().code == 404 && NewNotFound().message == "Resource not found"
    ensures NewValidation().code == 400 && NewValidation().kind.validationErrors == []
  {
  }

  /** `hasContext()`: a context that is present and not empty. */
  predicate HasContext(e: CrmError) {
    e.context.Some? && |e.context.value| > 0
  }

  /** " [METHOD endpoint]" when both are truthy, otherwise nothing. */
  function RequestTag(e: CrmError): (t: string)
    ensures TruthyText(e.httpMethod) && TruthyText(e.endpoint) ==> t == " [" + e.httpMethod.value + " " + e.endpoint.value + "]"
    ensures !(TruthyText(e.httpMethod) && TruthyText(e.endpoint)) ==> t == ""
  {
    if TruthyText(e.httpMethod) && TruthyText(e.endpoint) then " [" + e.httpMethod.value + " " + e.endpoint.value + "]" else ""
  }

  /** The status is truthy: present and not zero. */
  predicate HasStatus(e: CrmError) {
    e.httpStatusCode.Some? && e.httpStatusCode.value != 0
  }

  /** " (HTTP n)" when the status is truthy, otherwise nothing. */
  function StatusTag(e: CrmError): (t: string)
    ensures HasStatus(e) ==> t == " (HTTP " + Decimal(e.httpStatusCode.value) + ")"
    ensures !HasStatus(e) ==> t == ""
  {
    if HasStatus(e) then " (HTTP " + Decimal(e.httpStatusCode.value) + ")" else ""
  }

  /**
   `CrmApiException::getFormattedMessage()`: the message, then the request
   tag, then the status tag; each tag appears exactly when its fields are
   truthy, and the status always comes last.
   */
  function BaseFormattedMessage(e: CrmError): (r: string)
    ensures e.message <= r
    ensures TruthyText(e.httpMethod) && TruthyText(e.endpoint) ==>
      " [" + e.httpMethod.value + " " + e.endpoint.value + "]" <= r[|e.message|..]
    ensures HasStatus(e) ==>
      var tag := " (HTTP " + Decimal(e.httpStatusCode.value) + ")";
      |tag| <= |r| && r[|r| - |tag|..] == tag
    ensures |r| == |e.message| + |RequestTag(e)| + |StatusTag(e)|
    ensures !HasStatus(e) && !(TruthyText(e.httpMethod) && TruthyText(e.endpoint)) ==> r == e.message
  {
    var r := e.message + RequestTag(e) + StatusTag(e);
    assert r[|e.message|..] == RequestTag(e) + StatusTag(e);
    assert r[|r| - |StatusTag(e)|..] == StatusTag(e);
    r
  }

  /** The resource part NotFoundException adds to the formatted message. */
  function ResourceTag(resourceType: Option<string>, resourceId: Option<string>): (t: string)
    ensures !TruthyText(resourceType) ==> t == ""
    ensures TruthyText(resourceType) && TruthyText(resourceId) ==>
      t == " - " + resourceType.value + " with ID \"" + resourceId.value + "\" not found"
    ensures TruthyText(resourceType) && !TruthyText(resourceId) ==>
      t == " - " + resourceType.value + " not found"
  {
    if TruthyText(resourceType) && TruthyText(resourceId) then
      " - " + resourceType.value + " with ID \"" + resourceId.value + "\" not found"
    else if TruthyText(resourceType) then
      " - " + resourceType.value + " not found"
    else ""
  }

  /**
   `getFormattedMessage()` with the NotFoundException override: the base
   text, extended for a not-found error that names its resource type; with
   no type the base text is unchanged even when an id is set.
   */
  function FormattedMessage(e: CrmError): (r: string)
    ensures BaseFormattedMessage(e) <= r
    ensures !e.kind.NotFound? || !TruthyText(e.kind.resourceType) ==> r == BaseFormattedMessage(e)
    ensures e.kind.NotFound? ==> r[|BaseFormattedMessage(e)|..] == ResourceTag(e.kind.resourceType, e.kind.resourceId)
  {
    var base := BaseFormattedMessage(e);
    match e.kind
    case NotFound(t, id) =>
      assert (base + ResourceTag(t, id))[|base|..] == ResourceTag(t, id);
      base + ResourceTag(t, id)
    case _ => base
  }

  /** `NotFoundException::forResource(type, id, method, endpoint)`. */
  function ForResource(resourceType: string, resourceId: string, httpMethod: Option<string> := None, endpoint: Option<string> := None): (e: CrmError)
    ensures e.kind == NotFound(Some(resourceType), Some(resourceId))
    ensures e.code == 404 && e.httpStatusCode == Some(404) && e.context.None?
    ensures e.httpMethod == httpMethod && e.endpoint == endpoint
    ensures e.message == UcFirst(resourceType) + " with ID \"" + resourceId + "\" not found"
  {
    NewNotFound(
      message := UcFirst(resourceType) + " with ID \"" + resourceId + "\" not found",
      httpMethod := httpMethod,
      endpoint := endpoint,
      httpStatusCode := Some(404),
      resourceType := Some(resourceType),
      resourceId := Some(resourceId))
  }

  /**
   A not-found error built by `forResource` with no request data names its
   resource twice: once in the message and once in the override's suffix.
   */
  lemma ForResourceText(resourceType: string, resourceId: string)
    requires TruthyText(Some(resourceType)) && TruthyText(Some(resourceId))
    ensures FormattedMessage(ForResource(resourceType, resourceId)) ==
      UcFirst(resourceType) + " with ID \"" + resourceId + "\" not found" + " (HTTP 404)"
        + (" - " + resourceType + " with ID \"" + resourceId + "\" not found")
  {
    var e := ForResource(resourceType, resourceId);
    StatusText404(e);
    assert RequestTag(e) == "";
    var base := BaseFormattedMessage(e);
    assert base == e.message + " (HTTP 404)";
    var tag := ResourceTag(Some(resourceType), Some(resourceId));
    var r := FormattedMessage(e);
    assert r[..|base|] == base && r[|base|..] == tag;
    assert r == base + tag;
  }

  lemma StatusText404(e: CrmError)
    requires e.httpStatusCode == Some(404)
    ensures StatusTag(e) == " (HTTP 404)"
  {
    assert NatText(4) == "4";
    assert NatText(40) == "40";
    assert NatText(404) == "404";
  }

  // NetworkException classifiers

  /** `isTimeout()`. */
  predicate IsTimeout(e: CrmError)
    requires e.kind.Network?
  {
    Contains(Lower(e.message), "timeout") || Contains(Lower(e.message), "timed out")
  }

  /** `isConnectionError()`: "connection" or "connect". */
  predicate IsConnectionError(e: CrmError)
    requires e.kind.Network?
  {
    Contains(Lower(e.message), "connection") || Contains(Lower(e.message), "connect")
  }

  /** Looking for "connection" adds nothing: every message containing it contains "connect". */
  lemma ConnectionErrorIffConnect(e: CrmError)
    requires e.kind.Network?
    ensures IsConnectionError(e) <==> Contains(Lower(e.message), "connect")
  {
    if Contains(Lower(e.message), "connection") {
      ContainsPrefix(Lower(e.message), "connection", "connect");
    }
  }

  /** `isDnsError()`. */
  predicate IsDnsError(e: CrmError)
    requires e.kind.Network?
  {
    Contains(Lower(e.message), "dns") || Contains(Lower(e.message), "resolve")
  }

  const TimeoutAdvice := "The request timed out. Please try again or increase the timeout setting."
  const ConnectionAdvice := "Unable to connect to the API. Please check your network connection and API endpoint."
  const DnsAdvice := "DNS resolution failed. Please check the API hostname configuration."
  const NetworkAdvice := "A network error occurred. Please check your connection and try again."

  /** `NetworkException::getSuggestedAction()`: timeout, then connection, then DNS, then generic. */
  function NetworkSuggestedAction(e: CrmError): (advice: string)
    requires e.kind.Network?
    ensures IsTimeout(e) ==> advice == TimeoutAdvice
    ensures !IsTimeout(e) && IsConnectionError(e) ==> advice == ConnectionAdvice
    ensures !IsTimeout(e) && !IsConnectionError(e) && IsDnsError(e) ==> advice == DnsAdvice
    ensures !IsTimeout(e) && !IsConnectionError(e) && !IsDnsError(e) ==> advice == NetworkAdvice
  {
    if IsTimeout(e) then TimeoutAdvice
    else if IsConnectionError(e) then ConnectionAdvice
    else if IsDnsError(e) then DnsAdvice
    else NetworkAdvice
  }

  /**
   The network classifiers ignore case: each looks for its words in the
   message in any mixture of upper and lower case.
   */
  lemma NetworkClassifiersIgnoreCase(e: CrmError)
    requires e.kind.Network?
    ensures IsTimeout(e) <==> ContainsIgnoringCase(e.message, "timeout") || ContainsIgnoringCase(e.message, "timed out")
    ensures IsConnectionError(e) <==> ContainsIgnoringCase(e.message, "connect")
    ensures IsDnsError(e) <==> ContainsIgnoringCase(e.message, "dns") || ContainsIgnoringCase(e.message, "resolve")
  {
    LowerIsIdentity("timeout");
    LowerIsIdentity("timed out");
    LowerIsIdentity("connect");
    LowerIsIdentity("dns");
    LowerIsIdentity("resolve");
    LowerContains(e.message, "timeout");
    LowerContains(e.message, "timed out");
    LowerContains(e.message, "connect");
    LowerContains(e.message, "dns");
    LowerContains(e.message, "resolve");
    ConnectionErrorIffConnect(e);
  }

  /**
   A connection that timed out gets the timeout advice, not the connection
   advice, although it is also classified as a connection error.
   */
  lemma TimedOutConnectionGetsTimeoutAdvice(e: CrmError)
    requires e.kind.Network?
    requires ContainsIgnoringCase(e.message, "connect") && ContainsIgnoringCase(e.message, "timed out")
    ensures IsConnectionError(e) && IsTimeout(e)
    ensures NetworkSuggestedAction(e) == TimeoutAdvice
  {
    NetworkClassifiersIgnoreCase(e);
  }

  // AuthenticationException classifiers

  /** `isTokenExpired()`: "expired" or "token". */
  predicate IsTokenExpired(e: CrmError)
    requires e.kind.Authentication?
  {
    Contains(Lower(e.message), "expired") || Contains(Lower(e.message), "token")
  }

  /** `isInvalidToken()`: "invalid" or "unauthorized". */
  predicate IsInvalidToken(e: CrmError)
    requires e.kind.Authentication?
  {
    Contains(Lower(e.message), "invalid") || Contains(Lower(e.message), "unauthorized")
  }

  const RefreshAdvice := "Please refresh your authentication token"
  const TokenConfigAdvice := "Please check your API token configuration"
  const CredentialsAdvice := "Please verify your authentication credentials"

  /** `AuthenticationException::getSuggestedAction()`: expired token, then invalid token, then generic. */
  function AuthSuggestedAction(e: CrmError): (advice: string)
    requires e.kind.Authentication?
    ensures IsTokenExpired(e) ==> advice == RefreshAdvice
    ensures !IsTokenExpired(e) && IsInvalidToken(e) ==> advice == TokenConfigAdvice
    ensures !IsTokenExpired(e) && !IsInvalidToken(e) ==> advice == CredentialsAdvice
  {
    if IsTokenExpired(e) then RefreshAdvice
    else if IsInvalidToken(e) then TokenConfigAdvice
    else CredentialsAdvice
  }

  /** The authentication classifiers ignore case in the same way. */
  lemma AuthClassifiersIgnoreCase(e: CrmError)
    requires e.kind.Authentication?
    ensures IsTokenExpired(e) <==> ContainsIgnoringCase(e.message, "expired") || ContainsIgnoringCase(e.message, "token")
    ensures IsInvalidToken(e) <==> ContainsIgnoringCase(e.message, "invalid") || ContainsIgnoringCase(e.message, "unauthorized")
  {
    LowerIsIdentity("expired");
    LowerIsIdentity("token");
    LowerIsIdentity("invalid");
    LowerIsIdentity("unauthorized");
    LowerContains(e.message, "expired");
    LowerContains(e.message, "token");
    LowerContains(e.message, "invalid");
    LowerContains(e.message, "unauthorized");
  }

  /**
   Because the expiry test also matches the bare word "token", every
   message that mentions a token, an invalid one included, gets the refresh
   advice, and the token-configuration advice is reached only by messages
   without the word.
   */
  lemma InvalidTokenGetsRefreshAdvice(e: CrmError)
    requires e.kind.Authentication?
    requires ContainsIgnoringCase(e.message, "token")
    ensures IsTokenExpired(e)
    ensures ContainsIgnoringCase(e.message, "invalid") ==> IsInvalidToken(e)
    ensures AuthSuggestedAction(e) == RefreshAdvice
  {
    AuthClassifiersIgnoreCase(e);
  }

  // Client ValidationException

  /** `hasValidationErrors()`. */
  predicate HasValidationErrors(e: CrmError)
    requires e.kind.Validation?
  {
    |e.kind.validationErrors| > 0
  }

  /** `isset($error['field']) && $error['field'] === $field`. */
  predicate IsErrorFor(error: Json, field: string) {
    error.JObj? && IsSet(error.fields, "field") && error.fields["field"] == JStr(field)
  }

  /**
   The entries from position `from` on whose `field` is `field`, each with
   its original position (`array_filter` keeps keys), in order.
   */
  function FieldErrorsFrom(errors: seq<Json>, field: string, from: nat): (r: seq<(nat, Json)>)
    requires from <= |errors|
    ensures forall k :: 0 <= k < |r| ==> from <= r[k].0 < |errors| && errors[r[k].0] == r[k].1 && IsErrorFor(r[k].1, field)
    ensures forall i :: from <= i < |errors| && IsErrorFor(errors[i], field) ==> (i, errors[i]) in r
    ensures forall a, b :: 0 <= a < b < |r| ==> r[a].0 < r[b].0
    decreases |errors| - from
  {
    if from == |errors| then []
    else
      var rest := FieldErrorsFrom(errors, field, from + 1);
      if IsErrorFor(errors[from], field) then [(from, errors[from])] + rest else rest
  }

  /**
   `getFieldErrors($field)`: exactly the entries whose `field` is set and
   equal to `field`, with their original keys, in the original order.
   */
  function FieldErrors(e: CrmError, field: string): (r: seq<(nat, Json)>)
    requires e.kind.Validation?
    ensures forall k :: 0 <= k < |r| ==>
      r[k].0 < |e.kind.validationErrors| && e.kind.validationErrors[r[k].0] == r[k].1 && IsErrorFor(r[k].1, field)
    ensures forall i :: 0 <= i < |e.kind.validationErrors| && IsErrorFor(e.kind.validationErrors[i], field) ==>
      (i, e.kind.validationErrors[i]) in r
    ensures forall a, b :: 0 <= a < b < |r| ==> r[a].0 < r[b].0
  {
    FieldErrorsFrom(e.kind.validationErrors, field, 0)
  }

  /** `$error[$key] ?? $fallback` for an entry that may not be an array, interpolated. */
  function EntryText(error: Json, key: string, fallback: string): string {
    if error.JObj? && IsSet(error.fields, key) then Interpolate(error.fields[key]) else fallback
  }

  /** One line of the formatted validation message, without its newline. */
  function ErrorLine(error: Json): string {
    "- " + EntryText(error, "field", "unknown") + ": " + EntryText(error, "message", "Invalid value")
  }

  /** The lines as the loop appends them, each followed by a newline. */
  function ErrorLines(errors: seq<Json>): string {
    if |errors| == 0 then "" else ErrorLines(errors[..|errors| - 1]) + ErrorLine(errors[|errors| - 1]) + "\n"
  }

  const ValidationHeader := "\nValidation errors:\n"

  /** `getFormattedValidationMessage()`. */
  function FormattedValidationMessage(e: CrmError): (r: string)
    requires e.kind.Validation?
    ensures |e.kind.validationErrors| == 0 ==> r == e.message
    ensures |r| <= |e.message| + |ValidationHeader| + |ErrorLines(e.kind.validationErrors)|
  {
    if |e.kind.validationErrors| == 0 then e.message
    else Trim(e.message + ValidationHeader + ErrorLines(e.kind.validationErrors))
  }

  /** The newline-terminated lines are the lines joined by newlines, plus one. */
  lemma {:induction false} ErrorLinesJoin(errors: seq<Json>)
    requires |errors| > 0
    ensures ErrorLines(errors) == Join(Seqs.Map(errors, ErrorLine), "\n") + "\n"
  {
    var lines := Seqs.Map(errors, ErrorLine);
    if |errors| > 1 {
      var init := errors[..|errors| - 1];
      ErrorLinesJoin(init);
      assert lines[..|lines| - 1] == Seqs.Map(init, ErrorLine);
    } else {
      assert errors[..0] == [];
    }
  }

  /**
   When the message and the last entry's text have no surrounding
   whitespace, the formatted text is the message, the header, and one
   "- field: message" line per entry joined by newlines: trimming only drops
   the final newline.
   */
  lemma FormattedValidationMessageLines(e: CrmError)
    requires e.kind.Validation? && |e.kind.validationErrors| > 0
    requires e.message != "" && !IsTrimChar(e.message[0])
    requires var last := ErrorLine(e.kind.validationErrors[|e.kind.validationErrors| - 1]);
      !IsTrimChar(last[|last| - 1])
    ensures FormattedValidationMessage(e) ==
      e.message + ValidationHeader + Join(Seqs.Map(e.kind.validationErrors, ErrorLine), "\n")
  {
    var errors := e.kind.validationErrors;
    var lines := Seqs.Map(errors, ErrorLine);
    ErrorLinesJoin(errors);
    var joined := Join(lines, "\n");
    JoinEndsWithLast(lines, "\n");
    var body := e.message + ValidationHeader + joined;
    assert body[|body| - 1] == joined[|joined| - 1];
    assert body[0] == e.message[0];
    TrimDropsNewline(body);
    assert e.message + ValidationHeader + ErrorLines(errors) == body + "\n";
  }

}

=== FILE: dates.dfy ===
/**
 Calendar dates as `DateTime` produces them for the subscriber checks: the
 `Y-m-d` rendering used by the strict round-trip test, and whole-year ages.
 Times of day are taken as equal on both dates, so a year is complete on
 the anniversary itself.
 */
module Dates {
  import opened Text

  datatype Date = Date(year: int, month: int, day: int)

  /** `a` falls earlier in its year than `b` does in its own. */
  predicate EarlierInYear(a: Date, b: Date) {
    a.month < b.month || (a.month == b.month && a.day < b.day)
  }

  /** Calendar order. */
  predicate Before(a: Date, b: Date) {
    a.year < b.year || (a.year == b.year && EarlierInYear(a, b))
  }

  /** The date `k` years after `d`, on the same month and day. */
  function Anniversary(d: Date, k: int): Date {
    Date(d.year + k, d.month, d.day)
  }

  /**
   Age in whole years: the number of anniversaries of `birth` reached by
   `today`. It is negative exactly when the birth date lies in the future.
   */
  function Age(birth: Date, today: Date): (years: int)
    ensures !Before(today, Anniversary(birth, years))
    ensures Before(today, Anniversary(birth, years + 1))
    ensures years < 0 <==> Before(today, birth)
  {
    today.year - birth.year - (if EarlierInYear(today, birth) then 1 else 0)
  }

  /**
   `$today->diff($birthDate)->y` as the PHP code computes it. `diff` measures
   the interval between the two moments without regard to their order, so
   a birth date in the future yields a positive number of years. The birth
   date is parsed a moment before `new DateTime()` runs and takes that
   moment's time of day, so it lies slightly earlier in the day than
   today: a past anniversary that falls today is complete, while a future
   one that falls on today's month and day is a moment short.
   */
  function AgeAsWritten(birth: Date, today: Date): (years: int)
    ensures years >= 0
    ensures !Before(today, birth) ==> years == Age(birth, today)
    ensures Before(today, birth) ==>
      Before(Anniversary(today, years), birth) && !Before(Anniversary(today, years + 1), birth)
  {
    if Before(today, birth) then
      Age(today, birth) - (if today.month == birth.month && today.day == birth.day then 1 else 0)
    else Age(birth, today)
  }

  /**
   The discrepancy: a birth date more than eighteen years in the future
   counts as an adult under the arithmetic as written, while the signed age
   says the person is not born yet.
   */
  lemma FutureBirthDatePassesAsWritten(birth: Date, today: Date)
    requires Before(Anniversary(today, 18), birth)
    ensures Before(today, birth)
    ensures AgeAsWritten(birth, today) >= 18
    ensures Age(birth, today) < 0
  {
  }

  /** The concrete input: on 2026-10-10 a birth date of 2044-10-11 passes as 18. */
  lemma FutureBirthDateExample()
    ensures AgeAsWritten(Date(2044, 10, 11), Date(2026, 10, 10)) == 18
    ensures Age(Date(2044, 10, 11), Date(2026, 10, 10)) < 0
  {
  }

  /** A birth date exactly eighteen years ahead is a moment short of the eighteenth year. */
  lemma ExactFutureAnniversaryFallsShort(today: Date)
    ensures AgeAsWritten(Anniversary(today, 18), today) == 17
  {
  }

  /** An age of at least one year means the birth date lies in the past. */
  lemma AdultIsBornBeforeToday(birth: Date, today: Date)
    requires Age(birth, today) >= 1
    ensures Before(birth, today)
  {
  }

  /** `date('Y', …)`: at least four digits, with a minus sign before year zero. */
  function YearText(y: int): string {
    if y < 0 then "-" + PadZero(NatText(-y), 4) else PadZero(NatText(y), 4)
  }

  /** `$date->format('Y-m-d')`. */
  function FormatYmd(d: Date): string {
    YearText(d.year) + "-" + PadZero(Decimal(d.month), 2) + "-" + PadZero(Decimal(d.day), 2)
  }

  /** Four digits, '-', two digits, '-', two digits. */
  predicate IsDateShape(s: string) {
    && |s| == 10
    && s[4] == '-' && s[7] == '-'
    && (forall i :: 0 <= i < 4 ==> IsDigit(s[i]))
    && IsDigit(s[5]) && IsDigit(s[6]) && IsDigit(s[8]) && IsDigit(s[9])
  }

  /** A number below 10^k has at most k digits. */
  lemma {:induction false} NatTextShort(n: nat, k: nat, bound: nat)
    requires k >= 1 && bound == Pow10(k) && n < bound
    ensures |NatText(n)| <= k
    decreases k
  {
    if n >= 10 {
      NatTextShort(n / 10, k - 1, Pow10(k - 1));
    }
  }

  function Pow10(k: nat): (p: nat)
    ensures p >= 1
  {
    if k == 0 then 1 else 10 * Pow10(k - 1)
  }

  /** Zero-padding a short string of digits gives exactly `width` digits. */
  lemma PaddedDigits(s: string, width: nat)
    requires |s| <= width
    requires forall i :: 0 <= i < |s| ==> IsDigit(s[i])
    ensures |PadZero(s, width)| == width
    ensures forall i :: 0 <= i < width ==> IsDigit(PadZero(s, width)[i])
  {
    var r := PadZero(s, width);
    forall i | 0 <= i < width ensures IsDigit(r[i]) {
      if i >= width - |s| {
        assert r[i] == r[width - |s|..][i - (width - |s|)];
      }
    }
  }

  /** Three digit runs of lengths four, two and two, joined by '-', have the date shape. */
  lemma JoinedDateShape(y: string, m: string, dd: string)
    requires |y| == 4 && |m| == 2 && |dd| == 2
    requires forall i :: 0 <= i < 4 ==> IsDigit(y[i])
    requires IsDigit(m[0]) && IsDigit(m[1]) && IsDigit(dd[0]) && IsDigit(dd[1])
    ensures IsDateShape(y + "-" + m + "-" + dd)
  {
    var s := y + "-" + m + "-" + dd;
    assert s[5] == m[0] && s[6] == m[1] && s[8] == dd[0] && s[9] == dd[1];
    assert forall i :: 0 <= i < 4 ==> s[i] == y[i];
  }

  /** Every date in years 0..9999 renders in the four-two-two digit shape. */
  lemma FormattedDateHasShape(d: Date)
    requires 0 <= d.year <= 9999 && 0 <= d.month <= 99 && 0 <= d.day <= 99
    ensures IsDateShape(FormatYmd(d))
  {
    NatTextShort(d.year, 4, Pow10(4));
    NatTextShort(d.month, 2, Pow10(2));
    NatTextShort(d.day, 2, Pow10(2));
    PaddedDigits(NatText(d.year), 4);
    PaddedDigits(NatText(d.month), 2);
    PaddedDigits(NatText(d.day), 2);
    JoinedDateShape(PadZero(NatText(d.year), 4), PadZero(Decimal(d.month), 2), PadZero(Decimal(d.day), 2));
  }
}

=== FILE: enquiry_response.dfy ===
/** `EnquiryResponse`: the envelopes of the enquiry endpoint. */
module EnquiryResponses {
  import opened Values
  import opened ApiResponses

  /** `[$key => $value]`, plus `subscriber` when it is not null. */
  function WithSubscriber(key: string, value: Json, subscriber: Json): (d: Json)
    requires key != "subscriber"
    ensures d.JObj? && key in d.fields && d.fields[key] == value
    ensures "subscriber" in d.fields <==> subscriber != JNull
    ensures subscriber != JNull ==> d.fields["subscriber"] == subscriber
    ensures d.fields.Keys <= {key, "subscriber"}
  {
    var base := map[key := value];
    JObj(if subscriber != JNull then base["subscriber" := subscriber] else base)
  }

  /** `created()`: status 201 with `data.enquiry`. */
  function Created(enquiry: Json, subscriber: Json := JNull, message: Option<string> := Some("Enquiry created successfully")): (r: ApiResponse)
    ensures r.success && r.status == 201
    ensures r.data == WithSubscriber("enquiry", enquiry, subscriber) && r.message == message
    ensures r.errors == EmptyList
  {
    New(success := true, data := WithSubscriber("enquiry", enquiry, subscriber), message := message, status := 201)
  }

  /** `retrieved()`: status 200 with `data.enquiry` only. */
  function Retrieved(enquiry: Json, message: Option<string> := Some("Enquiry retrieved successfully")): (r: ApiResponse)
    ensures r.success && r.status == 200
    ensures r.data == JObj(map["enquiry" := enquiry]) && r.message == message
    ensures r.errors == EmptyList
  {
    New(success := true, data := JObj(map["enquiry" := enquiry]), message := message)
  }

  /** `list()`: status 200 with `data.enquiries`. */
  function List(enquiries: Json, subscriber: Json := JNull, message: Option<string> := Some("Enquiries retrieved successfully")): (r: ApiResponse)
    ensures r.success && r.status == 200
    ensures r.data == WithSubscriber("enquiries", enquiries, subscriber) && r.message == message
    ensures r.errors == EmptyList
  {
    New(success := true, data := WithSubscriber("enquiries", enquiries, subscriber), message := message)
  }

  /**
   `enquiryValidationError()` as written: it returns
   `parent::validationError(...)`, a base `ApiResponse`, from a method
   declared to return `self`, so every call raises a `TypeError`.
   */
  function EnquiryValidationErrorAsWritten(errors: Json, message: Option<string> := Some("Enquiry validation failed")): (r: Option<ApiResponse>)
    ensures r.None?
  {
    Returned(BaseClass, EnquiryClass, ValidationError(errors, message))
  }

  /**
   `enquiryNotFound()` as written: the base not-found envelope returned
   where `self` is declared, so every call raises a `TypeError`.
   */
  function EnquiryNotFoundAsWritten(enquiryId: Option<string> := None, message: Option<string> := Some("Enquiry not found")): (r: Option<ApiResponse>)
    ensures r.None?
  {
    Returned(BaseClass, EnquiryClass, EnquiryNotFound(enquiryId, message))
  }

  /**
   `enquiryValidationError()` as evidently intended: the 422 validation
   envelope with its own message, built as an `EnquiryResponse`.
   */
  function EnquiryValidationError(errors: Json, message: Option<string> := Some("Enquiry validation failed")): (r: ApiResponse)
    ensures !r.success && r.status == 422
    ensures r.data == JNull && r.message == message
    ensures r.errors == errors
  {
    ValidationError(errors, message)
  }

  /**
   `enquiryNotFound()` as evidently intended: the not-found envelope, with
   `data.enquiryId` only for a truthy id, built as an `EnquiryResponse`.
   */
  function EnquiryNotFound(enquiryId: Option<string> := None, message: Option<string> := Some("Enquiry not found")): (r: ApiResponse)
    ensures r.status == 404 && !r.success && r.message == message
    ensures TruthyText(enquiryId) ==> r.data == JObj(map["enquiryId" := JStr(enquiryId.value)])
    ensures !TruthyText(enquiryId) ==> r.data == JNull
  {
    NotFound(message := message, data := if TruthyText(enquiryId) then JObj(map["enquiryId" := JStr(enquiryId.value)]) else JNull)
  }

  /** `error()`: a failed envelope, 400 unless told otherwise. */
  function Error(message: Option<string> := None, errors: Json := EmptyList, data: Json := JNull, status: int := 400): (r: ApiResponse)
    ensures !r.success && r.status == status
    ensures r.data == data && r.message == message
    ensures r.errors == errors
  {
    New(success := false, data := data, message := message, errors := errors, status := status)
  }

  /**
   The rendered created envelope has status 201, the enquiry at
   `data.enquiry`, and a `subscriber` entry exactly when one was given.
   */
  lemma CreatedEnvelope(enquiry: Json, subscriber: Json, timestamp: string)
    ensures var b := Render(Created(enquiry, subscriber), timestamp);
      && b["status"] == JInt(201) && b["success"] == JBool(true)
      && Member(b["data"], "enquiry") == enquiry
      && ("subscriber" in b["data"].fields <==> subscriber != JNull)
  {
  }

  /** The list envelope follows the same subscriber rule with status 200. */
  lemma ListEnvelope(enquiries: Json, subscriber: Json, timestamp: string)
    ensures var b := Render(List(enquiries, subscriber), timestamp);
      && b["status"] == JInt(200)
      && Member(b["data"], "enquiries") == enquiries
      && ("subscriber" in b["data"].fields <==> subscriber != JNull)
  {
  }
}

=== FILE: enquiry_service.dfy ===
/** `EnquiryService`: the message checks and the enquiry write. */
module EnquiryService {
  import opened Values
  import opened Text
  import Seqs
  import CrmClient
  import ApiResponses
  import EnquiryResponses
  import SubscriberService

  const MessageMaxLength := 10000
  const MessageMinLength := 1

  const EmptyMessage := "Message cannot be empty"
  const MessageTooLong := "Message cannot exceed 10000 characters"
  const BlankMessage := "Message cannot be only whitespace"

  /** The checks in the order they run. */
  const MessageChecks := [EmptyMessage, MessageTooLong, BlankMessage]

  /** A message every check accepts. */
  predicate ValidMessage(message: string) {
    MessageMinLength <= |message| <= MessageMaxLength && !Blank(message)
  }

  /**
   `validateEnquiryData`: the messages of the failed checks in check
   order. The empty message fails both the length and the whitespace check.
   */
  function ValidateEnquiryData(message: string): (errors: seq<string>)
    ensures EmptyMessage in errors <==> |message| < MessageMinLength
    ensures MessageTooLong in errors <==> |message| > MessageMaxLength
    ensures BlankMessage in errors <==> Blank(message)
    ensures message == "" ==> errors == [EmptyMessage, BlankMessage]
    ensures errors == [] <==> ValidMessage(message)
    ensures Seqs.Subseq(errors, MessageChecks)
  {
    var failed := [|message| < MessageMinLength, |message| > MessageMaxLength, Trim(message) == ""];
    assert |EmptyMessage| == 23 && |MessageTooLong| == 38 && |BlankMessage| == 33;
    var errors := Seqs.Pick(failed, MessageChecks);
    Seqs.PickSelects(failed, MessageChecks, 0);
    Seqs.PickSelects(failed, MessageChecks, 1);
    Seqs.PickSelects(failed, MessageChecks, 2);
    errors
  }

  /** `validateMessage`: the errors the checks would raise, or none for a valid message. */
  function ValidateMessage(message: string): (errors: seq<string>)
    ensures errors == [] <==> ValidMessage(message)
    ensures |errors| <= |MessageChecks|
    ensures forall e :: e in errors ==> e in MessageChecks
  {
    ValidateEnquiryData(message)
  }

  /**
   `validateMessage` answers with exactly the errors the intended write
   would reject the message with, where the write as written raises a
   `TypeError` instead.
   */
  lemma ValidateMessageMatchesWrite(subscriberId: string, message: string, outcome: CrmClient.Outcome)
    requires ValidateMessage(message) != []
    ensures CreateEnquiryIntended(subscriberId, message, outcome).response.errors == Texts(ValidateMessage(message))
    ensures CreateEnquiry(subscriberId, message, outcome).None?
  {
  }

  /** A trimmed-away message never passes: at most whitespace is not a message. */
  lemma BlankMessagesFail(message: string)
    requires Blank(message)
    ensures BlankMessage in ValidateMessage(message)
    ensures |message| == 0 ==> ValidateMessage(message) == [EmptyMessage, BlankMessage]
  {
  }

  /**
   The write of a valid message: one POST carries the message; success
   answers 201 with the client's enquiry, and a client error answers 400
   with its message.
   */
  function Submit(subscriberId: string, message: string, outcome: CrmClient.Outcome): (r: SubscriberService.Reply)
    ensures r.calls == [CrmClient.EnquiryRequest(subscriberId, map["message" := JStr(message)])]
    ensures var result := CrmClient.CreateEnquiry(subscriberId, map["message" := JStr(message)], outcome);
      && (result.Ok? <==> r.response.success)
      && (result.Ok? ==> r.response.status == 201 && Member(r.response.data, "enquiry") == result.value)
      && (result.Err? ==> (r.response.status == 400
        && r.response.message == Some("Failed to create enquiry: " + result.error.message)
        && r.response.errors == Texts([result.error.message])))
  {
    var data := map["message" := JStr(message)];
    var result := CrmClient.CreateEnquiry(subscriberId, data, outcome);
    SubscriberService.Reply([CrmClient.EnquiryRequest(subscriberId, data)],
      if result.Ok? then EnquiryResponses.Created(result.value)
      else EnquiryResponses.Error(Some("Failed to create enquiry: " + result.error.message), ApiResponses.ErrorList([result.error.message])))
  }

  /**
   `createEnquiry` as written: a valid message is written; an invalid one
   reaches `enquiryValidationError`, whose base envelope is a `TypeError`
   the surrounding `catch` blocks do not intercept, so the call has no
   answer at all.
   */
  function CreateEnquiry(subscriberId: string, message: string, outcome: CrmClient.Outcome): (r: Option<SubscriberService.Reply>)
    ensures r.None? <==> !ValidMessage(message)
    ensures r.Some? ==> r.value == CreateEnquiryIntended(subscriberId, message, outcome)
  {
    var errors := ValidateEnquiryData(message);
    if errors != [] then
      match EnquiryResponses.EnquiryValidationErrorAsWritten(ApiResponses.ErrorList(errors))
      case Some(response) => Some(SubscriberService.Reply([], response))
      case None => None
    else
      Some(Submit(subscriberId, message, outcome))
  }

  /**
   `createEnquiry` as evidently intended: an invalid message answers 422
   with its errors and calls nothing; a valid one is written.
   */
  function CreateEnquiryIntended(subscriberId: string, message: string, outcome: CrmClient.Outcome): (r: SubscriberService.Reply)
    ensures var errors := ValidateEnquiryData(message);
      && (errors != [] ==> r.calls == [] && r.response == EnquiryResponses.EnquiryValidationError(Texts(errors)))
      && (errors == [] ==> r.calls == [CrmClient.EnquiryRequest(subscriberId, map["message" := JStr(message)])])
      && (errors == [] ==> var result := CrmClient.CreateEnquiry(subscriberId, map["message" := JStr(message)], outcome);
        && (result.Ok? ==> r.response.status == 201 && r.response.success && Member(r.response.data, "enquiry") == result.value)
        && (result.Err? ==> (r.response.status == 400 && !r.response.success
          && r.response.message == Some("Failed to create enquiry: " + result.error.message)
          && r.response.errors == Texts([result.error.message]))))
  {
    var errors := ValidateEnquiryData(message);
    if errors != [] then
      SubscriberService.Reply([], EnquiryResponses.EnquiryValidationError(ApiResponses.ErrorList(errors)))
    else
      Submit(subscriberId, message, outcome)
  }

  /** The message the enquiry request sends is the one the service was given. */
  lemma EnquiryRequestCarriesMessage(subscriberId: string, message: string, outcome: CrmClient.Outcome)
    requires ValidMessage(message)
    ensures CreateEnquiry(subscriberId, message, outcome).Some?
    ensures var calls := CreateEnquiry(subscriberId, message, outcome).value.calls;
      |calls| == 1 && calls[0].json == Some(map["message" := JStr(message)])
  {
  }

  /**
   The id `$subscriber['id']` becomes when passed as a `string`: strings as
   they are, integers in decimal, booleans as "1" or "". A missing or null
   id, an array id, or a subscriber that is not an array is a TypeError,
   modelled as no value.
   */
  function SubscriberIdOf(subscriber: Json): (id: Option<string>)
    ensures !subscriber.JObj? ==> id.None?
    ensures subscriber.JObj? && "id" in subscriber.fields && subscriber.fields["id"].JStr? ==> id == Some(subscriber.fields["id"].s)
    ensures Member(subscriber, "id") == JNull ==> id.None?
  {
    if IsArray(subscriber) then ScalarText(Member(subscriber, "id")) else None
  }

  /**
   `createEnquiryFromSubscriber`: exactly `createEnquiry` with the
   subscriber's id and the message, or nothing when the id cannot be passed
   or `createEnquiry` itself raises the `TypeError` of an invalid message.
   */
  function CreateEnquiryFromSubscriber(subscriber: Json, message: string, outcome: CrmClient.Outcome): (r: Option<SubscriberService.Reply>)
    ensures r.Some? <==> SubscriberIdOf(subscriber).Some? && ValidMessage(message)
    ensures SubscriberIdOf(subscriber).Some? ==> r == CreateEnquiry(SubscriberIdOf(subscriber).value, message, outcome)
  {
    match SubscriberIdOf(subscriber)
    case Some(id) => CreateEnquiry(id, message, outcome)
    case None => None
  }

  /** The id reaches the request path unchanged. */
  lemma FromSubscriberUsesItsId(id: string, message: string, outcome: CrmClient.Outcome)
    requires ValidMessage(message)
    ensures var r := CreateEnquiryFromSubscriber(JObj(map["id" := JStr(id)]), message, outcome);
      r.Some? && r.value.calls[0].endpoint == "/api/subscriber/" + id + "/enquiry"
  {
  }
}

=== FILE: list_service.dfy ===
/**
 `ListService`: the marketing-list allow-list, list selection by name or
 id, and the process-wide list cache. The cache is an explicit state record
 threaded through the calls, and the clock an explicit `now` in seconds.
 */
module ListService {
  import opened Values
  import opened Text
  import Seqs
  import CrmErrors
  import CrmClient

  /** The lists a subscriber may join, lower case. */
  const MarketingLists: seq<string> := ["london", "birmingham", "edinburgh"]

  /** Seconds a non-empty list fetch is reused. */
  const CacheTtl := 300

  /** `self::$listCache` and `self::$cacheTime`. */
  datatype Cache = Cache(lists: seq<Json>, cacheTime: int)

  /** The state before any fetch. */
  const EmptyCache := Cache([], 0)

  /** `isMarketingList($name)`: the lower-cased name is one of the three marketing lists. */
  predicate IsMarketingList(name: string) {
    Lower(name) in MarketingLists
  }

  /**
   Case does not matter to the allow-list: a name is a marketing list
   exactly when it spells one of the three names in some mixture of upper
   and lower case, so two names equal up to case are both marketing lists
   or neither.
   */
  lemma MarketingListIgnoresCase(name: string, other: string)
    ensures IsMarketingList(name) <==> exists m :: m in MarketingLists && SameIgnoringCase(name, m)
    ensures SameIgnoringCase(name, other) ==> (IsMarketingList(name) <==> IsMarketingList(other))
  {
    LowerIsIdentity("london");
    LowerIsIdentity("birmingham");
    LowerIsIdentity("edinburgh");
    assert forall m :: m in MarketingLists ==> Lower(m) == m;
    forall m | m in MarketingLists
      ensures SameIgnoringCase(name, m) <==> Lower(name) == m
    {
      SameIgnoringCaseMeansSameLower(name, m);
    }
    SameIgnoringCaseMeansSameLower(name, other);
  }

  /**
   The list entry's name as a string, when it has one PHP can pass as a
   string. An array-valued `name` is read as no name; PHP raises a
   `TypeError` for it at `isMarketingList`, which this model does not follow.
   */
  function NameOf(entry: Json): Option<string> {
    if entry.JObj? && IsSet(entry.fields, "name") then ScalarText(entry.fields["name"]) else None
  }

  /**
   The test `filterMarketingLists` applies to one entry: an array with a
   `name` set to a marketing list name.
   */
  predicate IsMarketingEntry(entry: Json) {
    NameOf(entry).Some? && IsMarketingList(NameOf(entry).value)
  }

  /**
   `filterMarketingLists($lists)`: exactly the marketing entries, in their
   original order, none dropped, each under the key it had in `lists`
   (`array_filter` keeps keys).
   */
  function FilterMarketingLists(lists: seq<Json>): (r: seq<(nat, Json)>)
    ensures forall k :: 0 <= k < |r| ==> r[k].0 < |lists| && lists[r[k].0] == r[k].1 && IsMarketingEntry(r[k].1)
    ensures forall i :: 0 <= i < |lists| && IsMarketingEntry(lists[i]) ==> (i, lists[i]) in r
    ensures forall a, b :: 0 <= a < b < |r| ==> r[a].0 < r[b].0
    ensures |r| == Seqs.CountIf(lists, IsMarketingEntry)
    ensures Seqs.Values(r) == Seqs.Filter(lists, IsMarketingEntry)
  {
    Seqs.FilterKeyedValues(lists, IsMarketingEntry, 0);
    assert lists[0..] == lists;
    Seqs.FilterKeyed(lists, IsMarketingEntry)
  }

  /** The marketing entries without their keys, as the validation uses them. */
  function MarketingValues(lists: seq<Json>): (r: seq<Json>)
    ensures forall e :: e in r <==> e in lists && IsMarketingEntry(e)
    ensures Seqs.Subseq(r, lists)
  {
    Seqs.Values(FilterMarketingLists(lists))
  }

  /**
   PHP 8's loose `==` between a list id and a selected string, for ids
   that are canonical: a string compares as text, an integer by its decimal
   form, null equals only '', and a boolean compares with the string's
   truthiness. Arrays never equal a string.
   */
  predicate LooseEqualsText(id: Json, s: string) {
    match id
    case JStr(t) => t == s
    case JInt(n) => Decimal(n) == s
    case JNull => s == ""
    case JBool(b) => b == Truthy(JStr(s))
    case _ => false
  }

  /** An entry is chosen by a selection that names it (ignoring case) or equals its id. */
  predicate Matches(entry: Json, selected: string) {
    (NameOf(entry).Some? && Lower(NameOf(entry).value) == Lower(selected))
    || LooseEqualsText(Member(entry, "id"), selected)
  }

  predicate SelectedByAny(entry: Json, selected: seq<string>) {
    exists s :: s in selected && Matches(entry, s)
  }

  /** The entries a non-empty selection keeps, as a filter predicate. */
  function SelectedBy(selected: seq<string>): Json -> bool {
    e => SelectedByAny(e, selected)
  }

  /** A marketing entry the selection names. */
  function Chosen(selected: seq<string>): Json -> bool {
    e => IsMarketingEntry(e) && SelectedByAny(e, selected)
  }

  /** Which lists the client must report, and whether it was asked. */
  datatype Fetch = Fetch(result: Result<seq<Json>, CrmErrors.CrmError>, cache: Cache, called: bool)

  /** The cache serves a request when it is non-empty and younger than the TTL. */
  predicate Fresh(cache: Cache, now: int) {
    |cache.lists| > 0 && now - cache.cacheTime < CacheTtl
  }

  /**
   The client's `lists` value as a list of entries. A string-keyed array
   is not modelled as a sequence and reads as no entries.
   */
  function EntriesOf(lists: Json): seq<Json> {
    if lists.JList? then lists.items else []
  }

  /**
   `fetchLists()`: the cached lists when fresh, without calling the client;
   otherwise the client's answer, which then replaces the cache stamped with
   `now`. A failed call leaves the cache as it was.
   */
  function FetchLists(cache: Cache, now: int, outcome: CrmClient.Outcome): (f: Fetch)
    ensures f.called <==> !Fresh(cache, now)
    ensures !f.called ==> f.result == Ok(cache.lists) && f.cache == cache
    ensures f.called && f.result.Ok? ==> f.cache == Cache(f.result.value, now)
    ensures f.result.Err? ==> f.called && f.cache == cache
    ensures f.called ==> (f.result.Err? <==> CrmClient.GetSubscriberLists(outcome).Err?)
    ensures f.called && f.result.Err? ==> f.result.error == CrmClient.GetSubscriberLists(outcome).error
    ensures f.called && f.result.Ok? ==> f.result.value == EntriesOf(CrmClient.GetSubscriberLists(outcome).value)
    ensures f.called ==> (f.result.Err? <==> !outcome.Delivered?)
  {
    if Fresh(cache, now) then Fetch(Ok(cache.lists), cache, false)
    else
      match CrmClient.GetSubscriberLists(outcome)
      case Ok(lists) => Fetch(Ok(EntriesOf(lists)), Cache(EntriesOf(lists), now), true)
      case Err(e) => Fetch(Err(e), cache, true)
  }

  /**
   A successful non-empty fetch is served from the cache, whatever the
   client would say, for the next 300 seconds; an empty one is never reused.
   */
  lemma CacheReuse(cache: Cache, now: int, later: int, outcome: CrmClient.Outcome, next: CrmClient.Outcome)
    requires now <= later
    ensures var f := FetchLists(cache, now, outcome);
      f.result.Ok? && |f.result.value| > 0 && later < now + CacheTtl && (f.called || later == now) ==>
        FetchLists(f.cache, later, next) == Fetch(f.result, f.cache, false)
    ensures var f := FetchLists(cache, now, outcome);
      f.result.Ok? && |f.result.value| == 0 ==> FetchLists(f.cache, later, next).called
  {
  }

  /** Once the TTL has run out the client is asked again, however full the cache. */
  lemma StaleCacheIsRefetched(cache: Cache, now: int, outcome: CrmClient.Outcome)
    requires now - cache.cacheTime >= CacheTtl
    ensures FetchLists(cache, now, outcome).called
  {
  }

  /** The resolved lists, each under its PHP array key, with the cache after resolving them. */
  datatype Resolved = Resolved(lists: seq<(nat, Json)>, cache: Cache, called: bool)

  /**
   The marketing lists of `all` that some selection matches, in order,
   none dropped, re-keyed from 0: `array_filter` over the marketing lists
   followed by `array_values`.
   */
  function SelectLists(all: seq<Json>, selected: seq<string>): (r: seq<(nat, Json)>)
    ensures forall i :: 0 <= i < |r| ==> r[i].0 == i && IsMarketingEntry(r[i].1) && SelectedByAny(r[i].1, selected)
    ensures Seqs.Values(r) == Seqs.Filter(all, Chosen(selected))
    ensures |r| == Seqs.CountIf(all, Chosen(selected))
  {
    var chosen := Seqs.Filter(Seqs.Values(FilterMarketingLists(all)), SelectedBy(selected));
    Seqs.FilterFilter(all, IsMarketingEntry, SelectedBy(selected), Chosen(selected));
    assert Seqs.Values(Seqs.Enumerate(chosen)) == chosen;
    Seqs.Enumerate(chosen)
  }

  /**
   The lists a consenting subscriber gets from the fetched `all`: with no
   selection every marketing list under its original key, otherwise the
   selected ones; either way exactly the wanted entries of `all`, in order.
   */
  function ChooseLists(all: seq<Json>, selected: seq<string>): (r: seq<(nat, Json)>)
    ensures forall a, b :: 0 <= a < b < |r| ==> r[a].0 < r[b].0
    ensures |selected| == 0 ==> r == FilterMarketingLists(all) && |r| == Seqs.CountIf(all, IsMarketingEntry)
    ensures |selected| > 0 ==> r == SelectLists(all, selected)
    ensures Seqs.Subseq(Seqs.Values(r), all)
    ensures forall e :: e in Seqs.Values(r) <==> e in all && IsMarketingEntry(e) && (|selected| == 0 || SelectedByAny(e, selected))
  {
    if |selected| == 0 then FilterMarketingLists(all) else SelectLists(all, selected)
  }

  /**
   `getListsForSubscriber($consent, $selected)`: the lists are fetched
   first in every case; without consent, or when the fetch fails, the
   answer is empty; otherwise it is the chosen lists of the fetch.
   */
  function GetListsForSubscriber(consent: bool, selected: seq<string>, cache: Cache, now: int, outcome: CrmClient.Outcome): (r: Resolved)
    ensures var f := FetchLists(cache, now, outcome); r.cache == f.cache && r.called == f.called
    ensures !consent ==> r.lists == []
    ensures FetchLists(cache, now, outcome).result.Err? ==> r.lists == []
    ensures consent && FetchLists(cache, now, outcome).result.Ok? ==>
      r.lists == ChooseLists(FetchLists(cache, now, outcome).result.value, selected)
    ensures forall a, b :: 0 <= a < b < |r.lists| ==> r.lists[a].0 < r.lists[b].0
  {
    var f := FetchLists(cache, now, outcome);
    if f.result.Err? || !consent then Resolved([], f.cache, f.called)
    else Resolved(ChooseLists(f.result.value, selected), f.cache, f.called)
  }

  /**
   `getListIdsForSubscriber(...)`: the id of each resolved list, under the
   same key and in the same order (`array_map` keeps keys).
   */
  function GetListIdsForSubscriber(consent: bool, selected: seq<string>, cache: Cache, now: int, outcome: CrmClient.Outcome): (r: (seq<(nat, Json)>, Cache))
    ensures var resolved := GetListsForSubscriber(consent, selected, cache, now, outcome);
      && |r.0| == |resolved.lists|
      && (forall i :: 0 <= i < |r.0| ==> r.0[i] == (resolved.lists[i].0, Member(resolved.lists[i].1, "id")))
      && r.1 == resolved.cache
    ensures forall a, b :: 0 <= a < b < |r.0| ==> r.0[a].0 < r.0[b].0
  {
    var resolved := GetListsForSubscriber(consent, selected, cache, now, outcome);
    (Seqs.Map(resolved.lists, (e: (nat, Json)) => (e.0, Member(e.1, "id"))), resolved.cache)
  }

  /** The message for a selection that matches no marketing list. */
  function InvalidSelection(selected: string): string {
    "Invalid list selection: '" + selected + "'. Available lists: " + Join(MarketingLists, ", ")
  }

  /** The text after the selection is the fixed list of marketing names. */
  lemma InvalidSelectionText(selected: string)
    ensures InvalidSelection(selected) == "Invalid list selection: '" + selected + "'. Available lists: london, birmingham, edinburgh"
  {
    assert MarketingLists[..2] == ["london", "birmingham"];
    assert MarketingLists[..2][..1] == ["london"];
  }

  /** Some available marketing list answers to the selection. */
  predicate Available(selected: string, marketing: seq<Json>) {
    exists e :: e in marketing && Matches(e, selected)
  }

  /**
   One error per selection that matches no list, in selection order: the
   errors are drawn, in order, from the messages of the selections, one for
   each unavailable selection (a repeated one is reported again), and none
   for an available one.
   */
  function SelectionErrors(selected: seq<string>, marketing: seq<Json>): (errors: seq<string>)
    ensures |errors| <= |selected|
    ensures errors == [] <==> forall s :: s in selected ==> Available(s, marketing)
    ensures forall s :: s in selected && !Available(s, marketing) ==> InvalidSelection(s) in errors
    ensures forall e :: e in errors ==> exists s :: s in selected && !Available(s, marketing) && e == InvalidSelection(s)
    ensures Seqs.Subseq(errors, Seqs.Map(selected, InvalidSelection))
    ensures |errors| == Seqs.CountIf(selected, s => !Available(s, marketing))
  {
    if |selected| == 0 then []
    else
      var rest := SelectionErrors(selected[1..], marketing);
      assert forall s :: s in selected <==> s == selected[0] || s in selected[1..];
      SelectionErrorsStep(selected, Available(selected[0], marketing), rest);
      if Available(selected[0], marketing) then rest else [InvalidSelection(selected[0])] + rest
  }

  /** Dropping or reporting the first selection keeps the errors in selection order. */
  lemma SelectionErrorsStep(selected: seq<string>, available: bool, rest: seq<string>)
    requires |selected| > 0
    requires Seqs.Subseq(rest, Seqs.Map(selected[1..], InvalidSelection))
    ensures Seqs.Subseq(if available then rest else [InvalidSelection(selected[0])] + rest, Seqs.Map(selected, InvalidSelection))
  {
    var all := Seqs.Map(selected, InvalidSelection);
    assert all[1..] == Seqs.Map(selected[1..], InvalidSelection);
    if available {
      Seqs.SubseqExtend(rest, all);
    } else {
      assert ([InvalidSelection(selected[0])] + rest)[1..] == rest;
    }
  }

  /** The validation result with the cache after it. */
  datatype Checked = Checked(errors: seq<string>, cache: Cache, called: bool)

  /** `validateSelectedLists($selected)`. */
  function ValidateSelectedLists(selected: seq<string>, cache: Cache, now: int, outcome: CrmClient.Outcome): (r: Checked)
    ensures |selected| == 0 ==> r == Checked([], cache, false)
    ensures |selected| > 0 ==> var f := FetchLists(cache, now, outcome);
      && r.cache == f.cache && r.called == f.called
      && (f.result.Err? ==> r.errors == ["Unable to validate lists: " + f.result.error.message])
      && (f.result.Ok? ==> r.errors == SelectionErrors(selected, MarketingValues(f.result.value)))
  {
    if |selected| == 0 then Checked([], cache, false)
    else
      var f := FetchLists(cache, now, outcome);
      match f.result
      case Err(e) => Checked(["Unable to validate lists: " + e.message], f.cache, f.called)
      case Ok(all) => Checked(SelectionErrors(selected, MarketingValues(all)), f.cache, f.called)
  }

  /**
   What validation accepts, resolution delivers: after a selection passes,
   resolving it with consent from the cache validation left behind asks
   nothing of the client, and every selection names some resolved list.
   */
  lemma ValidatedSelectionsResolve(selected: seq<string>, cache: Cache, now: int, outcome: CrmClient.Outcome, next: CrmClient.Outcome)
    requires |selected| > 0
    requires ValidateSelectedLists(selected, cache, now, outcome).errors == []
    ensures var after := ValidateSelectedLists(selected, cache, now, outcome).cache;
      var resolved := GetListsForSubscriber(true, selected, after, now, next);
      && !resolved.called
      && forall s :: s in selected ==> exists e :: e in Seqs.Values(resolved.lists) && Matches(e, s)
  {
    var f := FetchLists(cache, now, outcome);
    var all := f.result.value;
    var marketing := MarketingValues(all);
    assert Available(selected[0], marketing);
    var resolved := GetListsForSubscriber(true, selected, f.cache, now, next);
    assert FetchLists(f.cache, now, next).result == Ok(all);
    forall s | s in selected
      ensures exists e :: e in Seqs.Values(resolved.lists) && Matches(e, s)
    {
      var e :| e in marketing && Matches(e, s);
      assert SelectedByAny(e, selected);
    }
  }
}

=== FILE: retry.dfy ===
/**
 The retry policy of the CRM client: the decider and the delay closures it
 hands to Guzzle's retry middleware, as pure functions of their arguments.
 How the middleware feeds them (which failures arrive as a response and
 which as an exception) belongs to the library and is not modelled.
 */
module Retry {
  import opened Values

  /** The exception class the decider sees when there is no response. */
  datatype TransferKind = Connect | OtherTransfer

  datatype RetryConfig = RetryConfig(retryAttempts: int, retryDelay: int)

  /** The constructor defaults: three retries, 1000 ms base delay. */
  const DefaultConfig := RetryConfig(3, 1000)

  /** A transient failure: no connection, a server error, or rate limiting. */
  predicate Transient(status: Option<int>, exception: Option<TransferKind>) {
    exception == Some(Connect) || (status.Some? && (status.value >= 500 || status.value == 429))
  }

  /**
   The retry decider. Once `retries` reaches the configured number it
   refuses whatever happened; below it, it retries a connect failure, a
   status of 500 or more and 429, and refuses every other outcome, so the
   other client errors (400, 401, 403, 404, ...) are never retried.
   */
  function ShouldRetry(cfg: RetryConfig, retries: nat, status: Option<int>, exception: Option<TransferKind>): (retry: bool)
    ensures retry <==> retries < cfg.retryAttempts && Transient(status, exception)
    ensures retries >= cfg.retryAttempts ==> !retry
    ensures retries < cfg.retryAttempts && exception == Some(Connect) ==> retry
    ensures retries < cfg.retryAttempts && status.Some? && status.value >= 500 ==> retry
    ensures retries < cfg.retryAttempts && status == Some(429) ==> retry
    ensures status.Some? && 400 <= status.value < 500 && status.value != 429 && exception != Some(Connect) ==> !retry
    ensures exception == Some(OtherTransfer) && status.None? ==> !retry
    ensures status.None? && exception.None? ==> !retry
    ensures status.Some? && status.value < 400 && exception != Some(Connect) ==> !retry
  {
    if retries >= cfg.retryAttempts then false
    else if exception == Some(Connect) then true
    else if status.Some? && status.value >= 500 then true
    else if status.Some? && status.value == 429 then true
    else false
  }

  /** What the decider is shown about one attempt. */
  datatype Attempt = Attempt(status: Option<int>, exception: Option<TransferKind>)

  /**
   The retry count at which the decider first refuses, when attempt `i` is
   judged with `retries == i` (the middleware counts from 0 and adds one per
   retry). Running out of recorded attempts also stops the count.
   */
  function GrantedRetries(cfg: RetryConfig, attempts: seq<Attempt>, retries: nat := 0): (granted: nat)
    ensures retries <= granted
    ensures granted <= |attempts| || granted == retries
    ensures forall i :: retries <= i < granted ==> ShouldRetry(cfg, i, attempts[i].status, attempts[i].exception)
    ensures granted < |attempts| ==> !ShouldRetry(cfg, granted, attempts[granted].status, attempts[granted].exception)
    decreases |attempts| - retries
  {
    if retries < |attempts| && ShouldRetry(cfg, retries, attempts[retries].status, attempts[retries].exception)
    then GrantedRetries(cfg, attempts, retries + 1)
    else retries
  }

  /** Counting from 0, at most `retryAttempts` retries are granted. */
  lemma {:induction false} RetriesAreBounded(cfg: RetryConfig, attempts: seq<Attempt>, retries: nat)
    requires retries <= cfg.retryAttempts || retries == 0
    ensures GrantedRetries(cfg, attempts, retries) <= if cfg.retryAttempts < 0 then 0 else cfg.retryAttempts
    decreases |attempts| - retries
  {
    if retries < |attempts| && ShouldRetry(cfg, retries, attempts[retries].status, attempts[retries].exception) {
      RetriesAreBounded(cfg, attempts, retries + 1);
    }
  }

  /** While every attempt fails transiently, the decider grants exactly `retryAttempts` retries. */
  lemma {:induction false} TransientFailuresUseEveryRetry(cfg: RetryConfig, attempts: seq<Attempt>, retries: nat)
    requires 0 <= retries <= cfg.retryAttempts <= |attempts|
    requires forall i :: 0 <= i < |attempts| ==> Transient(attempts[i].status, attempts[i].exception)
    ensures GrantedRetries(cfg, attempts, retries) == cfg.retryAttempts
    decreases |attempts| - retries
  {
    if retries < cfg.retryAttempts {
      TransientFailuresUseEveryRetry(cfg, attempts, retries + 1);
    }
  }

  /** A client error other than 429 on the first attempt ends the call with no retry. */
  lemma ClientErrorIsNeverRetried(cfg: RetryConfig, status: int, rest: seq<Attempt>)
    requires 400 <= status < 500 && status != 429
    ensures GrantedRetries(cfg, [Attempt(Some(status), None)] + rest) == 0
  {
  }

  /** The delay closure: the base delay times the retry number, in milliseconds. */
  function RetryDelay(cfg: RetryConfig, retries: nat): (ms: int)
    ensures retries == 0 ==> ms == 0
    ensures retries == 1 ==> ms == cfg.retryDelay
  {
    cfg.retryDelay * retries
  }

  /** The delay grows linearly: it is additive in the retry number. */
  lemma DelayIsLinear(cfg: RetryConfig, a: nat, b: nat)
    ensures RetryDelay(cfg, a + b) == RetryDelay(cfg, a) + RetryDelay(cfg, b)
  {
    assert cfg.retryDelay * (a + b) == cfg.retryDelay * a + cfg.retryDelay * b;
  }

  /** With a non-negative base delay, later retries never wait less. */
  lemma DelayIsMonotone(cfg: RetryConfig, a: nat, b: nat)
    requires cfg.retryDelay >= 0 && a <= b
    ensures RetryDelay(cfg, a) <= RetryDelay(cfg, b)
  {
    DelayIsLinear(cfg, a, b - a);
  }

  /** Total wait before retries 1..n (the middleware computes the delay after counting the retry). */
  function TotalBackoff(cfg: RetryConfig, n: nat): int {
    if n == 0 then 0 else TotalBackoff(cfg, n - 1) + RetryDelay(cfg, n)
  }

  /** The cumulative back-off is the base delay times n(n+1)/2. */
  lemma {:induction false} TotalBackoffClosedForm(cfg: RetryConfig, n: nat)
    ensures 2 * TotalBackoff(cfg, n) == cfg.retryDelay * (n * (n + 1))
  {
    if n > 0 {
      TotalBackoffClosedForm(cfg, n - 1);
      var d := cfg.retryDelay;
      assert n * (n + 1) == (n - 1) * n + 2 * n;
      Distribute(d, (n - 1) * n, 2 * n);
      assert d * (2 * n) == 2 * (d * n);
    }
  }

  lemma Distribute(a: int, b: int, c: int)
    ensures a * (b + c) == a * b + a * c
  {
  }

  /** With the defaults, three transient failures cost 1000 + 2000 + 3000 ms of waiting. */
  lemma DefaultBackoff()
    ensures TotalBackoff(DefaultConfig, 3) == 6000
  {
    TotalBackoffClosedForm(DefaultConfig, 3);
  }
}

=== FILE: seqs.dfy ===
/**
 Order-preserving filtering, the model of PHP's `array_filter` followed by
 `array_values` (and of `array_filter` alone where only the values matter).
 */
module Seqs {

  /** `a` can be obtained from `b` by deleting elements (greedy test). */
  ghost predicate Subseq<T>(a: seq<T>, b: seq<T>)
    decreases |b|
  {
    |a| == 0 || (|b| > 0 && if a[0] == b[0] then Subseq(a[1..], b[1..]) else Subseq(a, b[1..]))
  }

  /** A subsequence stays one when its first element is dropped. */
  lemma {:induction false} SubseqDropHead<T>(a: seq<T>, x: seq<T>)
    requires |a| > 0 && Subseq(a, x)
    ensures Subseq(a[1..], x)
    decreases |x|, 1
  {
    if a[0] == x[0] {
      SubseqExtend(a[1..], x);
    } else {
      SubseqDropHead(a, x[1..]);
      SubseqExtend(a[1..], x);
    }
  }

  /** A subsequence of a tail is a subsequence of the whole. */
  lemma {:induction false} SubseqExtend<T>(p: seq<T>, x: seq<T>)
    requires |x| > 0 && Subseq(p, x[1..])
    ensures Subseq(p, x)
    decreases |x|, 0
  {
    if |p| > 0 && p[0] == x[0] {
      SubseqDropHead(p, x[1..]);
    }
  }

  /** Deleting elements twice is deleting elements once. */
  lemma {:induction false} SubseqTrans<T>(a: seq<T>, b: seq<T>, c: seq<T>)
    requires Subseq(a, b) && Subseq(b, c)
    ensures Subseq(a, c)
    decreases |c|
  {
    if |a| > 0 {
      if b[0] == c[0] {
        if a[0] == b[0] {
          SubseqTrans(a[1..], b[1..], c[1..]);
        } else {
          SubseqTrans(a, b[1..], c[1..]);
        }
      } else {
        SubseqTrans(a, b, c[1..]);
        if a[0] == c[0] {
          SubseqDropHead(a, c[1..]);
        }
      }
    }
  }

  /** How many elements of `s` satisfy `p`. */
  function CountIf<T>(s: seq<T>, p: T -> bool): (n: nat)
    ensures n <= |s|
  {
    if |s| == 0 then 0 else (if p(s[0]) then 1 else 0) + CountIf(s[1..], p)
  }

  /**
   The elements of `s` that satisfy `p`, in their original order: a
   subsequence of `s` made of satisfying elements only, and as many of them
   as `s` holds, so none is dropped.
   */
  function Filter<T(!new)>(s: seq<T>, p: T -> bool): (r: seq<T>)
    ensures forall i :: 0 <= i < |r| ==> p(r[i])
    ensures forall x :: x in r <==> x in s && p(x)
    ensures Subseq(r, s)
    ensures |r| == CountIf(s, p)
  {
    if |s| == 0 then []
    else
      var rest := Filter(s[1..], p);
      assert forall x :: x in s <==> x == s[0] || x in s[1..];
      if p(s[0]) then
        assert ([s[0]] + rest)[1..] == rest;
        [s[0]] + rest
      else
        assert |rest| > 0 ==> rest[0] != s[0];
        rest
  }

  /**
   The elements of `xs` whose flag is set, in order: the errors an ordered
   run of checks reports, when `flags[i]` says whether check `i` failed.
   */
  function Pick<T(!new)>(flags: seq<bool>, xs: seq<T>): (r: seq<T>)
    requires |flags| == |xs|
    ensures |r| <= |xs|
    ensures Subseq(r, xs)
    ensures forall i :: 0 <= i < |xs| && flags[i] ==> xs[i] in r
    ensures forall x :: x in r ==> exists i :: 0 <= i < |xs| && flags[i] && xs[i] == x
    ensures r == [] <==> forall i :: 0 <= i < |flags| ==> !flags[i]
  {
    if |xs| == 0 then []
    else
      var rest := Pick(flags[1..], xs[1..]);
      assert forall i :: 1 <= i < |xs| ==> flags[i] == flags[1..][i - 1] && xs[i] == xs[1..][i - 1];
      if flags[0] then
        assert ([xs[0]] + rest)[1..] == rest;
        [xs[0]] + rest
      else
        SubseqExtend(rest, xs);
        rest
  }

  /** With distinct candidates, a candidate is picked exactly when its flag is set. */
  lemma PickSelects<T(!new)>(flags: seq<bool>, xs: seq<T>, k: int)
    requires |flags| == |xs| && 0 <= k < |xs|
    requires forall i, j :: 0 <= i < j < |xs| ==> xs[i] != xs[j]
    ensures xs[k] in Pick(flags, xs) <==> flags[k]
  {
    if xs[k] in Pick(flags, xs) {
      var i :| 0 <= i < |xs| && flags[i] && xs[i] == xs[k];
      assert i == k;
    }
  }

  /** Applies `f` to each element (PHP's `array_map` on a list). */
  function Map<T, U>(s: seq<T>, f: T -> U): (r: seq<U>)
    ensures |r| == |s|
    ensures forall i :: 0 <= i < |s| ==> r[i] == f(s[i])
  {
    seq(|s|, i requires 0 <= i < |s| => f(s[i]))
  }

  /** Each element paired with its position, as PHP keeps keys in `array_filter`. */
  function Enumerate<T>(s: seq<T>): (r: seq<(nat, T)>)
    ensures |r| == |s|
    ensures forall i :: 0 <= i < |s| ==> r[i] == (i, s[i])
  {
    seq(|s|, i requires 0 <= i < |s| => (i as nat, s[i]))
  }

  /** The values of a keyed sequence, keys dropped (PHP's `array_values`). */
  function Values<T>(entries: seq<(nat, T)>): (r: seq<T>)
    ensures |r| == |entries|
    ensures forall i :: 0 <= i < |entries| ==> r[i] == entries[i].1
  {
    seq(|entries|, i requires 0 <= i < |entries| => entries[i].1)
  }

  /**
   PHP's `array_filter` on a list, keys kept: the elements of `s` from
   position `from` on that satisfy `p`, each paired with its position, in
   order. Dropping the keys gives `Filter`.
   */
  function FilterKeyed<T(!new)>(s: seq<T>, p: T -> bool, from: nat := 0): (r: seq<(nat, T)>)
    requires from <= |s|
    ensures forall k :: 0 <= k < |r| ==> from <= r[k].0 < |s| && s[r[k].0] == r[k].1 && p(r[k].1)
    ensures forall i :: from <= i < |s| && p(s[i]) ==> (i, s[i]) in r
    ensures forall a, b :: 0 <= a < b < |r| ==> r[a].0 < r[b].0
    decreases |s| - from
  {
    if from == |s| then []
    else
      var rest := FilterKeyed(s, p, from + 1);
      if p(s[from]) then [(from, s[from])] + rest else rest
  }

  /** Dropping the keys `array_filter` kept gives the plain filter. */
  lemma {:induction false} FilterKeyedValues<T(!new)>(s: seq<T>, p: T -> bool, from: nat)
    requires from <= |s|
    ensures Values(FilterKeyed(s, p, from)) == Filter(s[from..], p)
    ensures |FilterKeyed(s, p, from)| == CountIf(s[from..], p)
    decreases |s| - from
  {
    if from < |s| {
      FilterKeyedValues(s, p, from + 1);
      FilterKeyedStep(s, p, from);
    } else {
      assert s[from..] == [];
    }
  }

  /** One step of `FilterKeyed`: the head is kept, with its key, exactly when it satisfies `p`. */
  lemma FilterKeyedStep<T(!new)>(s: seq<T>, p: T -> bool, from: nat)
    requires from < |s|
    requires Values(FilterKeyed(s, p, from + 1)) == Filter(s[from + 1..], p)
    ensures Values(FilterKeyed(s, p, from)) == Filter(s[from..], p)
    ensures |FilterKeyed(s, p, from)| == |Filter(s[from..], p)|
  {
    var rest := FilterKeyed(s, p, from + 1);
    var t := s[from..];
    assert t[0] == s[from] && t[1..] == s[from + 1..];
    FilterUnfold(t, p);
    if p(s[from]) {
      ValuesCons((from, s[from]), rest);
    }
  }

  /** `Filter` takes the head exactly when it satisfies `p`. */
  lemma FilterUnfold<T(!new)>(t: seq<T>, p: T -> bool)
    requires |t| > 0
    ensures Filter(t, p) == if p(t[0]) then [t[0]] + Filter(t[1..], p) else Filter(t[1..], p)
  {
  }

  /** The values of a sequence with one more entry in front. */
  lemma ValuesCons<T>(e: (nat, T), rest: seq<(nat, T)>)
    ensures Values([e] + rest) == [e.1] + Values(rest)
  {
    var l, b := [e] + rest, [e.1] + Values(rest);
    forall i | 0 <= i < |l|
      ensures Values(l)[i] == b[i]
    {
      if i > 0 {
        assert l[i] == rest[i - 1];
      }
    }
  }

  /** Filtering by `p` and then by `q` is filtering by their conjunction. */
  lemma {:induction false} FilterFilter<T(!new)>(s: seq<T>, p: T -> bool, q: T -> bool, both: T -> bool)
    requires forall x :: both(x) == (p(x) && q(x))
    ensures Filter(Filter(s, p), q) == Filter(s, both)
  {
    if |s| > 0 {
      FilterFilter(s[1..], p, q, both);
      if p(s[0]) {
        assert Filter(s, p)[1..] == Filter(s[1..], p);
      }
    }
  }
}

=== FILE: signup_response.dfy ===
/** `SignupResponse`: the envelopes of the signup endpoint. */
module SignupResponses {
  import opened Values
  import opened ApiResponses

  /** `['subscriber' => $subscriber]`, plus `enquiry` when it is not null. */
  function SignupData(subscriber: Json, enquiry: Json): (d: Json)
    ensures d.JObj? && "subscriber" in d.fields && d.fields["subscriber"] == subscriber
    ensures "enquiry" in d.fields <==> enquiry != JNull
    ensures enquiry != JNull ==> d.fields["enquiry"] == enquiry
    ensures d.fields.Keys <= {"subscriber", "enquiry"}
  {
    var base := map["subscriber" := subscriber];
    JObj(if enquiry != JNull then base["enquiry" := enquiry] else base)
  }

  /** `signupSuccess()`: status 201. */
  function SignupSuccess(subscriber: Json, enquiry: Json := JNull, message: Option<string> := Some("Signup completed successfully")): (r: ApiResponse)
    ensures r.success && r.status == 201
    ensures r.data == SignupData(subscriber, enquiry) && r.message == message
    ensures r.errors == EmptyList
  {
    New(success := true, data := SignupData(subscriber, enquiry), message := message, status := 201)
  }

  /** `updated()`: the constructor's status 200. */
  function Updated(subscriber: Json, enquiry: Json := JNull, message: Option<string> := Some("Signup completed - subscriber updated")): (r: ApiResponse)
    ensures r.success && r.status == 200
    ensures r.data == SignupData(subscriber, enquiry) && r.message == message
    ensures r.errors == EmptyList
  {
    New(success := true, data := SignupData(subscriber, enquiry), message := message)
  }

  /** `signupValidationError()`: status 422. */
  function SignupValidationError(errors: Json, message: Option<string> := Some("Signup validation failed")): (r: ApiResponse)
    ensures !r.success && r.status == 422
    ensures r.data == JNull && r.message == message
    ensures r.errors == errors
  {
    New(success := false, message := message, errors := errors, status := 422)
  }

  /** Errors keyed by the offending field: `[$field => [$message]]`. */
  function FieldErrors(field: string, message: Option<string>): Json {
    JObj(map[field := JList([NullableText(message)])])
  }

  /** `ageValidationError()`: status 422, the message repeated under `errors.dateOfBirth`. */
  function AgeValidationError(message: Option<string> := Some("Subscriber must be at least 18 years old")): (r: ApiResponse)
    ensures !r.success && r.status == 422
    ensures r.data == JNull && r.message == message
    ensures r.errors == FieldErrors("dateOfBirth", message)
  {
    New(success := false, errors := FieldErrors("dateOfBirth", message), message := message, status := 422)
  }

  /** `marketingConsentError()`: status 422, the message under `errors.marketingConsent`. */
  function MarketingConsentError(message: Option<string> := Some("Marketing consent is required for list subscriptions")): (r: ApiResponse)
    ensures !r.success && r.status == 422
    ensures r.data == JNull && r.message == message
    ensures r.errors == FieldErrors("marketingConsent", message)
  {
    New(success := false, errors := FieldErrors("marketingConsent", message), message := message, status := 422)
  }

  const ExternalApiErrorData := JObj(map[
    "type" := JStr("external_api_error"),
    "suggestion" := JStr("Please try again later or contact support")])

  /** `externalApiError()`: status 500 with `data.type` naming the failure. */
  function ExternalApiError(message: Option<string> := Some("External API error occurred during signup")): (r: ApiResponse)
    ensures !r.success && r.status == 500
    ensures r.data == ExternalApiErrorData && r.message == message
    ensures r.errors == EmptyList
  {
    New(success := false, message := message, data := ExternalApiErrorData, status := 500)
  }

  /** `summary()`: status 200. */
  function Summary(data: Json, message: Option<string> := Some("Signup summary")): (r: ApiResponse)
    ensures r.success && r.status == 200
    ensures r.data == data && r.message == message
    ensures r.errors == EmptyList
  {
    New(success := true, data := data, message := message)
  }

  /**
   The rendered success envelope has status 201, carries the subscriber
   at `data.subscriber`, and has an `enquiry` entry exactly when an enquiry
   was given; an enquiry that is present is carried unchanged.
   */
  lemma SuccessEnvelope(subscriber: Json, enquiry: Json, timestamp: string)
    ensures var b := Render(SignupSuccess(subscriber, enquiry), timestamp);
      && b["status"] == JInt(201) && b["success"] == JBool(true)
      && b["data"].JObj? && b["data"].fields["subscriber"] == subscriber
      && ("enquiry" in b["data"].fields <==> enquiry != JNull)
      && Member(b["data"], "enquiry") == enquiry
  {
  }

  /** The keyed-error envelopes always render their errors, keyed by the field. */
  lemma KeyedErrorEnvelopes(message: Option<string>, timestamp: string)
    ensures var b := Render(AgeValidationError(message), timestamp);
      b["status"] == JInt(422) && "errors" in b && b["errors"].fields.Keys == {"dateOfBirth"}
    ensures var b := Render(MarketingConsentError(message), timestamp);
      b["status"] == JInt(422) && "errors" in b && b["errors"].fields.Keys == {"marketingConsent"}
    ensures var b := Render(ExternalApiError(), timestamp);
      b["status"] == JInt(500) && Member(b["data"], "type") == JStr("external_api_error")
  {
  }
}

=== FILE: signup_service.dfy ===
/**
 `SignupService`: the signup flow. It validates the whole form, resolves
 the list ids, upserts the subscriber through `SubscriberService`, and
 files an optional enquiry through `EnquiryService` whose failure never
 fails the signup. The list cache is threaded through as explicit state;
 each client endpoint answers with one fixed outcome.
 */
module SignupService {
  import opened Values
  import opened Text
  import Seqs
  import CrmClient
  import ApiResponses
  import SignupResponses
  import ListService
  import SubscriberService
  import EnquiryService

  /** The arguments of `processSignup`, with its defaults made explicit by the caller. */
  datatype SignupArgs = SignupArgs(
    emailAddress: string,
    firstName: Option<string>,
    lastName: Option<string>,
    dateOfBirth: Option<string>,
    marketingConsent: bool,
    selectedLists: seq<string>,
    message: Option<string>)

  /** What each client endpoint answers during one signup. */
  datatype Upstream = Upstream(lists: CrmClient.Outcome, subscriber: CrmClient.Outcome, enquiry: CrmClient.Outcome)

  /**
   The outcome of one signup: how often the lists were fetched, the
   subscriber and enquiry requests made, the cache afterwards, and the
   response. No response means a PHP `TypeError` escaped the service.
   */
  datatype Signup = Signup(
    listFetches: nat,
    writes: seq<CrmClient.Request>,
    enquiries: seq<CrmClient.Request>,
    cache: ListService.Cache,
    response: Option<ApiResponses.ApiResponse>)

  const SubscriberFailedMessage := "Failed to create subscriber"
  const SubscriberFailedError := "Subscriber creation failed"
  const UnexpectedMessage := "An unexpected error occurred during signup"
  const UnexpectedError := "An unexpected error occurred. Please try again."
  const CompletedMessage := "Signup completed successfully"

  /** The message asks for an enquiry: it is given and not only whitespace. */
  predicate WantsEnquiry(message: Option<string>) {
    message.Some? && !Blank(message.value)
  }

  /** The part of signup validation that depends on the form alone. */
  predicate FormAcceptable(env: SubscriberService.Env, args: SignupArgs) {
    && env.isEmail(args.emailAddress)
    && (args.dateOfBirth.Some? ==> SubscriberService.IsValidAge(env, args.dateOfBirth))
    && (WantsEnquiry(args.message) ==> EnquiryService.ValidMessage(args.message.value))
  }

  /**
   `validateSignupData`: the email message first, then the age message, then
   the list errors (only for a non-empty selection, which fetches the
   lists), then the message errors (only for a message that asks for an
   enquiry). The form passes exactly when every part passes.
   */
  function ValidateSignupData(env: SubscriberService.Env, args: SignupArgs, cache: ListService.Cache, now: int, lists: CrmClient.Outcome): (r: ListService.Checked)
    ensures var listCheck := ListService.ValidateSelectedLists(args.selectedLists, cache, now, lists);
      && r.cache == listCheck.cache && r.called == listCheck.called
      && (r.errors == [] <==> FormAcceptable(env, args) && listCheck.errors == [])
    ensures |args.selectedLists| == 0 ==> !r.called && r.cache == cache
    ensures !env.isEmail(args.emailAddress) ==> r.errors[0] == SubscriberService.InvalidEmail
    ensures env.isEmail(args.emailAddress) && args.dateOfBirth.Some? && !SubscriberService.IsValidAge(env, args.dateOfBirth) ==>
      r.errors[0] == SubscriberService.TooYoung
    ensures forall e :: e in ListService.ValidateSelectedLists(args.selectedLists, cache, now, lists).errors ==> e in r.errors
    ensures WantsEnquiry(args.message) ==> var m := EnquiryService.ValidateMessage(args.message.value);
      |m| <= |r.errors| && r.errors[|r.errors| - |m|..] == m
  {
    var emailErrors := if env.isEmail(args.emailAddress) then [] else [SubscriberService.InvalidEmail];
    var ageErrors := if args.dateOfBirth.Some? && !SubscriberService.IsValidAge(env, args.dateOfBirth) then [SubscriberService.TooYoung] else [];
    var listCheck := ListService.ValidateSelectedLists(args.selectedLists, cache, now, lists);
    var messageErrors := if WantsEnquiry(args.message) then EnquiryService.ValidateMessage(args.message.value) else [];
    ListService.Checked(emailErrors + ageErrors + listCheck.errors + messageErrors, listCheck.cache, listCheck.called)
  }

  /**
   The full order of the signup errors: at most the email and the age
   message, in that order and each exactly when its check fails, then the
   list errors as the list validation reported them, then the message
   errors; nothing else.
   */
  lemma SignupErrorOrder(env: SubscriberService.Env, args: SignupArgs, cache: ListService.Cache, now: int, lists: CrmClient.Outcome)
    ensures OrderedSignupErrors(ValidateSignupData(env, args, cache, now, lists).errors,
      ListService.ValidateSelectedLists(args.selectedLists, cache, now, lists).errors,
      if WantsEnquiry(args.message) then EnquiryService.ValidateMessage(args.message.value) else [],
      !env.isEmail(args.emailAddress),
      args.dateOfBirth.Some? && !SubscriberService.IsValidAge(env, args.dateOfBirth))
  {
    var lc := ListService.ValidateSelectedLists(args.selectedLists, cache, now, lists).errors;
    var m := if WantsEnquiry(args.message) then EnquiryService.ValidateMessage(args.message.value) else [];
    var emailFails := !env.isEmail(args.emailAddress);
    var ageFails := args.dateOfBirth.Some? && !SubscriberService.IsValidAge(env, args.dateOfBirth);
    SignupErrorParts(env, args, cache, now, lists);
    OrderedParts(lc, m, emailFails, ageFails);
  }

  /** The signup errors are the email and age messages, the list errors and the message errors, concatenated. */
  lemma SignupErrorParts(env: SubscriberService.Env, args: SignupArgs, cache: ListService.Cache, now: int, lists: CrmClient.Outcome)
    ensures ValidateSignupData(env, args, cache, now, lists).errors ==
      (if !env.isEmail(args.emailAddress) then [SubscriberService.InvalidEmail] else [])
      + (if args.dateOfBirth.Some? && !SubscriberService.IsValidAge(env, args.dateOfBirth) then [SubscriberService.TooYoung] else [])
      + ListService.ValidateSelectedLists(args.selectedLists, cache, now, lists).errors
      + (if WantsEnquiry(args.message) then EnquiryService.ValidateMessage(args.message.value) else [])
  {
  }

  /**
   `errors` holds at most the email and the age message, in that order and
   each exactly when its check fails, then the list errors `lc`, then the
   message errors `m`, and nothing else.
   */
  ghost predicate OrderedSignupErrors(errors: seq<string>, lc: seq<string>, m: seq<string>, emailFails: bool, ageFails: bool) {
    var k := |errors| - |lc| - |m|;
    && 0 <= k <= 2
    && errors[k..k + |lc|] == lc
    && errors[k + |lc|..] == m
    && Seqs.Subseq(errors[..k], [SubscriberService.InvalidEmail, SubscriberService.TooYoung])
    && (SubscriberService.InvalidEmail in errors[..k] <==> emailFails)
    && (SubscriberService.TooYoung in errors[..k] <==> ageFails)
  }

  /** The concatenation the validation builds is ordered. */
  lemma OrderedParts(lc: seq<string>, m: seq<string>, emailFails: bool, ageFails: bool)
    ensures var head := (if emailFails then [SubscriberService.InvalidEmail] else []) + (if ageFails then [SubscriberService.TooYoung] else []);
      OrderedSignupErrors(head + lc + m, lc, m, emailFails, ageFails)
  {
    var head := (if emailFails then [SubscriberService.InvalidEmail] else []) + (if ageFails then [SubscriberService.TooYoung] else []);
    FirstChecksInOrder(emailFails, ageFails);
    ThreeParts(head, lc, m);
  }

  /** The email and age messages: each present exactly when its check fails, email first. */
  lemma FirstChecksInOrder(emailFails: bool, ageFails: bool)
    ensures var head := (if emailFails then [SubscriberService.InvalidEmail] else []) + (if ageFails then [SubscriberService.TooYoung] else []);
      && |head| <= 2
      && Seqs.Subseq(head, [SubscriberService.InvalidEmail, SubscriberService.TooYoung])
      && (SubscriberService.InvalidEmail in head <==> emailFails)
      && (SubscriberService.TooYoung in head <==> ageFails)
  {
    var both := [SubscriberService.InvalidEmail, SubscriberService.TooYoung];
    SubscriberService.ChecksAreDistinct();
    assert SubscriberService.InvalidEmail != SubscriberService.TooYoung;
    assert both[1..] == [SubscriberService.TooYoung];
    assert Seqs.Subseq(both[1..], both[1..]);
    assert Seqs.Subseq([SubscriberService.TooYoung], both);
  }

  /** The three parts of a concatenation are found again at their offsets. */
  lemma ThreeParts<T>(a: seq<T>, b: seq<T>, c: seq<T>)
    ensures var s := a + b + c;
      && s[..|a|] == a && s[|a|..|a| + |b|] == b && s[|a| + |b|..] == c
  {
  }

  /** Counts a list fetch. */
  function Fetches(called: bool): nat {
    if called then 1 else 0
  }

  /** The end of a signup that has a subscriber: the success envelope, unless the enquiry is not an array. */
  function Complete(subscriber: Json, enquiry: Json): Option<ApiResponses.ApiResponse> {
    if enquiry != JNull && !IsArray(enquiry) then None
    else Some(SignupResponses.SignupSuccess(subscriber, enquiry, Some(CompletedMessage)))
  }

  /** What happens after the subscriber write: the enquiry requests made and the answer. */
  datatype Tail = Tail(enquiries: seq<CrmClient.Request>, response: Option<ApiResponses.ApiResponse>)

  /**
   The enquiry for a subscriber that is an array: `createEnquiryFromSubscriber`,
   then the enquiry of a 201 answer is included in the success envelope. An
   id that cannot be passed as a string is a `TypeError`, and so is an
   invalid message (`EnquiryService.CreateEnquiry`). A failed enquiry
   leaves the signup successful, without an enquiry.
   */
  function EnquiryStep(subscriber: Json, message: string, outcome: CrmClient.Outcome): (t: Tail)
    ensures var id := EnquiryService.SubscriberIdOf(subscriber);
      t.enquiries == if id.Some? && EnquiryService.ValidMessage(message)
        then [CrmClient.EnquiryRequest(id.value, map["message" := JStr(message)])] else []
    ensures EnquiryService.ValidMessage(message) && t.enquiries != [] ==>
      t.enquiries[0].httpMethod == "POST" && t.enquiries[0].json == Some(map["message" := JStr(message)])
    ensures EnquiryService.ValidMessage(message) ==> (t.enquiries != [] <==> EnquiryService.SubscriberIdOf(subscriber).Some?)
    ensures t.response.None? <==> (EnquiryService.SubscriberIdOf(subscriber).None?
      || !EnquiryService.ValidMessage(message)
      || (outcome.Delivered? && !IsArray(Coalesce(CrmClient.Decoded(outcome.body), "enquiry", EmptyList))))
    ensures t.response.Some? ==> (t.response.value.status == 201 && t.response.value.success
      && t.response.value.message == Some(CompletedMessage)
      && Member(t.response.value.data, "subscriber") == subscriber)
    ensures t.response.Some? && !outcome.Delivered? ==> Member(t.response.value.data, "enquiry") == JNull
    ensures t.response.Some? && outcome.Delivered? ==>
      Member(t.response.value.data, "enquiry") == Coalesce(CrmClient.Decoded(outcome.body), "enquiry", EmptyList)
  {
    match EnquiryService.CreateEnquiryFromSubscriber(subscriber, message, outcome)
    case None => Tail([], None)
    case Some(reply) =>
      var enquiry := if reply.response.status == 201 then Member(reply.response.data, "enquiry") else JNull;
      Tail(reply.calls, Complete(subscriber, enquiry))
  }

  /**
   The steps once the write succeeded and its answer carries a subscriber:
   a subscriber that is not an array is a `TypeError`; otherwise the
   enquiry, when the message asks for one, and the success envelope.
   */
  function AfterSubscriber(subscriber: Json, message: Option<string>, outcome: CrmClient.Outcome): (t: Tail)
    ensures !IsArray(subscriber) ==> t == Tail([], None)
    ensures t.enquiries != [] ==> WantsEnquiry(message)
    ensures t.response.Some? ==>
      && t.response.value.success && t.response.value.status == 201
      && t.response.value.message == Some(CompletedMessage)
      && IsArray(Member(t.response.value.data, "subscriber"))
      && Member(t.response.value.data, "subscriber") == subscriber
    ensures !WantsEnquiry(message) ==> (t.enquiries == []
      && (IsArray(subscriber) <==> t.response.Some?)
      && (t.response.Some? ==> Member(t.response.value.data, "enquiry") == JNull))
  {
    if !IsArray(subscriber) then Tail([], None)
    else if !WantsEnquiry(message) then Tail([], Complete(subscriber, JNull))
    else EnquiryStep(subscriber, message.value, outcome)
  }

  /**
   `SignupResponse::error(...)` as written: `SignupResponse` does not
   override `error`, so the inherited factory's `new self` builds a base
   `ApiResponse`, which the declared `SignupResponse` of `processSignup`
   rejects with a `TypeError` that its `catch (\Exception)` lets through.
   */
  function SignupErrorAsWritten(message: string, error: string): (r: Option<ApiResponses.ApiResponse>)
    ensures r.None?
  {
    ApiResponses.Returned(ApiResponses.BaseClass, ApiResponses.SignupClass,
      ApiResponses.Error(Some(message), ApiResponses.ErrorList([error])))
  }

  /**
   The steps after the write as written: a status other than 200 or 201
   (the failed subscriber creation) and a missing subscriber in the answer
   (the `RuntimeException` the service throws and catches itself) both end
   in `SignupResponse::error`, hence in a `TypeError`; a subscriber that is
   not an array is a `TypeError` too; otherwise the enquiry, when the
   message asks for one. Only a completed signup has an answer.
   */
  function AfterWrite(write: ApiResponses.ApiResponse, message: Option<string>, outcome: CrmClient.Outcome): (t: Tail)
    ensures write.status != 201 && write.status != 200 ==> t == Tail([], None)
    ensures !Truthy(Member(write.data, "subscriber")) ==> t == Tail([], None)
    ensures t.enquiries != [] ==> WantsEnquiry(message) && (write.status == 201 || write.status == 200)
    ensures t.response.Some? ==>
      && (write.status == 201 || write.status == 200)
      && t.response.value.success && t.response.value.status == 201
      && t.response.value.message == Some(CompletedMessage)
      && IsArray(Member(t.response.value.data, "subscriber"))
      && Member(t.response.value.data, "subscriber") == Member(write.data, "subscriber")
    ensures !WantsEnquiry(message) ==> (t.enquiries == []
      && (t.response.Some? ==> Member(t.response.value.data, "enquiry") == JNull))
  {
    if write.status != 201 && write.status != 200 then
      Tail([], SignupErrorAsWritten(SubscriberFailedMessage, SubscriberFailedError))
    else
      var subscriber := Member(write.data, "subscriber");
      if !Truthy(subscriber) then Tail([], SignupErrorAsWritten(UnexpectedMessage, UnexpectedError))
      else AfterSubscriber(subscriber, message, outcome)
  }

  /**
   The steps after the write as evidently intended: a refused write
   answers 400 "Failed to create subscriber", a missing subscriber the
   unexpected-error envelope, both without an enquiry; a write that
   carries a subscriber goes on exactly as written.
   */
  function AfterWriteIntended(write: ApiResponses.ApiResponse, message: Option<string>, outcome: CrmClient.Outcome): (t: Tail)
    ensures write.status != 201 && write.status != 200 ==>
      t == Tail([], Some(ApiResponses.Error(Some(SubscriberFailedMessage), Texts([SubscriberFailedError]))))
    ensures (write.status == 201 || write.status == 200) && !Truthy(Member(write.data, "subscriber")) ==>
      t == Tail([], Some(ApiResponses.Error(Some(UnexpectedMessage), Texts([UnexpectedError]))))
    ensures t.response.Some? && !t.response.value.success ==> t.enquiries == [] && t.response.value.status == 400
    ensures (write.status == 201 || write.status == 200) && Truthy(Member(write.data, "subscriber")) ==>
      t == AfterWrite(write, message, outcome)
  {
    if write.status != 201 && write.status != 200 then
      Tail([], Some(ApiResponses.Error(Some(SubscriberFailedMessage), ApiResponses.ErrorList([SubscriberFailedError]))))
    else
      var subscriber := Member(write.data, "subscriber");
      if !Truthy(subscriber) then
        Tail([], Some(ApiResponses.Error(Some(UnexpectedMessage), ApiResponses.ErrorList([UnexpectedError]))))
      else AfterSubscriber(subscriber, message, outcome)
  }

  /**
   The written and the intended steps differ exactly on the two failures
   that reach `SignupResponse::error`: there the intended flow answers
   with a failed envelope and the written one has no answer.
   */
  lemma AfterWriteDiffersOnlyOnFailure(write: ApiResponses.ApiResponse, message: Option<string>, outcome: CrmClient.Outcome)
    ensures var failed := (write.status != 201 && write.status != 200) || !Truthy(Member(write.data, "subscriber"));
      && (AfterWrite(write, message, outcome) != AfterWriteIntended(write, message, outcome) <==> failed)
      && (failed ==>
        && AfterWrite(write, message, outcome).response.None?
        && AfterWriteIntended(write, message, outcome).response.Some?
        && !AfterWriteIntended(write, message, outcome).response.value.success)
  {
  }

  /**
   `processSignup(...)`: validation, list resolution, the subscriber upsert
   and the steps after it. The subscriber is read back from the upsert's
   envelope at `data.subscriber` (the decoded body's data is the envelope's
   data, `ApiResponses.RenderReadRoundTrip`), the enquiry likewise at
   `data.enquiry` of a 201 enquiry answer.
   */
  function ProcessSignup(env: SubscriberService.Env, args: SignupArgs, cache: ListService.Cache, now: int, up: Upstream): (s: Signup)
    ensures s.listFetches <= 2
    ensures |s.writes| <= 1
    ensures s.enquiries != [] ==> |s.writes| == 1
  {
    var checked := ValidateSignupData(env, args, cache, now, up.lists);
    if checked.errors != [] then
      Signup(Fetches(checked.called), [], [], checked.cache,
        Some(SignupResponses.SignupValidationError(ApiResponses.ErrorList(checked.errors))))
    else
      var ids := ListService.GetListIdsForSubscriber(args.marketingConsent, args.selectedLists, checked.cache, now, up.lists);
      var fetches := Fetches(checked.called) + Fetches(ListService.FetchLists(checked.cache, now, up.lists).called);
      var write := SubscriberService.CreateOrUpdateSubscriber(env, SubscriberArgsOf(args, ids.0), up.subscriber);
      var tail := AfterWrite(write.response, args.message, up.enquiry);
      Signup(fetches, write.calls, tail.enquiries, ids.1, tail.response)
  }

  /**
   The subscriber write's arguments: the form's fields with the resolved
   list ids, which travel as a JSON list when their keys run 0, 1, 2, ...
   and as an object keyed by position otherwise.
   */
  function SubscriberArgsOf(args: SignupArgs, listIds: seq<(nat, Json)>): (w: SubscriberService.SubscriberArgs)
    requires forall a, b :: 0 <= a < b < |listIds| ==> listIds[a].0 < listIds[b].0
    ensures w.emailAddress == args.emailAddress && w.dateOfBirth == args.dateOfBirth
    ensures w.firstName == args.firstName && w.lastName == args.lastName
    ensures w.marketingConsent == args.marketingConsent && w.listIds == EncodeArray(listIds)
    ensures IsPhpList(listIds) ==> w.listIds == JList(Seqs.Values(listIds))
    ensures !IsPhpList(listIds) ==> w.listIds.JObj?
  {
    SubscriberService.SubscriberArgs(args.emailAddress, args.firstName, args.lastName, args.dateOfBirth, args.marketingConsent, EncodeArray(listIds))
  }

  /**
   A form that fails validation answers 422 with every error and writes
   nothing; without a list selection it does not even fetch the lists.
   */
  lemma RejectedFormWritesNothing(env: SubscriberService.Env, args: SignupArgs, cache: ListService.Cache, now: int, up: Upstream)
    requires ValidateSignupData(env, args, cache, now, up.lists).errors != []
    ensures var s := ProcessSignup(env, args, cache, now, up);
      && s.writes == [] && s.enquiries == []
      && s.response == Some(SignupResponses.SignupValidationError(Texts(ValidateSignupData(env, args, cache, now, up.lists).errors)))
      && s.response.value.status == 422
      && (|args.selectedLists| == 0 ==> s.listFetches == 0 && s.cache == cache)
  {
  }

  /**
   A subscriber write the CRM refuses ends the signup before any enquiry:
   a form that failed validation answers 422, and a valid form's refused
   write reaches `SignupResponse::error`, a `TypeError`, so no answer.
   */
  lemma SubscriberFailureSkipsEnquiry(env: SubscriberService.Env, args: SignupArgs, cache: ListService.Cache, now: int, up: Upstream)
    requires !up.subscriber.Delivered?
    ensures var s := ProcessSignup(env, args, cache, now, up);
      var rejected := ValidateSignupData(env, args, cache, now, up.lists).errors != [];
      && s.enquiries == []
      && (rejected ==> s.response.Some? && !s.response.value.success && s.response.value.status == 422)
      && (!rejected ==> s.response.None?)
  {
    var checked := ValidateSignupData(env, args, cache, now, up.lists);
    if checked.errors == [] {
      var ids := ListService.GetListIdsForSubscriber(args.marketingConsent, args.selectedLists, checked.cache, now, up.lists);
      SubscriberService.UpsertStatusIffSuccess(env, SubscriberArgsOf(args, ids.0), up.subscriber);
    }
  }

  /**
   A date of birth the lenient parser accepts but that is not strict
   `Y-m-d` passes signup validation's age check, yet the subscriber write
   rejects it without calling the CRM, and the failure envelope that
   follows is a `TypeError`, so the signup has no answer.
   */
  lemma LenientDateFailsTheWrite(env: SubscriberService.Env, args: SignupArgs, cache: ListService.Cache, now: int, up: Upstream)
    requires ValidateSignupData(env, args, cache, now, up.lists).errors == []
    requires args.dateOfBirth.Some? && !SubscriberService.StrictYmd(env, args.dateOfBirth.value)
    ensures var s := ProcessSignup(env, args, cache, now, up);
      && s.writes == [] && s.enquiries == []
      && s.response.None?
  {
  }

  /**
   A completed signup passed validation, made exactly one PUT of the
   subscriber and got it delivered, and carries that subscriber.
   */
  lemma CompletedSignup(env: SubscriberService.Env, args: SignupArgs, cache: ListService.Cache, now: int, up: Upstream)
    ensures var s := ProcessSignup(env, args, cache, now, up);
      s.response.Some? && s.response.value.success ==>
        && ValidateSignupData(env, args, cache, now, up.lists).errors == []
        && up.subscriber.Delivered?
        && |s.writes| == 1 && s.writes[0].httpMethod == "PUT"
        && s.response.value.status == 201
        && s.response.value.message == Some(CompletedMessage)
        && IsArray(Member(s.response.value.data, "subscriber"))
  {
    var s := ProcessSignup(env, args, cache, now, up);
    var checked := ValidateSignupData(env, args, cache, now, up.lists);
    if s.response.Some? && s.response.value.success && checked.errors == [] {
      var ids := ListService.GetListIdsForSubscriber(args.marketingConsent, args.selectedLists, checked.cache, now, up.lists);
      SubscriberService.UpsertStatusIffSuccess(env, SubscriberArgsOf(args, ids.0), up.subscriber);
    }
  }

  /**
   The converse of `CompletedSignup`: a form that passes both the signup
   and the subscriber checks and whose PUT is delivered completes exactly
   when the CRM's `subscriber` is a non-empty array and, when the message
   asks for an enquiry, its id can be passed and a delivered enquiry is an
   array.
   */
  lemma SignupCompletes(env: SubscriberService.Env, args: SignupArgs, cache: ListService.Cache, now: int, up: Upstream)
    requires ValidateSignupData(env, args, cache, now, up.lists).errors == []
    requires SubscriberService.ValidateSubscriberData(env, args.emailAddress, args.firstName, args.lastName, args.dateOfBirth) == []
    requires up.subscriber.Delivered?
    ensures var s := ProcessSignup(env, args, cache, now, up);
      var subscriber := Coalesce(CrmClient.Decoded(up.subscriber.body), "subscriber", EmptyList);
      (s.response.Some? && s.response.value.success) <==>
        && Truthy(subscriber) && IsArray(subscriber)
        && (WantsEnquiry(args.message) ==> EnquiryCompletes(subscriber, up.enquiry))
  {
    var checked := ValidateSignupData(env, args, cache, now, up.lists);
    var ids := ListService.GetListIdsForSubscriber(args.marketingConsent, args.selectedLists, checked.cache, now, up.lists);
    var write := SubscriberService.CreateOrUpdateSubscriber(env, SubscriberArgsOf(args, ids.0), up.subscriber).response;
    SignupAnswersAfterWrite(env, args, cache, now, up);
    DeliveredUpsert(env, SubscriberArgsOf(args, ids.0), up.subscriber);
    var subscriber := Coalesce(CrmClient.Decoded(up.subscriber.body), "subscriber", EmptyList);
    assert FormAcceptable(env, args);
    if Truthy(subscriber) {
      assert AfterWrite(write, args.message, up.enquiry) == AfterSubscriber(subscriber, args.message, up.enquiry);
      AfterSubscriberCompletes(subscriber, args.message, up.enquiry);
    }
  }

  /** A passing form's answer is the answer of the steps after its upsert. */
  lemma SignupAnswersAfterWrite(env: SubscriberService.Env, args: SignupArgs, cache: ListService.Cache, now: int, up: Upstream)
    requires ValidateSignupData(env, args, cache, now, up.lists).errors == []
    ensures var checked := ValidateSignupData(env, args, cache, now, up.lists);
      var ids := ListService.GetListIdsForSubscriber(args.marketingConsent, args.selectedLists, checked.cache, now, up.lists);
      var write := SubscriberService.CreateOrUpdateSubscriber(env, SubscriberArgsOf(args, ids.0), up.subscriber).response;
      ProcessSignup(env, args, cache, now, up).response == AfterWrite(write, args.message, up.enquiry).response
  {
  }

  /** A checked and delivered upsert answers 200 with the CRM's `subscriber`. */
  lemma DeliveredUpsert(env: SubscriberService.Env, w: SubscriberService.SubscriberArgs, outcome: CrmClient.Outcome)
    requires SubscriberService.ValidateSubscriberData(env, w.emailAddress, w.firstName, w.lastName, w.dateOfBirth) == []
    requires outcome.Delivered?
    ensures var write := SubscriberService.CreateOrUpdateSubscriber(env, w, outcome).response;
      && write.status == 200
      && Member(write.data, "subscriber") == Coalesce(CrmClient.Decoded(outcome.body), "subscriber", EmptyList)
  {
  }

  /** The enquiry step leaves the signup complete: the id can be passed and a delivered enquiry is an array. */
  predicate EnquiryCompletes(subscriber: Json, outcome: CrmClient.Outcome) {
    && EnquiryService.SubscriberIdOf(subscriber).Some?
    && (outcome.Delivered? ==> IsArray(Coalesce(CrmClient.Decoded(outcome.body), "enquiry", EmptyList)))
  }

  /** The steps after a written subscriber answer exactly when the subscriber and the enquiry complete. */
  lemma AfterSubscriberCompletes(subscriber: Json, message: Option<string>, outcome: CrmClient.Outcome)
    requires WantsEnquiry(message) ==> EnquiryService.ValidMessage(message.value)
    ensures AfterSubscriber(subscriber, message, outcome).response.Some? <==>
      IsArray(subscriber) && (WantsEnquiry(message) ==> EnquiryCompletes(subscriber, outcome))
  {
    if IsArray(subscriber) && WantsEnquiry(message) {
      assert AfterSubscriber(subscriber, message, outcome) == EnquiryStep(subscriber, message.value, outcome);
    }
  }

  /** After the write, an enquiry request carries the message, and without one there is no enquiry. */
  lemma AfterWriteEnquiry(write: ApiResponses.ApiResponse, message: Option<string>, outcome: CrmClient.Outcome)
    requires WantsEnquiry(message) ==> EnquiryService.ValidMessage(message.value)
    ensures var t := AfterWrite(write, message, outcome);
      && (t.enquiries != [] ==> (WantsEnquiry(message)
        && t.enquiries[0].httpMethod == "POST"
        && t.enquiries[0].json == Some(map["message" := JStr(message.value)])))
      && (t.enquiries != [] && t.response.Some? && outcome.Delivered? ==>
        Member(t.response.value.data, "enquiry") == Coalesce(CrmClient.Decoded(outcome.body), "enquiry", EmptyList))
  {
    var t := AfterWrite(write, message, outcome);
    if t.enquiries != [] {
      assert t == EnquiryStep(Member(write.data, "subscriber"), message.value, outcome);
    }
  }

  /** Only a message that is more than whitespace leads to an enquiry request, and it carries that message. */
  lemma EnquiryOnlyForMessage(env: SubscriberService.Env, args: SignupArgs, cache: ListService.Cache, now: int, up: Upstream)
    ensures var s := ProcessSignup(env, args, cache, now, up);
      && (s.enquiries != [] ==> (WantsEnquiry(args.message)
        && s.enquiries[0].httpMethod == "POST"
        && s.enquiries[0].json == Some(map["message" := JStr(args.message.value)])))
      && (!WantsEnquiry(args.message) && s.response.Some? ==> Member(s.response.value.data, "enquiry") == JNull)
  {
    var checked := ValidateSignupData(env, args, cache, now, up.lists);
    if checked.errors == [] {
      var ids := ListService.GetListIdsForSubscriber(args.marketingConsent, args.selectedLists, checked.cache, now, up.lists);
      var write := SubscriberService.CreateOrUpdateSubscriber(env, SubscriberArgsOf(args, ids.0), up.subscriber).response;
      AfterWriteEnquiry(write, args.message, up.enquiry);
    }
  }

  /** A delivered enquiry appears in the answer as the CRM's `enquiry` entry. */
  lemma DeliveredEnquiryIsIncluded(env: SubscriberService.Env, args: SignupArgs, cache: ListService.Cache, now: int, up: Upstream)
    requires up.enquiry.Delivered?
    ensures var s := ProcessSignup(env, args, cache, now, up);
      s.enquiries != [] && s.response.Some? ==>
        Member(s.response.value.data, "enquiry") == Coalesce(CrmClient.Decoded(up.enquiry.body), "enquiry", EmptyList)
  {
    var checked := ValidateSignupData(env, args, cache, now, up.lists);
    if checked.errors == [] {
      var ids := ListService.GetListIdsForSubscriber(args.marketingConsent, args.selectedLists, checked.cache, now, up.lists);
      var write := SubscriberService.CreateOrUpdateSubscriber(env, SubscriberArgsOf(args, ids.0), up.subscriber).response;
      AfterWriteEnquiry(write, args.message, up.enquiry);
    }
  }

  /** The steps after the write, with a failed enquiry in place of any other enquiry outcome. */
  lemma AfterWriteSurvivesEnquiryFailure(write: ApiResponses.ApiResponse, message: Option<string>, outcome: CrmClient.Outcome, failed: CrmClient.Outcome)
    requires !failed.Delivered?
    requires AfterWrite(write, message, outcome).response.Some?
    ensures var s := AfterWrite(write, message, outcome);
      var t := AfterWrite(write, message, failed);
      && t.response.Some?
      && t.response.value.status == s.response.value.status
      && t.response.value.success == s.response.value.success
      && Member(t.response.value.data, "subscriber") == Member(s.response.value.data, "subscriber")
      && t.enquiries == s.enquiries
      && Member(t.response.value.data, "enquiry") == JNull
  {
    var subscriber := Member(write.data, "subscriber");
    if (write.status == 201 || write.status == 200) && Truthy(subscriber) && IsArray(subscriber) && WantsEnquiry(message) {
      EnquiryRequestsIgnoreOutcome(subscriber, message.value, outcome, failed);
    } else {
      assert AfterWrite(write, message, outcome) == AfterWrite(write, message, failed);
    }
  }

  /** The enquiry requests made do not depend on how the enquiry endpoint answers. */
  lemma EnquiryRequestsIgnoreOutcome(subscriber: Json, message: string, a: CrmClient.Outcome, b: CrmClient.Outcome)
    ensures EnquiryStep(subscriber, message, a).enquiries == EnquiryStep(subscriber, message, b).enquiries
  {
  }

  /**
   The enquiry never decides the signup: whatever the enquiry endpoint
   does, a failing enquiry gives the same status, success flag, subscriber
   and requests as the original run, and no enquiry in the answer.
   */
  lemma EnquiryFailureIsNotFatal(env: SubscriberService.Env, args: SignupArgs, cache: ListService.Cache, now: int, up: Upstream, failed: CrmClient.Outcome)
    requires !failed.Delivered?
    requires ProcessSignup(env, args, cache, now, up).response.Some?
    ensures var s := ProcessSignup(env, args, cache, now, up);
      var t := ProcessSignup(env, args, cache, now, up.(enquiry := failed));
      && t.response.Some?
      && t.response.value.status == s.response.value.status
      && t.response.value.success == s.response.value.success
      && Member(t.response.value.data, "subscriber") == Member(s.response.value.data, "subscriber")
      && t.writes == s.writes && t.enquiries == s.enquiries
      && Member(t.response.value.data, "enquiry") == JNull
  {
    var checked := ValidateSignupData(env, args, cache, now, up.lists);
    if checked.errors == [] {
      var ids := ListService.GetListIdsForSubscriber(args.marketingConsent, args.selectedLists, checked.cache, now, up.lists);
      var write := SubscriberService.CreateOrUpdateSubscriber(env, SubscriberArgsOf(args, ids.0), up.subscriber);
      AfterWriteSurvivesEnquiryFailure(write.response, args.message, up.enquiry, failed);
    }
  }

  /**
   A selection that passed validation is resolved from the cache that
   validation filled, so the lists are fetched once per signup at most.
   */
  lemma ValidatedSelectionFetchedOnce(env: SubscriberService.Env, args: SignupArgs, cache: ListService.Cache, now: int, up: Upstream)
    requires |args.selectedLists| > 0
    ensures ProcessSignup(env, args, cache, now, up).listFetches <= 1
  {
    var checked := ValidateSignupData(env, args, cache, now, up.lists);
    if checked.errors == [] {
      ListService.ValidatedSelectionsResolve(args.selectedLists, cache, now, up.lists, up.lists);
    }
  }

  /** The first write, if any, sends `lists` as its `lists` field. */
  predicate SendsLists(writes: seq<CrmClient.Request>, lists: Json) {
    writes != [] ==> writes[0].json.Some? && "lists" in writes[0].json.value && writes[0].json.value["lists"] == lists
  }

  /**
   The write carries the resolved list ids under `lists`, encoded as PHP
   encodes the array: a JSON list when the keys run 0, 1, 2, ..., and an
   object keyed by the lists' positions in the fetch otherwise.
   */
  lemma WriteCarriesListIds(env: SubscriberService.Env, args: SignupArgs, cache: ListService.Cache, now: int, up: Upstream)
    ensures var checked := ValidateSignupData(env, args, cache, now, up.lists);
      var ids := ListService.GetListIdsForSubscriber(args.marketingConsent, args.selectedLists, checked.cache, now, up.lists).0;
      SendsLists(ProcessSignup(env, args, cache, now, up).writes, EncodeArray(ids))
  {
    var checked := ValidateSignupData(env, args, cache, now, up.lists);
    var ids := ListService.GetListIdsForSubscriber(args.marketingConsent, args.selectedLists, checked.cache, now, up.lists);
    var w := SubscriberArgsOf(args, ids.0);
    SignupWrites(env, args, cache, now, up);
    UpsertSendsListIds(env, w, up.subscriber);
  }

  /** A passing form is written by exactly the upsert's requests; a failing one by none. */
  lemma SignupWrites(env: SubscriberService.Env, args: SignupArgs, cache: ListService.Cache, now: int, up: Upstream)
    ensures var checked := ValidateSignupData(env, args, cache, now, up.lists);
      var ids := ListService.GetListIdsForSubscriber(args.marketingConsent, args.selectedLists, checked.cache, now, up.lists).0;
      var writes := ProcessSignup(env, args, cache, now, up).writes;
      && (checked.errors != [] ==> writes == [])
      && (checked.errors == [] ==> writes == SubscriberService.CreateOrUpdateSubscriber(env, SubscriberArgsOf(args, ids), up.subscriber).calls)
  {
  }

  /** The upsert's one request carries the arguments' list ids under `lists`. */
  lemma UpsertSendsListIds(env: SubscriberService.Env, w: SubscriberService.SubscriberArgs, outcome: CrmClient.Outcome)
    requires w.listIds != JNull
    ensures SendsLists(SubscriberService.CreateOrUpdateSubscriber(env, w, outcome).calls, w.listIds)
  {
    SubscriberService.PayloadCarriesArguments(w);
  }

  /** Without consent the subscriber is written with no lists at all, whatever was selected. */
  lemma NoConsentNoLists(env: SubscriberService.Env, args: SignupArgs, cache: ListService.Cache, now: int, up: Upstream)
    requires !args.marketingConsent
    ensures SendsLists(ProcessSignup(env, args, cache, now, up).writes, EmptyList)
  {
    WriteCarriesListIds(env, args, cache, now, up);
    var checked := ValidateSignupData(env, args, cache, now, up.lists);
    assert ListService.GetListIdsForSubscriber(false, args.selectedLists, checked.cache, now, up.lists).0 == [];
  }
}

=== FILE: subscriber_response.dfy ===
/** `SubscriberResponse`: the envelopes of the subscriber endpoints. */
module SubscriberResponses {
  import opened Values
  import opened ApiResponses

  /** `['subscriber' => $subscriber]`. */
  function SubscriberData(subscriber: Json): (d: Json)
    ensures d.JObj? && d.fields.Keys == {"subscriber"} && d.fields["subscriber"] == subscriber
  {
    JObj(map["subscriber" := subscriber])
  }

  /** `created()`: success with status 201 and the subscriber under `data.subscriber`. */
  function Created(subscriber: Json, message: Option<string> := Some("Subscriber created successfully")): (r: ApiResponse)
    ensures r.success && r.status == 201
    ensures r.data == SubscriberData(subscriber) && r.message == message
    ensures r.errors == EmptyList
  {
    New(success := true, data := SubscriberData(subscriber), message := message, status := 201)
  }

  /** `updated()`: like `created()` but with the constructor's status 200. */
  function Updated(subscriber: Json, message: Option<string> := Some("Subscriber updated successfully")): (r: ApiResponse)
    ensures r.success && r.status == 200
    ensures r.data == SubscriberData(subscriber) && r.message == message
    ensures r.errors == EmptyList
  {
    New(success := true, data := SubscriberData(subscriber), message := message)
  }

  /** `retrieved()`. */
  function Retrieved(subscriber: Json, message: Option<string> := Some("Subscriber retrieved successfully")): (r: ApiResponse)
    ensures r.success && r.status == 200
    ensures r.data == SubscriberData(subscriber) && r.message == message
    ensures r.errors == EmptyList
  {
    New(success := true, data := SubscriberData(subscriber), message := message)
  }

  /** `list()`: the subscribers under `data.subscribers`. */
  function List(subscribers: Json, message: Option<string> := Some("Subscribers retrieved successfully")): (r: ApiResponse)
    ensures r.success && r.status == 200
    ensures r.data == JObj(map["subscribers" := subscribers]) && r.message == message
    ensures r.errors == EmptyList
  {
    New(success := true, data := JObj(map["subscribers" := subscribers]), message := message)
  }

  /** `subscriberValidationError()`: status 422 with the collected errors. */
  function SubscriberValidationError(errors: Json, message: Option<string> := Some("Subscriber validation failed")): (r: ApiResponse)
    ensures !r.success && r.status == 422
    ensures r.data == JNull && r.message == message
    ensures r.errors == errors
  {
    New(success := false, message := message, errors := errors, status := 422)
  }

  /**
   `subscriberNotFound()` as written: it returns `parent::notFound(...)`, a
   base `ApiResponse`, from a method declared to return `self`, so every
   call raises a `TypeError`.
   */
  function SubscriberNotFoundAsWritten(subscriberId: Option<string> := None, message: Option<string> := Some("Subscriber not found")): (r: Option<ApiResponse>)
    ensures r.None?
  {
    Returned(BaseClass, SubscriberClass, SubscriberNotFound(subscriberId, message))
  }

  /**
   `subscriberNotFound()` as evidently intended: the not-found envelope,
   with `data.subscriberId` only for a truthy id, built as a
   `SubscriberResponse`.
   */
  function SubscriberNotFound(subscriberId: Option<string> := None, message: Option<string> := Some("Subscriber not found")): (r: ApiResponse)
    ensures r.status == 404 && !r.success && r.message == message
    ensures TruthyText(subscriberId) ==> r.data == JObj(map["subscriberId" := JStr(subscriberId.value)])
    ensures !TruthyText(subscriberId) ==> r.data == JNull
  {
    NotFound(message := message, data := if TruthyText(subscriberId) then JObj(map["subscriberId" := JStr(subscriberId.value)]) else JNull)
  }

  /** `error()`: a failed envelope, 400 unless told otherwise. */
  function Error(message: Option<string> := None, errors: Json := EmptyList, data: Json := JNull, status: int := 400): (r: ApiResponse)
    ensures !r.success && r.status == status
    ensures r.data == data && r.message == message
    ensures r.errors == errors
  {
    New(success := false, data := data, message := message, errors := errors, status := status)
  }

  /**
   The rendered bodies the signup flow inspects: the two write envelopes
   succeed with 201 and 200 and carry the subscriber at `data.subscriber`;
   the validation envelope fails with 422 and lists the errors when there
   are any.
   */
  lemma WriteEnvelopes(subscriber: Json, errors: Json, timestamp: string)
    ensures var b := Render(Created(subscriber), timestamp);
      b["status"] == JInt(201) && b["success"] == JBool(true) && Member(b["data"], "subscriber") == subscriber
    ensures var b := Render(Updated(subscriber), timestamp);
      b["status"] == JInt(200) && b["success"] == JBool(true) && Member(b["data"], "subscriber") == subscriber
    ensures var b := Render(SubscriberValidationError(errors), timestamp);
      && b["status"] == JInt(422) && b["success"] == JBool(false) && "data" !in b
      && ("errors" in b <==> Truthy(errors))
  {
  }
}

=== FILE: subscriber_service.dfy ===
/**
 `SubscriberService`: the subscriber checks and the mapping of the
 client's answer onto an envelope. Email syntax (`filter_var`), lenient
 `Y-m-d` parsing (`DateTime::createFromFormat`) and today's date come from
 the environment.
 */
module SubscriberService {
  import opened Values
  import opened Text
  import opened Dates
  import Seqs
  import CrmClient
  import ApiResponses
  import SubscriberResponses

  /**
   What the service takes from its surroundings: the email test, the
   lenient date parser (which may roll an out-of-range day into the next
   month) and the current date.
   */
  datatype Env = Env(isEmail: string -> bool, parseDate: string -> Option<Date>, today: Date)

  const MinimumAgeYears := 18
  const EmailMaxLength := 255
  const NameMaxLength := 255

  const InvalidEmail := "Invalid email address format"
  const EmailTooLong := "Email address cannot exceed 255 characters"
  const FirstNameTooLong := "First name cannot exceed 255 characters"
  const LastNameTooLong := "Last name cannot exceed 255 characters"
  const BadDateFormat := "Date of birth must be in Y-m-d format"
  const TooYoung := "Subscriber must be at least 18 years old"

  /** The checks in the order they run, so errors are reported in this order. */
  const SubscriberChecks := [InvalidEmail, EmailTooLong, FirstNameTooLong, LastNameTooLong, BadDateFormat, TooYoung]

  /** Each check has its own message, so a message in the result identifies its check. */
  lemma ChecksAreDistinct()
    ensures forall i, j :: 0 <= i < j < |SubscriberChecks| ==> SubscriberChecks[i] != SubscriberChecks[j]
  {
    assert |InvalidEmail| == 28 && |EmailTooLong| == 42 && |FirstNameTooLong| == 39;
    assert |LastNameTooLong| == 38 && |BadDateFormat| == 37 && |TooYoung| == 40;
  }

  /** The strict date test: it parses and formats back to exactly the same text. */
  predicate StrictYmd(env: Env, text: string) {
    env.parseDate(text).Some? && FormatYmd(env.parseDate(text).value) == text
  }

  /** A nullable name longer than the limit. */
  predicate TooLong(name: Option<string>) {
    name.Some? && |name.value| > NameMaxLength
  }

  /**
   The outcome of the minimum-age test as written, `calculateAge(...) >= 18`,
   spelled out: the eighteenth birthday has been reached, or the birth date
   lies more than eighteen years in the future (the absolute `diff`).
   */
  lemma AdultAsWrittenMeaning(birth: Date, today: Date)
    ensures AgeAsWritten(birth, today) >= MinimumAgeYears <==>
      !Before(today, Anniversary(birth, MinimumAgeYears)) || Before(Anniversary(today, MinimumAgeYears), birth)
  {
    if Before(today, birth) {
      assert Before(today, Anniversary(birth, MinimumAgeYears));
    } else {
      assert !Before(Anniversary(today, MinimumAgeYears), birth);
    }
  }

  /**
   `validateSubscriberData`: the messages of the failed checks, in check
   order. The two email checks are independent and can both fire; the
   name checks apply only to names that are given; a missing date is not
   checked; a date that is not strict `Y-m-d` gets the format message and
   is never also aged; the age test is the absolute one as written, so a
   birth date more than eighteen years ahead raises no age error.
   */
  function ValidateSubscriberData(env: Env, email: string, firstName: Option<string>, lastName: Option<string>, dateOfBirth: Option<string>): (errors: seq<string>)
    ensures InvalidEmail in errors <==> !env.isEmail(email)
    ensures EmailTooLong in errors <==> |email| > EmailMaxLength
    ensures FirstNameTooLong in errors <==> TooLong(firstName)
    ensures LastNameTooLong in errors <==> TooLong(lastName)
    ensures BadDateFormat in errors <==> dateOfBirth.Some? && !StrictYmd(env, dateOfBirth.value)
    ensures TooYoung in errors <==>
      dateOfBirth.Some? && StrictYmd(env, dateOfBirth.value)
      && var birth := env.parseDate(dateOfBirth.value).value;
      Before(env.today, Anniversary(birth, MinimumAgeYears)) && !Before(Anniversary(env.today, MinimumAgeYears), birth)
    ensures !(BadDateFormat in errors && TooYoung in errors)
    ensures Seqs.Subseq(errors, SubscriberChecks)
  {
    var dateGiven := dateOfBirth.Some?;
    var strict := dateGiven && StrictYmd(env, dateOfBirth.value);
    var failed := [
      !env.isEmail(email),
      |email| > EmailMaxLength,
      TooLong(firstName),
      TooLong(lastName),
      dateGiven && !strict,
      strict && AgeAsWritten(env.parseDate(dateOfBirth.value).value, env.today) < MinimumAgeYears
    ];
    ChecksAreDistinct();
    var errors := Seqs.Pick(failed, SubscriberChecks);
    Seqs.PickSelects(failed, SubscriberChecks, 0);
    Seqs.PickSelects(failed, SubscriberChecks, 1);
    Seqs.PickSelects(failed, SubscriberChecks, 2);
    Seqs.PickSelects(failed, SubscriberChecks, 3);
    Seqs.PickSelects(failed, SubscriberChecks, 4);
    Seqs.PickSelects(failed, SubscriberChecks, 5);
    if strict then
      AdultAsWrittenMeaning(env.parseDate(dateOfBirth.value).value, env.today);
      errors
    else errors
  }

  /**
   `isValidAge`: false for no date or one the lenient parser rejects,
   otherwise the absolute age test as written. It does not insist on the
   strict round trip, and it accepts a birth date more than eighteen years
   in the future.
   */
  function IsValidAge(env: Env, dateOfBirth: Option<string>): (valid: bool)
    ensures dateOfBirth.None? ==> !valid
    ensures dateOfBirth.Some? && env.parseDate(dateOfBirth.value).None? ==> !valid
    ensures valid <==> (dateOfBirth.Some? && env.parseDate(dateOfBirth.value).Some?
      && var birth := env.parseDate(dateOfBirth.value).value;
      !Before(env.today, Anniversary(birth, MinimumAgeYears)) || Before(Anniversary(env.today, MinimumAgeYears), birth))
  {
    if dateOfBirth.None? then false
    else match env.parseDate(dateOfBirth.value)
      case None => false
      case Some(birth) =>
        AdultAsWrittenMeaning(birth, env.today);
        AgeAsWritten(birth, env.today) >= MinimumAgeYears
  }

  /**
   The age test as evidently intended, on the signed age: only someone
   whose eighteenth birthday has passed is accepted, so an accepted birth
   date lies in the past.
   */
  function IsValidAgeIntended(env: Env, dateOfBirth: Option<string>): (valid: bool)
    ensures dateOfBirth.None? ==> !valid
    ensures dateOfBirth.Some? && env.parseDate(dateOfBirth.value).None? ==> !valid
    ensures valid ==> Before(env.parseDate(dateOfBirth.value).value, env.today)
    ensures valid <==> (dateOfBirth.Some? && env.parseDate(dateOfBirth.value).Some?
      && !Before(env.today, Anniversary(env.parseDate(dateOfBirth.value).value, MinimumAgeYears)))
  {
    if dateOfBirth.None? then false
    else match env.parseDate(dateOfBirth.value)
      case None => false
      case Some(birth) =>
        if Age(birth, env.today) >= MinimumAgeYears then
          AdultIsBornBeforeToday(birth, env.today);
          true
        else false
  }

  /**
   The two age tests agree on every birth date that is not in the future,
   and differ exactly on dates more than eighteen years ahead.
   */
  lemma AgeTestsDifferOnlyAhead(env: Env, dateOfBirth: Option<string>)
    ensures IsValidAge(env, dateOfBirth) != IsValidAgeIntended(env, dateOfBirth) <==>
      dateOfBirth.Some? && env.parseDate(dateOfBirth.value).Some?
      && Before(Anniversary(env.today, MinimumAgeYears), env.parseDate(dateOfBirth.value).value)
  {
    if dateOfBirth.Some? && env.parseDate(dateOfBirth.value).Some? {
      var birth := env.parseDate(dateOfBirth.value).value;
      if Before(Anniversary(env.today, MinimumAgeYears), birth) {
        FutureBirthDatePassesAsWritten(birth, env.today);
      }
    }
  }

  /** `getMinimumAge()`. */
  function GetMinimumAge(): (years: int)
    ensures years == MinimumAgeYears == 18
  {
    MinimumAgeYears
  }

  /**
   For a strictly formatted date the service's own age check and
   `isValidAge` agree, so the signup flow and the subscriber write never
   disagree about age on such a date.
   */
  lemma AgeChecksAgree(env: Env, email: string, firstName: Option<string>, lastName: Option<string>, dateOfBirth: string)
    requires StrictYmd(env, dateOfBirth)
    ensures TooYoung in ValidateSubscriberData(env, email, firstName, lastName, Some(dateOfBirth)) <==> !IsValidAge(env, Some(dateOfBirth))
  {
  }

  /** The arguments of both write operations. */
  datatype SubscriberArgs = SubscriberArgs(
    emailAddress: string,
    firstName: Option<string>,
    lastName: Option<string>,
    dateOfBirth: Option<string>,
    marketingConsent: bool,
    listIds: Json)

  /** The `$subscriberData` array handed to the client. */
  function SubscriberData(args: SubscriberArgs): map<string, Json> {
    map[
      "emailAddress" := JStr(args.emailAddress),
      "firstName" := NullableText(args.firstName),
      "lastName" := NullableText(args.lastName),
      "dateOfBirth" := NullableText(args.dateOfBirth),
      "marketingConsent" := JBool(args.marketingConsent),
      "listIds" := args.listIds
    ]
  }

  /**
   The payload the client sends carries the arguments unchanged, with the
   list ids under `lists` (null list ids fall back to the empty list).
   */
  lemma PayloadCarriesArguments(args: SubscriberArgs)
    ensures var p := CrmClient.SubscriberPayload(SubscriberData(args));
      && p["emailAddress"] == JStr(args.emailAddress)
      && p["firstName"] == NullableText(args.firstName)
      && p["lastName"] == NullableText(args.lastName)
      && p["dateOfBirth"] == NullableText(args.dateOfBirth)
      && p["marketingConsent"] == JBool(args.marketingConsent)
      && p["lists"] == (if args.listIds == JNull then EmptyList else args.listIds)
  {
  }

  /** A service answer together with the client calls made to produce it. */
  datatype Reply = Reply(calls: seq<CrmClient.Request>, response: ApiResponses.ApiResponse)

  /** The shared shape of `createSubscriber` and `createOrUpdateSubscriber`. */
  function Write(env: Env, args: SubscriberArgs, outcome: CrmClient.Outcome, upsert: bool): (r: Reply)
    ensures var errors := ValidateSubscriberData(env, args.emailAddress, args.firstName, args.lastName, args.dateOfBirth);
      && (errors != [] ==> r == Reply([], SubscriberResponses.SubscriberValidationError(ApiResponses.ErrorList(errors))))
      && (errors == [] ==> |r.calls| == 1 && r.calls[0].json == Some(CrmClient.SubscriberPayload(SubscriberData(args))))
  {
    var errors := ValidateSubscriberData(env, args.emailAddress, args.firstName, args.lastName, args.dateOfBirth);
    if errors != [] then
      Reply([], SubscriberResponses.SubscriberValidationError(ApiResponses.ErrorList(errors)))
    else
      var data := SubscriberData(args);
      if upsert then
        var result := CrmClient.CreateOrUpdateSubscriber(data, outcome);
        Reply([CrmClient.UpsertSubscriberRequest(data)],
          if result.Ok? then SubscriberResponses.Updated(result.value)
          else SubscriberResponses.Error(Some("Failed to create or update subscriber: " + result.error.message), ApiResponses.ErrorList([result.error.message])))
      else
        var result := CrmClient.CreateSubscriber(data, outcome);
        Reply([CrmClient.CreateSubscriberRequest(data)],
          if result.Ok? then SubscriberResponses.Created(result.value)
          else SubscriberResponses.Error(Some("Failed to create subscriber: " + result.error.message), ApiResponses.ErrorList([result.error.message])))
  }

  /**
   `createSubscriber`: a validation failure answers 422 with the errors in
   check order and calls nothing; otherwise one POST is made, success
   answers 201 with the client's subscriber, and a client error answers 400
   with its message.
   */
  function CreateSubscriber(env: Env, args: SubscriberArgs, outcome: CrmClient.Outcome): (r: Reply)
    ensures var errors := ValidateSubscriberData(env, args.emailAddress, args.firstName, args.lastName, args.dateOfBirth);
      && (errors != [] ==> r.calls == [] && r.response.status == 422 && r.response.errors == Texts(errors))
      && (errors == [] ==> r.calls == [CrmClient.CreateSubscriberRequest(SubscriberData(args))])
      && (errors == [] ==> var result := CrmClient.CreateSubscriber(SubscriberData(args), outcome);
        && (result.Ok? ==> r.response.status == 201 && r.response.success && r.response.data == SubscriberResponses.SubscriberData(result.value))
        && (result.Err? ==> (r.response.status == 400 && !r.response.success
          && r.response.message == Some("Failed to create subscriber: " + result.error.message)
          && r.response.errors == Texts([result.error.message]))))
  {
    Write(env, args, outcome, false)
  }

  /** `createOrUpdateSubscriber`: as `createSubscriber`, with PUT, 200 on success and its own failure text. */
  function CreateOrUpdateSubscriber(env: Env, args: SubscriberArgs, outcome: CrmClient.Outcome): (r: Reply)
    ensures var errors := ValidateSubscriberData(env, args.emailAddress, args.firstName, args.lastName, args.dateOfBirth);
      && (errors != [] ==> r.calls == [] && r.response.status == 422 && r.response.errors == Texts(errors))
      && (errors == [] ==> r.calls == [CrmClient.UpsertSubscriberRequest(SubscriberData(args))])
      && (errors == [] ==> var result := CrmClient.CreateOrUpdateSubscriber(SubscriberData(args), outcome);
        && (result.Ok? ==> r.response.status == 200 && r.response.success && r.response.data == SubscriberResponses.SubscriberData(result.value))
        && (result.Err? ==> (r.response.status == 400 && !r.response.success
          && r.response.message == Some("Failed to create or update subscriber: " + result.error.message)
          && r.response.errors == Texts([result.error.message]))))
  {
    Write(env, args, outcome, true)
  }

  /**
   The upsert answers 200 or 201 exactly when the arguments pass the checks
   and the client call succeeds; everything else is 400 or 422.
   */
  lemma UpsertStatusIffSuccess(env: Env, args: SubscriberArgs, outcome: CrmClient.Outcome)
    ensures var r := CreateOrUpdateSubscriber(env, args, outcome);
      (r.response.status == 200 || r.response.status == 201) <==>
        ValidateSubscriberData(env, args.emailAddress, args.firstName, args.lastName, args.dateOfBirth) == [] && outcome.Delivered?
  {
  }
}

=== FILE: text.dfy ===
/**
 The PHP string functions the core relies on: `strtolower`, `ucfirst`,
 `str_contains`, `trim`, `implode`, `%d` formatting and the scalar-to-string
 conversion PHP applies to a non-strict `string` parameter, and the
 `json_encode` of an integer-keyed array. Strings are sequences of
 characters; `strlen` is modelled as `|s|`.
 */
module Text {
  import opened Values
  import Seqs

  function LowerChar(c: char): char {
    if 'A' <= c <= 'Z' then (c as int + 32) as char else c
  }

  function UpperChar(c: char): char {
    if 'a' <= c <= 'z' then (c as int - 32) as char else c
  }

  /** `strtolower`: ASCII letters only, as in PHP 8. */
  function Lower(s: string): (r: string)
    ensures |r| == |s|
    ensures forall i :: 0 <= i < |s| ==> r[i] == LowerChar(s[i])
  {
    seq(|s|, i requires 0 <= i < |s| => LowerChar(s[i]))
  }

  /** Equal up to ASCII case, letter by letter. */
  predicate SameIgnoringCase(a: string, b: string) {
    |a| == |b| && forall i :: 0 <= i < |a| ==> LowerChar(a[i]) == LowerChar(b[i])
  }

  /** Comparing lower-cased strings is comparing up to case. */
  lemma SameIgnoringCaseMeansSameLower(a: string, b: string)
    ensures SameIgnoringCase(a, b) <==> Lower(a) == Lower(b)
  {
    if Lower(a) == Lower(b) {
      assert forall i :: 0 <= i < |a| ==> LowerChar(a[i]) == Lower(a)[i];
    }
  }

  /** A string without upper-case letters is its own lower case. */
  lemma LowerIsIdentity(s: string)
    requires forall i :: 0 <= i < |s| ==> !('A' <= s[i] <= 'Z')
    ensures Lower(s) == s
  {
  }

  /** `word` occurs in `s` at position `i`, up to case. */
  predicate OccursAt(s: string, word: string, i: nat) {
    i + |word| <= |s| && SameIgnoringCase(s[i..i + |word|], word)
  }

  /** `word` occurs in `s` up to case. */
  predicate ContainsIgnoringCase(s: string, word: string) {
    exists i: nat :: i <= |s| && OccursAt(s, word, i)
  }

  /**
   Searching the lower-cased text for a lower-case word finds it exactly
   where it occurs in any mixture of cases.
   */
  lemma LowerContains(s: string, word: string)
    requires Lower(word) == word
    ensures Contains(Lower(s), word) <==> ContainsIgnoringCase(s, word)
  {
    var m := Lower(s);
    forall j | 0 <= j < |word|
      ensures LowerChar(word[j]) == word[j]
    {
      assert Lower(word)[j] == LowerChar(word[j]);
    }
    if Contains(m, word) {
      var i :| 0 <= i <= |s| && word <= m[i..];
      assert forall j :: 0 <= j < |word| ==> m[i..][j] == word[j];
      assert OccursAt(s, word, i);
    }
    if ContainsIgnoringCase(s, word) {
      var i: nat :| i <= |s| && OccursAt(s, word, i);
      assert i + |word| <= |s|;
      forall j | 0 <= j < |word|
        ensures m[i..][j] == word[j]
      {
        assert s[i..i + |word|][j] == s[i + j];
      }
      assert word <= m[i..];
    }
  }

  /** `ucfirst`. */
  function UcFirst(s: string): (r: string)
    ensures |r| == |s|
    ensures |s| > 0 ==> r[0] == UpperChar(s[0]) && r[1..] == s[1..]
  {
    if |s| == 0 then s else [UpperChar(s[0])] + s[1..]
  }

  /** `str_contains($s, $part)`. */
  predicate Contains(s: string, part: string) {
    exists i :: 0 <= i <= |s| && part <= s[i..]
  }

  /** A part found at a given position is contained. */
  lemma ContainsAt(s: string, part: string, i: nat)
    requires i <= |s| && part <= s[i..]
    ensures Contains(s, part)
  {
  }

  /** Whatever contains a string contains each of its prefixes. */
  lemma ContainsPrefix(s: string, part: string, prefix: string)
    requires Contains(s, part)
    requires prefix <= part
    ensures Contains(s, prefix)
  {
    var i :| 0 <= i <= |s| && part <= s[i..];
    assert prefix <= s[i..];
  }

  /** The characters PHP's `trim` strips by default. */
  predicate IsTrimChar(c: char) {
    c == ' ' || c == '\t' || c == '\n' || c == '\r' || c == '\0' || c == '\U{000B}'
  }

  /** Only trim characters. */
  predicate Blank(s: string) {
    forall i :: 0 <= i < |s| ==> IsTrimChar(s[i])
  }

  /** Length of the leading run of trim characters. */
  function LeadingTrim(s: string): (k: nat)
    ensures k <= |s|
    ensures forall j :: 0 <= j < k ==> IsTrimChar(s[j])
    ensures k < |s| ==> !IsTrimChar(s[k])
  {
    if |s| > 0 && IsTrimChar(s[0]) then 1 + LeadingTrim(s[1..]) else 0
  }

  /** Length of the trailing run of trim characters. */
  function TrailingTrim(s: string): (k: nat)
    ensures k <= |s|
    ensures forall j :: |s| - k <= j < |s| ==> IsTrimChar(s[j])
    ensures k < |s| ==> !IsTrimChar(s[|s| - 1 - k])
  {
    if |s| > 0 && IsTrimChar(s[|s| - 1]) then 1 + TrailingTrim(s[..|s| - 1]) else 0
  }

  /**
   `trim`: the longest infix with no trim character at either end; it is
   empty exactly when the input is blank.
   */
  function Trim(s: string): (r: string)
    ensures |r| <= |s|
    ensures r == [] <==> Blank(s)
    ensures r != [] ==> !IsTrimChar(r[0]) && !IsTrimChar(r[|r| - 1])
  {
    var a := LeadingTrim(s);
    var t := s[a..];
    var r := t[..|t| - TrailingTrim(t)];
    assert r == [] ==> a == |s|;
    assert Blank(s) ==> a == |s|;
    r
  }

  /** A string with no trim character at either end is its own trim. */
  lemma TrimClean(s: string)
    requires s != [] && !IsTrimChar(s[0]) && !IsTrimChar(s[|s| - 1])
    ensures Trim(s) == s
  {
    assert LeadingTrim(s) == 0;
    assert s[0..] == s;
    assert TrailingTrim(s) == 0;
  }

  /** Trimming removes a final newline after a clean string. */
  lemma TrimDropsNewline(s: string)
    requires s != [] && !IsTrimChar(s[0]) && !IsTrimChar(s[|s| - 1])
    ensures Trim(s + "\n") == s
  {
    var u := s + "\n";
    assert u[0] == s[0];
    assert LeadingTrim(u) == 0;
    assert u[0..] == u;
    assert u[..|u| - 1] == s;
    assert TrailingTrim(s) == 0;
    assert TrailingTrim(u) == 1;
  }

  /** `implode($sep, $parts)`. */
  function Join(parts: seq<string>, sep: string): (r: string)
    ensures |parts| == 0 ==> r == ""
    ensures |parts| == 1 ==> r == parts[0]
    ensures |parts| > 1 ==> r == Join(parts[..|parts| - 1], sep) + sep + parts[|parts| - 1]
  {
    if |parts| == 0 then ""
    else if |parts| == 1 then parts[0]
    else Join(parts[..|parts| - 1], sep) + sep + parts[|parts| - 1]
  }

  /** A join ends with the last part's last character. */
  lemma JoinEndsWithLast(parts: seq<string>, sep: string)
    requires |parts| > 0 && parts[|parts| - 1] != []
    ensures var r := Join(parts, sep); var last := parts[|parts| - 1];
      |r| >= |last| && r[|r| - 1] == last[|last| - 1]
  {
  }

  function DigitChar(d: nat): char
    requires d < 10
  {
    "0123456789"[d]
  }

  function DigitValue(c: char): nat {
    if '0' <= c <= '9' then c as int - '0' as int else 0
  }

  predicate IsDigit(c: char) {
    '0' <= c <= '9'
  }

  /** Decimal digits of a natural number, most significant first. */
  function NatText(n: nat): (r: string)
    ensures |r| > 0
    ensures forall i :: 0 <= i < |r| ==> IsDigit(r[i])
    decreases n
  {
    if n < 10 then [DigitChar(n)] else NatText(n / 10) + [DigitChar(n % 10)]
  }

  /** The value of a string of decimal digits. */
  function ParseNat(s: string): nat
    decreases |s|
  {
    if |s| == 0 then 0 else 10 * ParseNat(s[..|s| - 1]) + DigitValue(s[|s| - 1])
  }

  /** Reading back the digits of `n` gives `n`. */
  lemma {:induction false} NatTextRoundTrip(n: nat)
    ensures ParseNat(NatText(n)) == n
    decreases n
  {
    var r := NatText(n);
    if n < 10 {
      assert r[..|r| - 1] == [];
    } else {
      NatTextRoundTrip(n / 10);
      assert r[..|r| - 1] == NatText(n / 10);
    }
  }

  /** Different numbers have different digits. */
  lemma NatTextInjective()
    ensures forall a: nat, b: nat :: NatText(a) == NatText(b) ==> a == b
  {
    forall a: nat, b: nat | NatText(a) == NatText(b)
      ensures a == b
    {
      NatTextRoundTrip(a);
      NatTextRoundTrip(b);
    }
  }

  /** A PHP array with integer keys is a list when its keys are 0, 1, 2, ... in order. */
  predicate IsPhpList(entries: seq<(nat, Json)>) {
    forall i :: 0 <= i < |entries| ==> entries[i].0 == i
  }

  /**
   `json_encode` of a PHP array with integer keys: a JSON list of the
   values when the array is a list, and otherwise an object holding each
   value under its key's decimal text.
   */
  function EncodeArray(entries: seq<(nat, Json)>): (j: Json)
    requires forall a, b :: 0 <= a < b < |entries| ==> entries[a].0 != entries[b].0
    ensures IsPhpList(entries) ==> j == JList(Seqs.Values(entries))
    ensures !IsPhpList(entries) ==> j.JObj?
    ensures !IsPhpList(entries) ==> forall i :: 0 <= i < |entries| ==>
      NatText(entries[i].0) in j.fields && j.fields[NatText(entries[i].0)] == entries[i].1
    ensures !IsPhpList(entries) ==> forall k :: k in j.fields ==> exists i :: 0 <= i < |entries| && k == NatText(entries[i].0)
  {
    if IsPhpList(entries) then JList(Seqs.Values(entries))
    else
      NatTextInjective();
      JObj(map i | 0 <= i < |entries| :: NatText(entries[i].0) := entries[i].1)
  }

  /** A re-indexed array (`array_values`) always encodes as a list. */
  lemma EncodeReindexed(values: seq<Json>)
    ensures EncodeArray(Seqs.Enumerate(values)) == JList(values)
  {
    assert Seqs.Values(Seqs.Enumerate(values)) == values;
  }

  /** `sprintf('%d', $n)`. */
  function Decimal(n: int): (r: string)
    ensures |r| > 0
    ensures n >= 0 ==> r == NatText(n)
    ensures n < 0 ==> r == "-" + NatText(-n)
  {
    if n < 0 then "-" + NatText(-n) else NatText(n)
  }

  /**
   The string a scalar becomes when passed to a non-strict `string`
   parameter or interpolated: None for null and arrays, which PHP rejects
   there with a TypeError.
   */
  function ScalarText(j: Json): (r: Option<string>)
    ensures j.JStr? ==> r == Some(j.s)
    ensures j.JNull? || IsArray(j) ==> r == None
  {
    match j
    case JStr(s) => Some(s)
    case JInt(n) => Some(Decimal(n))
    case JBool(b) => Some(if b then "1" else "")
    case _ => None
  }

  /** `"{$x}"` interpolation: null is empty and an array renders as "Array". */
  function Interpolate(j: Json): string {
    match j
    case JNull => ""
    case JList(_) => "Array"
    case JObj(_) => "Array"
    case _ => ScalarText(j).value
  }

  /** Left-pads with zeros to at least `width` characters. */
  function PadZero(s: string, width: nat): (r: string)
    ensures |r| == if |s| >= width then |s| else width
    ensures |s| >= width ==> r == s
    ensures |s| < width ==> r[width - |s|..] == s && forall i :: 0 <= i < width - |s| ==> r[i] == '0'
    decreases width - |s|
  {
    if |s| >= width then s else PadZero("0" + s, width)
  }
}

=== FILE: values.dfy ===
/**
 Values as the PHP code sees them: decoded JSON (`json_decode($body, true)`)
 and the small Option/Result wrappers the rest of the model is written with.

 A PHP array is either a list (keys 0..n-1), modelled as `JList`, or an array
 with string keys, modelled as `JObj`. Only string keys are ever read by the
 code being modelled.
 */
module Values {

  datatype Option<+T> = None | Some(value: T)

  datatype Result<+T, +E> = Ok(value: T) | Err(error: E)

  datatype Json =
    | JNull
    | JBool(b: bool)
    | JInt(n: int)
    | JStr(s: string)
    | JList(items: seq<Json>)
    | JObj(fields: map<string, Json>)

  /** PHP's `[]` where the value is used as a list. */
  const EmptyList: Json := JList([])

  /** PHP's `[]` where the value is used as a record. */
  const EmptyRecord: Json := JObj(map[])

  predicate IsArray(j: Json) {
    j.JList? || j.JObj?
  }

  /** PHP's conversion to bool; `empty($x)` is `!Truthy($x)`. */
  predicate Truthy(j: Json) {
    match j
    case JNull => false
    case JBool(b) => b
    case JInt(n) => n != 0
    case JStr(s) => s != "" && s != "0"
    case JList(items) => |items| > 0
    case JObj(fields) => |fields| > 0
  }

  /** Truthiness of a nullable string parameter. */
  predicate TruthyText(o: Option<string>) {
    o.Some? && o.value != "" && o.value != "0"
  }

  /** `$m[$k]` as a read: a missing key reads as null. */
  function Get(m: map<string, Json>, k: string): Json {
    if k in m then m[k] else JNull
  }

  /** `isset($m[$k])`: present and not null. */
  predicate IsSet(m: map<string, Json>, k: string) {
    k in m && m[k] != JNull
  }

  /** `$m[$k] ?? $fallback`. */
  function Coalesce(m: map<string, Json>, k: string, fallback: Json): (r: Json)
    ensures IsSet(m, k) ==> r == m[k]
    ensures !IsSet(m, k) ==> r == fallback
  {
    if IsSet(m, k) then m[k] else fallback
  }

  /** `$j[$k]` on any value: only a string-keyed array can hold the key. */
  function Member(j: Json, k: string): Json {
    if j.JObj? then Get(j.fields, k) else JNull
  }

  /** A nullable PHP string as a JSON value. */
  function NullableText(o: Option<string>): Json {
    if o.Some? then JStr(o.value) else JNull
  }

  /** A PHP list of strings. */
  function Texts(ss: seq<string>): (j: Json)
    ensures j.JList? && |j.items| == |ss|
    ensures forall i :: 0 <= i < |ss| ==> j.items[i] == JStr(ss[i])
  {
    JList(seq(|ss|, i requires 0 <= i < |ss| => JStr(ss[i])))
  }
}
